=== FILE: README.md ===
# Library Lounge: the book-issue decision logic in Dafny

Library Lounge is a small library system: an Express backend that records
book issues (request, approve, return, overdue notice) and an Angular
frontend with a member view, a librarian dashboard and a super-admin
dashboard. This project models the deterministic decisions around the
issue lifecycle that the backend controller, the route table and the
frontend components make, and proves what they promise.

* **Values.** The frontend reads untyped JSON. `Values.Value` is a
  JavaScript value (undefined, null, boolean, number, string, array,
  object), and `Get`, `Prop`, `Coalesce`/`CoalesceAll` (`??`), `Or`/`OrAll`
  (`||`), `And` (`&&`), `ToStr` (`String(v)`) and `NewDate`
  (`new Date(v).getTime()`) give the operators the exact JavaScript
  meaning, truthiness included. Numbers are integers: every number the
  code handles is an id or a millisecond count.
* **Time.** "Now" and "today" are parameters. A timestamp is an integer
  number of milliseconds, and a calendar day is a `Calendar.Date` triple.
  The host's date-string parser and its local-time view of a time value
  are function parameters.
* **Overdue.** `Elapsed.Split` is the days/hours decomposition that the
  backend's `notifyOverdueMail` and the overdue dialog's
  `computeOverdueText` share. `OverdueMail` models the controller with its
  404/400 exits. `OverdueDetails` models the dialog's wording and proves
  that the wording reads back as the decomposition.
* **Access control.** `IssueRoutes` models the route table with its
  first-match dispatch. `Guards` models the role and token guards, and
  `AuthInterceptor` models the header and error classification.
* **Forms.** `RequestDialog` models the return-date dialog on top of
  `Calendar`, which holds JavaScript's month-overflowing `new Date(y, m-1, d)`.
  `BookCreate` models the book editor, and `Signup` models the registration
  form. Its two regular expressions are each proved equal to a plain
  description of their language.
* **Lists.** `IssueRows` holds the list logic the pages share:
  * the newest-first sort (stable, as `Array.prototype.sort` is);
  * the two-phase title and member fill: first from nested records, then
    from fetched records keyed by `String(id)`.

  `LibrarianDashboard`, `AdminDashboard`, `MyRequests` and `BookList`
  instantiate that logic with each page's own field chains.

Behaviour of the code that the proofs make explicit:
* `contactUser` repeats `issue_id` at the end of its id chain, which is harmless.
* A row whose only book id is `0` is looked up under the key `""` on the
  dashboards. Unless a fetched record is stored under `""`, it receives no
  fetched title, even when the record for id 0 was fetched.
* `Num(5)` and `Str("5")` share a lookup key.
* The member page overwrites an existing title whenever a fetched record
  was found for the row's book.
* In the member page's `onRequestReturn`, a present but falsy `id` (such as
  `0`) hides the later id fields.
* The super-admin page keeps a non-array response object as its list,
  where the other pages fall back to an empty list.
* `notifyOverdueMail` never reads the issue's status. Only `return_date`
  and the clock decide whether the issue is overdue.

## Model

| member | source | states |
|---|---|---|
| Elapsed.Split | Backend/controllers/bookIssueController.js:122-124 | the day count and hours below 24 bracket the difference to within one hour |
| Elapsed.SplitUnique | Backend/controllers/bookIssueController.js:122-124 | any day/hour pair with hours below 24 that brackets the difference is the split, so the split is the decomposition |
| Elapsed.SplitRanges | Frontend/src/app/shared/overdue-details/overdue-details.ts:89-93 | the split is zero days and zero hours exactly below one hour, and zero days exactly below one day |
| OverdueMail.ParsePeriodText | Backend/controllers/bookIssueController.js:125 | the period text reads back as the span it was made from, so nothing is lost in printing |
| OverdueMail.NotifyOverdueMail | Backend/controllers/bookIssueController.js:109-156 | success exactly when the issue exists, is overdue and the user is found; the success reply carries the user's address; failures are 400 or 404; an unknown issue is 404 and a non-overdue one is 400 with no e-mail; an e-mail goes only to the user's address; a throwing issue, user or book lookup is a 400 carrying the thrown message; an overdue issue whose user is not found is 404 "User not found"; no failure sends an e-mail or logs anything; on the successful path the outcome is exactly the queued notice of `Queue` |
| OverdueMail.Queue | Backend/controllers/bookIssueController.js:145-152 | the reply is the 200 "Overdue email queued" naming the member's address; the e-mail composed for the issue is handed over exactly when the emitter does not throw; a throwing emitter adds one log line after the send line |
| OverdueMail.Compose | Backend/controllers/bookIssueController.js:139-143 | the e-mail goes to the member's address; its subject is "Overdue book notice: " followed by the book's title, or "Your borrowed book" without a book; its notice is the issue's notice |
| OverdueMail.OverdueNotice | Backend/controllers/bookIssueController.js:140-141 | the notice names the book's title (or "N/A"), reads back as the days and hours since the return date, and carries the member's name, address and phone |
| OverdueMail.SuccessfulNoticeIsSent | Backend/controllers/bookIssueController.js:137-152 | a successful reply with a working emitter always hands over an e-mail, addressed to the member, with the subject naming the book or "Your borrowed book" |
| OverdueMail.BodyReportsNotice | Backend/controllers/bookIssueController.js:140-142 | the e-mail's text contains the book title line, the overdue period line and the member's e-mail line |
| OverdueMail.OverdueReadsOnlyReturnDate | Backend/controllers/bookIssueController.js:115-131 | changing any field other than `return_date`, the status included, never changes the overdue decision |
| OverdueMail.NoReturnDateNotOverdue | Backend/controllers/bookIssueController.js:116-121 | a missing or falsy return date is never overdue |
| OverdueMail.OverdueStaysOverdue | Backend/controllers/bookIssueController.js:119-121 | an issue overdue now is overdue at every later time |
| OverdueMail.EmittedPeriodIsElapsed | Backend/controllers/bookIssueController.js:119-147 | an e-mail is sent only for an issue with a return date, and its period text reads back as the days and hours (below 24) that bracket the time elapsed since the return date |
| OverdueMail.EmitFailureSwallowed | Backend/controllers/bookIssueController.js:145-152 | a failing emitter changes neither the reply nor its status; only the log gains the failure line, and no e-mail is sent |
| OverdueDetails.ParseDescribeSpan | Frontend/src/app/shared/overdue-details/overdue-details.ts:91-93 | every wording reads back as the span it describes under the singular/plural grammar: the wording is unambiguous |
| OverdueDetails.ParseDescribeDays | Frontend/src/app/shared/overdue-details/overdue-details.ts:91 | a day count with its hour remainder, printed as "N day(s)[, H hr]", reads back as that count and remainder |
| OverdueDetails.ParseDescribeHours | Frontend/src/app/shared/overdue-details/overdue-details.ts:92 | an hour count without days, printed as "H hour(s)", reads back as that count |
| OverdueDetails.DescribeSpanNotLess | Frontend/src/app/shared/overdue-details/overdue-details.ts:91-93 | "Less than an hour" is never the wording for a span of at least one hour |
| OverdueDetails.NoDateShowsDash | Frontend/src/app/shared/overdue-details/overdue-details.ts:83-86 | a missing, falsy or unparsable return date gives "-" |
| OverdueDetails.NotYetDue | Frontend/src/app/shared/overdue-details/overdue-details.ts:87-88 | a return date at or after now gives "Not overdue" |
| OverdueDetails.OverdueTextDescribesElapsed | Frontend/src/app/shared/overdue-details/overdue-details.ts:82-94 | a past return date gives a wording that reads back as the days and hours (below 24) bracketing the elapsed time, and "Less than an hour" exactly when less than an hour has passed |
| OverdueDetails.AgreesWithBackend | Frontend/src/app/shared/overdue-details/overdue-details.ts:83-93 | for a row with a return date, the dialog shows an overdue period exactly when the backend counts the issue overdue |
| OverdueDetails.ContactUser | Frontend/src/app/shared/overdue-details/overdue-details.ts:63-70 | a notice is requested only with a truthy issue id, and that id is `issue_id` when it is defined, else `id` when that is defined, else `issueId` |
| OverdueDetails.ContactUserGuard | Frontend/src/app/shared/overdue-details/overdue-details.ts:64-69 | a notice is requested exactly when the first defined id field among `issue_id`, `id`, `issueId` is truthy, and the id sent is that first defined field |
| DisplayDate.FormatDisplayDate | Frontend/src/app/shared/overdue-details/overdue-details.ts:96-104 | a falsy date shows "-" and an unparsable one shows its own text |
| DisplayDate.UnparsableShownAsIs | Frontend/src/app/books/my-issueRequests/my-issueRequests.ts:133-136 | a non-empty text the parser rejects, or whose time is out of range, is shown unchanged |
| DisplayDate.DisplayDateReadsBack | Frontend/src/app/dashboard/librarian/librarian-dashboard.ts:310-318 | a parsable date with a four-digit year is shown as ten characters that read back as its local calendar day in DD/MM/YYYY |
| DisplayDate.DisplayDateInjective | Frontend/src/app/dashboard/super-admin/super-admin-dashboard.ts:186-194 | two parsable dates shown alike fall on the same local calendar day |
| Calendar.DaysInMonth | Frontend/src/app/books/book-request-dialog/book-request-dialog.ts:117-118 | months have 28 to 31 days; 31 exactly for the seven long months; 28 exactly for February of a common year |
| Calendar.BeforeTotal | Frontend/src/app/books/book-request-dialog/book-request-dialog.ts:126 | calendar order is asymmetric and total, so "before today" is well defined |
| Calendar.ConstructorYear | Frontend/src/app/books/book-request-dialog/book-request-dialog.ts:117 | the date constructor changes the year exactly for years 0 to 99 |
| Calendar.Compose | Frontend/src/app/books/book-request-dialog/book-request-dialog.ts:117 | the composed day always exists on the calendar, in the constructor's year |
| Calendar.ComposeRoundTrip | Frontend/src/app/books/book-request-dialog/book-request-dialog.ts:117-121 | composing gives back the typed parts exactly when the day exists and the year is not in 0 to 99 |
| Calendar.ParseFormatIso | Frontend/src/app/books/book-request-dialog/book-request-dialog.ts:170-175 | a valid date with a four-digit year prints as ten characters that read back as YYYY-MM-DD to the same date |
| Calendar.ParseFormatDmy | Frontend/src/app/shared/overdue-details/overdue-details.ts:100-103 | a valid date with a four-digit year prints as ten characters that read back as DD/MM/YYYY to the same date |
| RequestDialog.ConfirmTyped | Frontend/src/app/books/book-request-dialog/book-request-dialog.ts:100-131 | a part that is not an integer is refused with "Date parts must be numbers." and that message arises only then; numeric parts with a year not four characters long, a month outside 1..12 or a day outside 1..31 are refused with "Please enter a valid date."; what is sent is the YYYY-MM-DD text of the typed year, month and day themselves, an existing day not before today |
| RequestDialog.ConfirmPicked | Frontend/src/app/books/book-request-dialog/book-request-dialog.ts:133-147 | no pick is refused with "Please select a return date." and that message arises only then; a pick before today is refused as past; any other pick is sent, printed as YYYY-MM-DD |
| RequestDialog.Confirm | Frontend/src/app/books/book-request-dialog/book-request-dialog.ts:92-148 | a role other than member, in any case, is refused with "Access Denied"; otherwise each path sends only an existing day not before today, the typed path the date the parts name; a member with nothing typed and nothing picked is refused with "Please select a return date." |
| RequestDialog.OnCalendarChange | Frontend/src/app/books/book-request-dialog/book-request-dialog.ts:176-185 | no event leaves the form unchanged; a picked day is stored and the error is cleared |
| RequestDialog.SubmittedDateIsValid | Frontend/src/app/books/book-request-dialog/book-request-dialog.ts:92-148 | whatever was sent came from a member and is the ISO text of an existing day not before today |
| RequestDialog.PartialDateRefused | Frontend/src/app/books/book-request-dialog/book-request-dialog.ts:100-104 | some but not all typed parts give the "full return date" message |
| RequestDialog.TodayAccepted | Frontend/src/app/books/book-request-dialog/book-request-dialog.ts:138-147 | picking today itself is accepted and sends today's date |
| RequestDialog.TypedRejections | Frontend/src/app/books/book-request-dialog/book-request-dialog.ts:105-135 | for a member, a non-integer typed part gives "Date parts must be numbers.", numeric parts out of range give "Please enter a valid date.", and nothing typed or picked gives "Please select a return date." |
| RequestDialog.TypedDateDecision | Frontend/src/app/books/book-request-dialog/book-request-dialog.ts:112-131 | for parts in range, the outcome is exactly: a non-existent day (or a year 0 to 99) refused, a past day refused, otherwise the day sent |
| RequestDialog.NonexistentDates | Frontend/src/app/books/book-request-dialog/book-request-dialog.ts:117-121 | 31 April and 29 February of a common year overflow into the next month, while 29 February of a leap year exists |
| RequestDialog.PickedPartsParse | Frontend/src/app/books/book-request-dialog/book-request-dialog.ts:176-185 | the parts written from a picked day parse back to that day's year, month and day |
| RequestDialog.PickThenConfirm | Frontend/src/app/books/book-request-dialog/book-request-dialog.ts:99-131 | after picking a day, confirming sends exactly that day unless it is before today |
| RequestDialog.RequestFailedMessage | Frontend/src/app/books/book-request-dialog/book-request-dialog.ts:159-162 | the error shown is never empty: the error's own message when it is truthy, else "Request failed" |
| IssueRoutes.FirstMatch | Backend/routes/bookIssues.js:9-19 | the chosen route matches and no earlier registered route does; no route is chosen only when none matches |
| IssueRoutes.FirstFailing | Backend/routes/bookIssues.js:13 | the validators pass exactly when none fails, and a reported failure is one of the route's validators |
| IssueRoutes.Dispatch | Backend/routes/bookIssues.js:9-19 | a handler runs only for an authenticated role listed on its route; a matched route without credentials is unauthenticated before any role check |
| IssueRoutes.DispatchHonoursPermissions | Backend/routes/bookIssues.js:9-19 | every handler reached respects the permission table, and a matched route reaches its handler exactly for a permitted role whose validators all pass |
| IssueRoutes.RequestNotShadowed | Backend/routes/bookIssues.js:9-13 | `POST /request` is taken by the request route, never by the later `POST /:id` |
| IssueRoutes.IssueBookGuards | Backend/routes/bookIssues.js:13 | approval is reached only by a librarian, with both validators passing, on a one-segment path other than "request" |
| IssueRoutes.EveryRouteReachable | Backend/routes/bookIssues.js:9-19 | no route is shadowed by an earlier one: each is the first match for some path |
| IssueRoutes.FirstMatchIsFirst | Backend/routes/bookIssues.js:9-19 | a matching route with no earlier match is the one dispatched to |
| Guards.RoleGuard | Frontend/src/app/auth/role.guard.ts:10-23 | refusal redirects to "/login" exactly when no role is stored, else to "/" |
| Guards.RoleGuardAdmits | Frontend/src/app/auth/role.guard.ts:11-22 | navigation is allowed exactly when a role is stored and the route lists no roles or lists that role |
| Guards.RoleGuardIsCaseSensitive | Frontend/src/app/auth/role.guard.ts:17 | "superadmin" is refused where "superAdmin" is listed |
| Guards.AuthGuard | Frontend/src/app/auth/auth.guard.ts:12-41 | no token sends the user to login with the session untouched; allowing never alters the session; every refusal redirects to login |
| Guards.AuthGuardExpiry | Frontend/src/app/auth/auth.guard.ts:25-33 | with a token, refusal happens exactly when a numeric expiry second ended before now, and the refusal logs out |
| Guards.AuthGuardWithoutExpiry | Frontend/src/app/auth/auth.guard.ts:21-40 | a payload that fails to decode or has no numeric expiry lets the user through |
| Guards.AuthGuardRefusalPersists | Frontend/src/app/auth/auth.guard.ts:27-28 | a token refused now stays refused later |
| AuthInterceptor.AuthorizationHeader | Frontend/src/app/shared/interceptors/auth.interceptor.ts:10-11 | a header is added exactly when a token is stored |
| AuthInterceptor.HeaderCarriesToken | Frontend/src/app/shared/interceptors/auth.interceptor.ts:11 | the header is the token, unchanged, after the "Bearer " scheme |
| AuthInterceptor.CatchFailure | Frontend/src/app/shared/interceptors/auth.interceptor.ts:19-43 | the connection error is raised exactly for connection failures, and the session changes only with the session-expired error |
| AuthInterceptor.CatchFailureByStatus | Frontend/src/app/shared/interceptors/auth.interceptor.ts:22-42 | status 0 is a connection error with or without a token; 401/403 end the session only when a token was sent; every other status reaches the caller unchanged |
| AuthInterceptor.UnknownErrorIsConnectionFailure | Frontend/src/app/shared/interceptors/auth.interceptor.ts:22 | an Error reading "Http failure response: Unknown Error" counts as a connection failure whatever its status |
| BookCreate.Init | Frontend/src/app/books/book-create-dialog/book-create-dialog.ts:38-49 | without a book the form is blank; with one, the editing id is a truthy `book_id`, else a truthy `id`, else null; title, author, publisher and category are the book's field when truthy, else ""; the image URL is a truthy `imageUrl`, else a truthy `imageURL`, else "" |
| BookCreate.UrlMatchesLanguage | Frontend/src/app/books/book-create-dialog/book-create-dialog.ts:65-66 | the URL test accepts exactly an http:// or https:// prefix followed by a first character that is not a line terminator |
| BookCreate.Confirm | Frontend/src/app/books/book-create-dialog/book-create-dialog.ts:51-106 | a save happens only for a valid form with all five fields, a matching URL of at most 255 characters; it updates exactly when editing, under the editing id; with a valid form, any of the five fields falsy is refused with "Please fill all fields"; when every check passes the five fields are saved, as an update under the editing id when there is one and as a create otherwise |
| BookCreate.ConfirmCheckOrder | Frontend/src/app/books/book-create-dialog/book-create-dialog.ts:54-75 | form validity is checked first, then presence, then the URL prefix, and the length message arises only for a matching URL that is too long; a valid, complete form whose URL matches but is too long is refused with "Image URL must not exceed 255 characters" |
| BookCreate.EditUnchangedSavesBack | Frontend/src/app/books/book-create-dialog/book-create-dialog.ts:38-88 | opening a complete valid book and confirming at once updates that book with its own fields |
| BookCreate.SaveErrorMessage | Frontend/src/app/books/book-create-dialog/book-create-dialog.ts:94-102 | the error shown after a failed save is never empty; a 400 whose server message contains "image_url", "imageurl" or "image url" in any letter case shows the length message; otherwise the first truthy of `err.error.message`, `err.error`, `err.message` is shown, and when all three are falsy the default for the action |
| BookCreate.SaveErrorMapping | Frontend/src/app/books/book-create-dialog/book-create-dialog.ts:97-119 | the length message is shown only for a 400 or when the server itself sent that text; the server's upper-case "IMAGE_URL too long" on a 400 is mapped to it |
| Signup.PhoneMatchesLanguage | Frontend/src/app/auth/signup/signup.ts:26 | the phone test accepts exactly an optional "+" and one-to-three-digit code with an optional separator, then ten digits |
| Signup.PhoneWitness | Frontend/src/app/auth/signup/signup.ts:26 | every accepted phone has a decomposition into code, separator and ten digits |
| Signup.PhoneTextMatches | Frontend/src/app/auth/signup/signup.ts:26 | every well-formed number is accepted |
| Signup.PasswordPatternMeaning | Frontend/src/app/auth/signup/signup.ts:27-31 | the pattern accepts exactly passwords of at least 8 characters without line terminators holding a lower-case letter, an upper-case letter, a digit and a listed special character |
| Signup.FormValidMeaning | Frontend/src/app/auth/signup/signup.ts:23-38 | the form is valid exactly when the name has at least three characters, the e-mail is given and accepted, the phone matches, the password is strong and equals its confirmation, and a role is chosen |
| Signup.Submit | Frontend/src/app/auth/signup/signup.ts:44-53 | a request is sent exactly for a valid form, and it carries the confirmed password and never the confirmation field |
| Signup.JoinErrors | Frontend/src/app/auth/signup/signup.ts:58 | a non-array gives undefined and an array gives text; a one-element array gives that element's text, null and undefined printing as "" |
| Signup.JoinErrorsAppend | Frontend/src/app/auth/signup/signup.ts:58 | appending a field error to a non-empty list appends ", " and the error's text to the joined message |
| Signup.OnReply | Frontend/src/app/auth/signup/signup.ts:56-65 | an error is shown exactly for a rejected reply, and the message is never empty; on success it is the reply's truthy `message`, else "Signup successful. Redirecting..." |
| Signup.OnFailure | Frontend/src/app/auth/signup/signup.ts:67-71 | the message is never empty; the joined `err.error.feildErrors` win when truthy, then `err.error.message`, then `err.message`, and "Signup failed" when none is truthy |
| Signup.FailureMessagePriority | Frontend/src/app/auth/signup/signup.ts:57-58 | joined field errors win over the message and the message over "Signup failed"; an empty list counts as none |
| Signup.FieldErrorsJoined | Frontend/src/app/auth/signup/signup.ts:58 | field errors are joined with ", " |
| BookList.FieldText | Frontend/src/app/books/book-list/book-list.ts:86-89 | a missing or falsy field reads as "" and a text field as its lower-case form |
| BookList.FilterBooks | Frontend/src/app/books/book-list/book-list.ts:79-91 | a blank term keeps the catalogue; otherwise a book is kept exactly when it is in the catalogue and one of its four fields contains the term |
| BookList.FilterBooksKeepsOrder | Frontend/src/app/books/book-list/book-list.ts:85-90 | filtering a catalogue in two pieces gives the two results in order: the result is an order-preserving subsequence |
| BookList.SearchIgnoresCase | Frontend/src/app/books/book-list/book-list.ts:80-86 | "Dune" finds a title written "DUNE Messiah" |
| BookList.MissingFieldsNeverMatch | Frontend/src/app/books/book-list/book-list.ts:86-89 | a book without the four fields matches no non-empty word |
| BookList.IsLibrarian | Frontend/src/app/books/book-list/book-list.ts:46-47 | staff exactly when a role is stored and its lower-case form is one of the three staff spellings; no stored role is never staff |
| BookList.IsLibrarianOnServerRoles | Frontend/src/app/books/book-list/book-list.ts:46-47 | the server's "librarian" and "superAdmin" and the spelling "Super Admin" count as staff, "member" does not |
| BookList.RequestIssue | Frontend/src/app/books/book-list/book-list.ts:98-111 | without a token the page goes to login; otherwise the dialog opens for the book's id and title |
| IssueRows.IssuedAtFallback | Frontend/src/app/dashboard/librarian/librarian-dashboard.ts:49-53 | the key reads the first of the five timestamp fields that is neither null nor undefined; a row without any, or whose field is falsy or not a date, sorts as time 0, and otherwise as the field's time value |
| IssueRows.ResponseList | Frontend/src/app/dashboard/librarian/librarian-dashboard.ts:116 | an array response is the list; otherwise a truthy `data` is the list, and an object without truthy `data` gives the empty list |
| IssueRows.SortByIssuedDate | Frontend/src/app/dashboard/librarian/librarian-dashboard.ts:47-55 | a non-array is left alone; an array becomes a permutation of itself ordered newest first |
| IssueRows.SortByIssuedDateStable | Frontend/src/app/dashboard/super-admin/super-admin-dashboard.ts:170-180 | rows with equal keys keep their relative order, and a list already newest first is unchanged |
| IssueRows.FillNested | Frontend/src/app/dashboard/librarian/librarian-dashboard.ts:228-232 | a filled field is left alone, and no other field changes |
| IssueRows.Candidates | Frontend/src/app/dashboard/librarian/librarian-dashboard.ts:237-240 | the ids to fetch are exactly the defined ids of the rows whose field is still empty |
| IssueRows.LookupTable | Frontend/src/app/dashboard/librarian/librarian-dashboard.ts:250-255 | the table holds only truthy fetched records, each under the printed form of an id it was fetched for, and every id with a truthy record is present |
| IssueRows.LookupTableUnique | Frontend/src/app/dashboard/librarian/librarian-dashboard.ts:252-254 | an id whose printed form no other id shares finds exactly its own record |
| IssueRows.FillFetched | Frontend/src/app/dashboard/librarian/librarian-dashboard.ts:257-264 | a filled field is left alone, and no other field changes |
| IssueRows.Attach | Frontend/src/app/dashboard/librarian/librarian-dashboard.ts:224-266 | the list keeps its length, rows with the field already filled are unchanged, and no other field of any row changes |
| IssueRows.FillAll | Frontend/src/app/dashboard/librarian/librarian-dashboard.ts:257-264 | the fetch completion keeps the list's length and touches only the filled field |
| IssueRows.KeyIgnoresOtherFields | Frontend/src/app/dashboard/librarian/librarian-dashboard.ts:49-53 | rows differing only outside the timestamp fields have the same key |
| IssueRows.SortThenFill | Frontend/src/app/dashboard/librarian/librarian-dashboard.ts:118-120 | filling a non-timestamp field after the sort gives the same list as sorting after the fill |
| IssueRows.LoadUnsorted | Frontend/src/app/dashboard/librarian/librarian-dashboard.ts:118-119 | attaching titles and members keeps the length and touches only those two fields |
| IssueRows.LoadRowsSorted | Frontend/src/app/dashboard/librarian/librarian-dashboard.ts:116-120 | the loaded list is the sort of the fully filled rows: newest first and a permutation of them, whatever the fetches return |
| IssueRows.AttachFillsFromFetch | Frontend/src/app/dashboard/librarian/librarian-dashboard.ts:237-263 | with numeric ids, an empty row whose fetch returned a truthy value gets exactly that value |
| IssueRows.AttachAt | Frontend/src/app/dashboard/librarian/librarian-dashboard.ts:250-264 | each row of the result is its nested-filled row completed from the fetched table |
| IssueRows.PendingIdsAreNumbers | Frontend/src/app/dashboard/librarian/librarian-dashboard.ts:237-240 | numeric row ids give numeric ids to fetch |
| IssueRows.DistinctNumbersPrintDistinct | Frontend/src/app/dashboard/librarian/librarian-dashboard.ts:252-253 | distinct numeric ids never share a lookup key |
| LibrarianDashboard.GetIssueId | Frontend/src/app/dashboard/librarian/librarian-dashboard.ts:58-62 | an id exists exactly for a truthy row with a defined id field, and it is the printed form of the first defined one (defined, with every earlier field null or undefined) |
| LibrarianDashboard.GetIssueIdReadsIdFields | Frontend/src/app/dashboard/librarian/librarian-dashboard.ts:60 | fields other than the four id fields never change the id |
| LibrarianDashboard.IsApprovalAllowed | Frontend/src/app/dashboard/librarian/librarian-dashboard.ts:65-69 | approval is offered exactly when the status reads "requested" in any case |
| LibrarianDashboard.ApprovalAllowedExamples | Frontend/src/app/dashboard/librarian/librarian-dashboard.ts:65-69 | "Requested" and "REQUESTED" are offered; "issued", "rejected" and a missing status are not |
| LibrarianDashboard.ErrorMessage | Frontend/src/app/dashboard/librarian/librarian-dashboard.ts:98 | `err.error.message` wins when truthy, else `err.message` when truthy, else the fallback; with a non-empty fallback the message is never empty |
| LibrarianDashboard.ApplyApproval | Frontend/src/app/dashboard/librarian/librarian-dashboard.ts:72-103 | a request is sent exactly for a row with an id and a selection, with that choice; on success the selection is cleared, others are kept, the status is issued or rejected and approval is no longer offered; on failure nothing changes; only the status ever changes |
| LibrarianDashboard.ApplyApprovalOnce | Frontend/src/app/dashboard/librarian/librarian-dashboard.ts:72-87 | after a successful approval, applying again sends nothing |
| LibrarianDashboard.ConfirmReturn | Frontend/src/app/dashboard/librarian/librarian-dashboard.ts:273-308 | a row without an id is refused; otherwise the prompt names the book, and the return is sent for the row's id exactly once confirmed, with the success toast exactly when it succeeds |
| LibrarianDashboard.LoadList | Frontend/src/app/dashboard/librarian/librarian-dashboard.ts:112-176 | a loaded list keeps its length, is newest first, and is a permutation of the rows with titles and members attached |
| LibrarianDashboard.NestedFillFallbacks | Frontend/src/app/dashboard/librarian/librarian-dashboard.ts:183-232 | a book record's `name` fills the title and `user_name` fills the member name |
| LibrarianDashboard.BookIdChain | Frontend/src/app/dashboard/librarian/librarian-dashboard.ts:238-259 | `bookId` wins over `book_id` whenever it is defined, and the nested `book.id` counts only when both are null or undefined; with neither, the id is truthy exactly when the row has a book record with a truthy id |
| LibrarianDashboard.UserIdChain | Frontend/src/app/dashboard/librarian/librarian-dashboard.ts:193-214 | `userId`, `user_id` and `requested_by` win in that order whenever defined, and the nested `user.id` counts only when all three are null or undefined |
| LibrarianDashboard.NameChains | Frontend/src/app/dashboard/librarian/librarian-dashboard.ts:184-217 | a fetched user's name is its first truthy `name`, `fullName` or first element's `name`; a nested user record's name wins over the row's `user_name`/`userName` |
| LibrarianDashboard.LoadKeepsExisting | Frontend/src/app/dashboard/librarian/librarian-dashboard.ts:179-266 | an existing title or member name is never overwritten |
| LibrarianDashboard.ZeroBookIdNeverMatches | Frontend/src/app/dashboard/librarian/librarian-dashboard.ts:259-261 | a book id of 0 looks up the key ""; when no fetched record is stored under "", the row is left unchanged even if the record for id 0 was fetched |
| AdminDashboard.ListOfObjectWithoutData | Frontend/src/app/dashboard/super-admin/super-admin-dashboard.ts:55 | an object without `data` is kept as the list here, where the other pages see an empty list, and the sort leaves it alone |
| AdminDashboard.LoadList | Frontend/src/app/dashboard/super-admin/super-admin-dashboard.ts:53-60 | a loaded list keeps its length, is newest first, and is a permutation of the rows with titles and members attached |
| AdminDashboard.NestedTitleIgnoresName | Frontend/src/app/dashboard/super-admin/super-admin-dashboard.ts:131-135 | a book record with only a `name` fills no title here but does on the librarian's page |
| AdminDashboard.NestedTitleAgrees | Frontend/src/app/dashboard/super-admin/super-admin-dashboard.ts:131-135 | a book record with a title fills alike on both dashboards |
| AdminDashboard.SameUserId | Frontend/src/app/dashboard/super-admin/super-admin-dashboard.ts:197 | the handler's truthy id is the id the list filter compares with |
| AdminDashboard.ConfirmDeleteUser | Frontend/src/app/dashboard/super-admin/super-admin-dashboard.ts:196-221 | no truthy id means no dialog; the prompt names the user; a delete is sent exactly once confirmed, for the user's id; only a successful delete filters the list |
| AdminDashboard.DeleteRemovesExactly | Frontend/src/app/dashboard/super-admin/super-admin-dashboard.ts:214 | a user stays exactly when its id prints unlike the deleted id, and the kept users stay in order |
| AdminDashboard.DeletedUserRemoved | Frontend/src/app/dashboard/super-admin/super-admin-dashboard.ts:214 | the deleted user is not in the list afterwards |
| MyRequests.OnRequestReturn | Frontend/src/app/books/my-issueRequests/my-issueRequests.ts:37-51 | the dialog opens exactly when the first defined id field is truthy, and its id is that field (every earlier field null or undefined); otherwise the error message is shown |
| MyRequests.ZeroIdHidesLaterIds | Frontend/src/app/books/my-issueRequests/my-issueRequests.ts:39-41 | an `id` of 0 blocks the request although `issue_id` is set |
| MyRequests.NullIdSkipped | Frontend/src/app/books/my-issueRequests/my-issueRequests.ts:39 | a null `_id` is passed over for `issue_id` |
| MyRequests.BookIds | Frontend/src/app/books/my-issueRequests/my-issueRequests.ts:78-80 | the ids to fetch are distinct and defined, each is a row's book key, and every defined key is among them |
| MyRequests.LookupKeyOfPresent | Frontend/src/app/books/my-issueRequests/my-issueRequests.ts:105 | a row with a book key looks up under that key's printed form |
| MyRequests.TitleFrom | Frontend/src/app/books/my-issueRequests/my-issueRequests.ts:103-114 | only the title changes; a row without a fetched book is unchanged; with one, the title becomes the fetched title, else the old one |
| MyRequests.Titled | Frontend/src/app/books/my-issueRequests/my-issueRequests.ts:95-114 | the title step keeps the length and touches only titles |
| MyRequests.Fetch | Frontend/src/app/books/my-issueRequests/my-issueRequests.ts:67-131 | a failed load empties the list and shows the truthy `err.message`, else the non-empty `String(err)`, else "Failed to load requests"; a successful one keeps the length, clears the error and is newest first |
| MyRequests.FetchSortsOnce | Frontend/src/app/books/my-issueRequests/my-issueRequests.ts:72-117 | the repeated sorts amount to one: the list is the sorted rows with titles attached |
| MyRequests.TitledShowsFetchedTitle | Frontend/src/app/books/my-issueRequests/my-issueRequests.ts:95-114 | with numeric book ids, a row whose book fetch gave a title shows that title |
| MyRequests.BookIdsAreNumbers | Frontend/src/app/books/my-issueRequests/my-issueRequests.ts:78-80 | numeric book keys give numeric ids to fetch |
| MyRequests.FetchedTitleNeedsRecord | Frontend/src/app/books/my-issueRequests/my-issueRequests.ts:108-110 | a fetched title exists only for a truthy record |
| MyRequests.FetchShowsFetchedTitle | Frontend/src/app/books/my-issueRequests/my-issueRequests.ts:67-117 | after a load, each row shows the title fetched for its book when there is one |
| MyRequests.FetchErrorEmpties | Frontend/src/app/books/my-issueRequests/my-issueRequests.ts:125-128 | a failed load shows no items, and the error's message when it has one |
| Sequences.SortDesc | Frontend/src/app/dashboard/librarian/librarian-dashboard.ts:54 | the sort is a permutation of its input |
| Sequences.SortDescSorted | Frontend/src/app/dashboard/librarian/librarian-dashboard.ts:54 | the sort's result is in non-increasing key order |
| Sequences.SortDescStable | Frontend/src/app/dashboard/super-admin/super-admin-dashboard.ts:177-179 | rows with equal keys keep their relative order |
| Sequences.SortDescIdempotent | Frontend/src/app/books/my-issueRequests/my-issueRequests.ts:117 | sorting a sorted list changes nothing |
| Sequences.Dedup | Frontend/src/app/dashboard/librarian/librarian-dashboard.ts:237-240 | the deduplicated ids are exactly the original ids, each once |
| Sequences.DedupKeepsFirstOccurrence | Frontend/src/app/dashboard/librarian/librarian-dashboard.ts:237 | ids appear in the order of their first occurrence, as a `Set` keeps them |
| Sequences.FilterAppend | Frontend/src/app/dashboard/super-admin/super-admin-dashboard.ts:214 | filtering distributes over concatenation, so the order of kept elements is preserved |
| Sequences.FilterMembership | Frontend/src/app/dashboard/super-admin/super-admin-dashboard.ts:214 | an element is kept exactly when it is in the input and passes the test |
| Values.ToStrNumInjective | Frontend/src/app/dashboard/librarian/librarian-dashboard.ts:253 | distinct numbers print as distinct strings |
| Text.TrimSpec | Frontend/src/app/books/book-list/book-list.ts:80 | trimming removes exactly the leading and trailing white space |

## Definitions

These members define what the code computes and carry no contract of
their own; the rows named after each one state their meaning.

- OverdueDetails.OverdueText (Frontend/src/app/shared/overdue-details/overdue-details.ts:82-94): OverdueDetails.NoDateShowsDash, NotYetDue, OverdueTextDescribesElapsed, AgreesWithBackend.
- OverdueDetails.DescribeSpan (Frontend/src/app/shared/overdue-details/overdue-details.ts:89-93): OverdueDetails.ParseDescribeSpan, ParseDescribeDays, ParseDescribeHours, DescribeSpanNotLess.
- OverdueMail.ReturnTime and OverdueMail.IsOverdue (Backend/controllers/bookIssueController.js:115-121): OverdueMail.NotifyOverdueMail, OverdueReadsOnlyReturnDate, NoReturnDateNotOverdue, OverdueStaysOverdue, EmittedPeriodIsElapsed.
- OverdueMail.PeriodText (Backend/controllers/bookIssueController.js:125): OverdueMail.ParsePeriodText, EmittedPeriodIsElapsed.
- Calendar.FormatIso (Frontend/src/app/books/book-request-dialog/book-request-dialog.ts:170-175): Calendar.ParseFormatIso.
- Calendar.FormatDmy (Frontend/src/app/shared/overdue-details/overdue-details.ts:100-103): Calendar.ParseFormatDmy.
- IssueRows.IssuedAt (Frontend/src/app/dashboard/librarian/librarian-dashboard.ts:49-53): IssueRows.IssuedAtFallback, KeyIgnoresOtherFields, SortByIssuedDate.
- BookList.SearchWord and BookList.Matches (Frontend/src/app/books/book-list/book-list.ts:80-90): BookList.FilterBooks, SearchIgnoresCase, MissingFieldsNeverMatch.
- AdminDashboard.ListOf (Frontend/src/app/dashboard/super-admin/super-admin-dashboard.ts:55): AdminDashboard.ListOfObjectWithoutData, LoadList.
- AdminDashboard.DeletePrompt (Frontend/src/app/dashboard/super-admin/super-admin-dashboard.ts:206): AdminDashboard.ConfirmDeleteUser.
- LibrarianDashboard.ReturnTitle (Frontend/src/app/dashboard/librarian/librarian-dashboard.ts:280): LibrarianDashboard.ConfirmReturn.
- LibrarianDashboard.BookIdOf, UserIdOf, NestedMemberName and FetchedName (Frontend/src/app/dashboard/librarian/librarian-dashboard.ts:184-259): LibrarianDashboard.BookIdChain, UserIdChain, NameChains, NestedFillFallbacks, ZeroBookIdNeverMatches.
- Signup.NameValid, PhoneMatches, PasswordPattern and FormValid (Frontend/src/app/auth/signup/signup.ts:23-38): Signup.FormValidMeaning, PhoneMatchesLanguage, PasswordPatternMeaning, Submit.
- IssueRoutes.Matches (Backend/routes/bookIssues.js:9-19): IssueRoutes.FirstMatch, FirstMatchIsFirst, RequestNotShadowed.
- IssueRoutes.Permitted (Backend/routes/bookIssues.js:9-19): IssueRoutes.DispatchHonoursPermissions.
- Guards.PayloadOf and Guards.Expiry (Frontend/src/app/auth/auth.guard.ts:21-26): Guards.AuthGuardExpiry, AuthGuardWithoutExpiry.
- OverdueMail.BodyLines, JoinLines and Body, and the `Email.Text` member (Backend/controllers/bookIssueController.js:140-142): OverdueMail.BodyReportsNotice.
- Signup.ErrorText and ErrorTexts (Frontend/src/app/auth/signup/signup.ts:58): Signup.JoinErrors, JoinErrorsAppend.
- MyRequests.LookupKey (Frontend/src/app/books/my-issueRequests/my-issueRequests.ts:105): MyRequests.LookupKeyOfPresent, TitleFrom.
- OverdueDetails.DialogData and ReturnDateOf (Frontend/src/app/shared/overdue-details/overdue-details.ts:25-28): OverdueDetails.NoDateShowsDash, NotYetDue, OverdueTextDescribesElapsed, AgreesWithBackend.
- BookCreate.FieldOrBlank (Frontend/src/app/books/book-create-dialog/book-create-dialog.ts:43-47): BookCreate.Init.
- BookCreate.UrlMatches, FieldMatches and TooLongField (Frontend/src/app/books/book-create-dialog/book-create-dialog.ts:64-74): BookCreate.UrlMatchesLanguage, Confirm, ConfirmCheckOrder.
- BookCreate.Payload (Frontend/src/app/books/book-create-dialog/book-create-dialog.ts:76-82): BookCreate.Confirm, EditUnchangedSavesBack.
- BookCreate.ServerMessage, SaveFallback and MentionsImageUrl (Frontend/src/app/books/book-create-dialog/book-create-dialog.ts:97-101): BookCreate.SaveErrorMessage, SaveErrorMapping.
- Signup.RejectedReply (Frontend/src/app/auth/signup/signup.ts:57): Signup.OnReply, FailureMessagePriority.
- Signup.PasswordMismatch (Frontend/src/app/auth/signup/signup.ts:37): Signup.FormValidMeaning.
- AuthInterceptor.IsConnectionFailure (Frontend/src/app/shared/interceptors/auth.interceptor.ts:22): AuthInterceptor.CatchFailure, CatchFailureByStatus, UnknownErrorIsConnectionFailure.
- AdminDashboard.BookTitle (Frontend/src/app/dashboard/super-admin/super-admin-dashboard.ts:132-133): AdminDashboard.NestedTitleIgnoresName, NestedTitleAgrees, LoadList.
- AdminDashboard.UserIdField, Keeps and KeepsUser (Frontend/src/app/dashboard/super-admin/super-admin-dashboard.ts:197-214): AdminDashboard.SameUserId, ConfirmDeleteUser, DeleteRemovesExactly, DeletedUserRemoved.
- AdminDashboard.DisplayName (Frontend/src/app/dashboard/super-admin/super-admin-dashboard.ts:198): AdminDashboard.ConfirmDeleteUser.
- LibrarianDashboard.BookTitleOrName (Frontend/src/app/dashboard/librarian/librarian-dashboard.ts:229-230): LibrarianDashboard.NestedFillFallbacks, LoadKeepsExisting, AdminDashboard.NestedTitleAgrees.
- LibrarianDashboard.FetchedTitle (Frontend/src/app/dashboard/librarian/librarian-dashboard.ts:262): LibrarianDashboard.LoadKeepsExisting, MyRequests.TitledShowsFetchedTitle, FetchedTitleNeedsRecord, FetchShowsFetchedTitle.

## Left out

- The issue state machine (approve/return guards, duplicate requests, persistence) is in `bookIssueService.js`, which is not part of this model. The other controller actions only call that service.
- The SMTP transport and event emitter are I/O. The e-mail is modelled as the value handed to the emitter, and the emitter's failure is a boolean.
- `toLocaleDateString` is locale-dependent, so it is a parameter.
- JavaScript `Date` parsing and time zones are parameters: the host's parser, and its local-calendar view of a time value. Comparing two local midnights is modelled as calendar order.
- `Number(text)` is modelled for optional sign and decimal digits after trimming white space. Exponents, hexadecimal and fractional forms such as "1e1" or "05.0" are treated as non-integers.
- `toLowerCase` is modelled on ASCII letters only, and strings are sequences of characters, not UTF-16 code units.
- Set deduplication compares values structurally. JavaScript compares objects by identity, but ids are primitives in practice.
- Express path matching is modelled as exact segments. Case-insensitive matching and trailing slashes are not modelled.
- The authentication, role and validation middleware are not part of this model. They are parameters: the decoded role, membership in the route's list, and a pass/fail verdict per validator.
- The Angular e-mail validator is a parameter.
- The template form's validity in the book editor is a boolean parameter.
- `atob` and `JSON.parse` of the token payload are one decoding parameter. Fractional `exp` values are not modelled, because numbers are integers.
- HTTP calls, the toast and dialog calls, console logging and loading flags are not modelled; the texts the toasts and dialogs would show are carried in the results. Fetched records, the user's confirmation and request failures are parameters.
- Signup.JoinErrors: a `feildErrors` that is neither an array nor nullish would make the page throw, and this is not modelled.
- A null or undefined list response would make the list handlers throw. List elements are modelled as objects.
- `loadCounts`, `loadUsers`, the statistics tab and the overdue dialog's member/contact fill-in from a fetched user (overdue-details.ts lines 27-54) are not modelled. Only `DialogData` and `ReturnDateOf` model that constructor, as the inputs of the overdue text.
- The title and member fetches complete asynchronously in either order. The model completes the titles first; the two fill different fields, so the order does not affect the result.
- MyRequests.OnRequestReturn: the return request sent after confirmation, and its toasts, are not modelled.
- Calendar.Compose: years beyond the time-value range are not rejected as an Invalid Date.
- BookList.FieldText: a truthy field that is not a string (a number, say) has no `toLowerCase`, so the page would throw a TypeError; the model searches the field's `String(v)` text instead.
- OverdueDetails.ContactUser: the request is sent with `Number(issueId)` (overdue-details.ts line 70); the model passes the chosen id value on unconverted, so a string id is not turned into a number (or into NaN).
- AdminDashboard.ConfirmDeleteUser: the delete request is sent with `Number(id)` (super-admin-dashboard.ts line 211); the model passes the chosen id value on unconverted. The list filtering after the delete compares `String(id)`, which the model does model.

=== FILE: book_create.dfy ===
/** The create/edit book dialog: the fields it starts from, the checks
    `confirm` makes before saving, and how it words a failed save. */
module BookCreate {
  import opened Options
  import opened Text
  import opened Values

  /** The dialog's fields; `editingId` decides between update and create. */
  datatype Editor = Editor(editingId: Value, title: Value, author: Value, publisher: Value,
                           category: Value, imageUrl: Value)

  const Blank: Editor := Editor(Null, Str(""), Str(""), Str(""), Str(""), Str(""))

  /** `ngOnInit`: with `data.book` present, its id and fields, each
      defaulting to the empty string; otherwise a blank form. */
  function Init(data: Value): (e: Editor)
    ensures !Truthy(Prop(data, "book")) ==> e == Blank
    ensures Truthy(e.editingId) <==>
              Truthy(Prop(data, "book")) && (Truthy(Prop(Prop(data, "book"), "book_id")) || Truthy(Prop(Prop(data, "book"), "id")))
    ensures Truthy(Prop(data, "book")) && Truthy(Prop(Prop(data, "book"), "book_id")) ==>
              e.editingId == Prop(Prop(data, "book"), "book_id")
    ensures Truthy(Prop(data, "book")) && !Truthy(Prop(Prop(data, "book"), "book_id")) ==>
              e.editingId == (if Truthy(Prop(Prop(data, "book"), "id")) then Prop(Prop(data, "book"), "id") else Null)
    ensures var b := Prop(data, "book");
            Truthy(b) ==> e.title == FieldOrBlank(b, "title") && e.author == FieldOrBlank(b, "author")
                          && e.publisher == FieldOrBlank(b, "publisher") && e.category == FieldOrBlank(b, "category")
    ensures var b := Prop(data, "book");
            Truthy(b) ==> e.imageUrl == (if Truthy(Prop(b, "imageUrl")) then Prop(b, "imageUrl")
                                         else FieldOrBlank(b, "imageURL"))
  {
    var book := Prop(data, "book");
    if !(Truthy(data) && Truthy(book)) then Blank
    else
      var ids := [Prop(book, "book_id"), Prop(book, "id"), Null];
      OrAllTruthy(ids);
      assert ids[1..] == [ids[1], ids[2]];
      OrAllTruthy(ids[1..]);
      var urls := [Prop(book, "imageUrl"), Prop(book, "imageURL"), Str("")];
      OrAllTruthy(urls);
      assert urls[1..] == [urls[1], urls[2]];
      OrAllTruthy(urls[1..]);
      Editor(
        OrAll([Prop(book, "book_id"), Prop(book, "id"), Null]),
        Or(Prop(book, "title"), Str("")),
        Or(Prop(book, "author"), Str("")),
        Or(Prop(book, "publisher"), Str("")),
        Or(Prop(book, "category"), Str("")),
        OrAll([Prop(book, "imageUrl"), Prop(book, "imageURL"), Str("")]))
  }

  /** A field of the book when it is truthy, else the empty string. */
  function FieldOrBlank(book: Value, key: string): Value {
    if Truthy(Prop(book, key)) then Prop(book, key) else Str("")
  }

  /** `/^https?:\/\/.+/.test(s)`: the scheme, then at least one character
      that is not a line terminator. */
  predicate UrlMatches(s: string) {
    (|s| > 7 && s[..7] == "http://" && !IsLineTerminator(s[7]))
    || (|s| > 8 && s[..8] == "https://" && !IsLineTerminator(s[8]))
  }

  /** The language of the pattern, stated by construction: a scheme prefix
      followed by a text whose first character is not a line terminator. */
  lemma UrlMatchesLanguage(s: string)
    ensures UrlMatches(s) <==>
      exists scheme, rest :: scheme in ["http://", "https://"] && s == scheme + rest
                             && rest != [] && !IsLineTerminator(rest[0])
  {
    if UrlMatches(s) {
      if |s| > 7 && s[..7] == "http://" && !IsLineTerminator(s[7]) {
        assert s == "http://" + s[7..];
      } else {
        assert s == "https://" + s[8..];
      }
    }
  }

  const FixFields: string := "Please fix the highlighted fields"
  const FillAll: string := "Please fill all fields"
  const BadScheme: string := "Image URL must start with http:// or https://"
  const TooLong: string := "Image URL must not exceed 255 characters"

  datatype Save = Rejected(message: string) | Update(id: Value, payload: Row) | Create(payload: Row)

  /** `RegExp.test` on a field: the pattern is matched against `String(v)`. */
  predicate FieldMatches(v: Value) {
    UrlMatches(ToStr(v))
  }

  /** `v.length > 255`: only strings have a length to compare. */
  predicate TooLongField(v: Value) {
    v.Str? && |v.s| > 255
  }

  function Payload(e: Editor): Row {
    map["title" := e.title, "author" := e.author, "publisher" := e.publisher,
        "category" := e.category, "imageUrl" := e.imageUrl]
  }

  /** `confirm`: `formInvalid` is the template form's own validity verdict. */
  function Confirm(e: Editor, formInvalid: bool): (s: Save)
    ensures !s.Rejected? ==>
              !formInvalid && Truthy(e.title) && Truthy(e.author) && Truthy(e.publisher)
              && Truthy(e.category) && Truthy(e.imageUrl)
              && FieldMatches(e.imageUrl) && !TooLongField(e.imageUrl)
    ensures s.Update? <==> !s.Rejected? && Truthy(e.editingId)
    ensures s.Update? ==> s.id == e.editingId
    ensures (!formInvalid && (!Truthy(e.title) || !Truthy(e.author) || !Truthy(e.publisher)
             || !Truthy(e.category) || !Truthy(e.imageUrl))) ==> s == Rejected(FillAll)
    ensures (!formInvalid && Truthy(e.title) && Truthy(e.author) && Truthy(e.publisher)
             && Truthy(e.category) && Truthy(e.imageUrl) && FieldMatches(e.imageUrl) && !TooLongField(e.imageUrl)) ==>
              s == (if Truthy(e.editingId) then Update(e.editingId, Payload(e)) else Create(Payload(e)))
  {
    if formInvalid then Rejected(FixFields)
    else if !Truthy(e.title) || !Truthy(e.author) || !Truthy(e.publisher) || !Truthy(e.category) || !Truthy(e.imageUrl) then
      Rejected(FillAll)
    else if !FieldMatches(e.imageUrl) then Rejected(BadScheme)
    else if TooLongField(e.imageUrl) then Rejected(TooLong)
    else if Truthy(e.editingId) then Update(e.editingId, Payload(e))
    else Create(Payload(e))
  }

  /** The checks run in order and the first failure decides the message. */
  lemma ConfirmCheckOrder(e: Editor, formInvalid: bool)
    ensures formInvalid ==> Confirm(e, formInvalid) == Rejected(FixFields)
    ensures !formInvalid && !Truthy(e.imageUrl) ==> Confirm(e, formInvalid) == Rejected(FillAll)
    ensures (!formInvalid && Truthy(e.title) && Truthy(e.author) && Truthy(e.publisher) && Truthy(e.category)
             && Truthy(e.imageUrl) && !FieldMatches(e.imageUrl)) ==> Confirm(e, formInvalid) == Rejected(BadScheme)
    ensures Confirm(e, formInvalid) == Rejected(TooLong) ==> FieldMatches(e.imageUrl) && TooLongField(e.imageUrl)
    ensures (!formInvalid && Truthy(e.title) && Truthy(e.author) && Truthy(e.publisher) && Truthy(e.category)
             && Truthy(e.imageUrl) && FieldMatches(e.imageUrl) && TooLongField(e.imageUrl)) ==>
              Confirm(e, formInvalid) == Rejected(TooLong)
  {
  }

  /** Opening a stored book whose fields are already acceptable and
      confirming saves the same fields back under the book's id. */
  lemma EditUnchangedSavesBack(book: map<string, Value>, id: int, title: string, author: string,
                               publisher: string, category: string, url: string)
    requires id != 0 && title != "" && author != "" && publisher != "" && category != ""
    requires UrlMatches(url) && |url| <= 255
    requires book == map["book_id" := Num(id), "title" := Str(title), "author" := Str(author),
                         "publisher" := Str(publisher), "category" := Str(category), "imageUrl" := Str(url)]
    ensures Confirm(Init(Obj(map["book" := Obj(book)])), false) == Update(Num(id), book - {"book_id"})
  {
    var e := Init(Obj(map["book" := Obj(book)]));
    assert e == Editor(Num(id), Str(title), Str(author), Str(publisher), Str(category), Str(url));
    assert Payload(e) == book - {"book_id"};
  }

  /** The message a failed save carries: `err.error.message`, else
      `err.error`, else `err.message`, the first truthy one. */
  function ServerMessage(err: Value): Value {
    OrAll([Prop(Prop(err, "error"), "message"), Prop(err, "error"), Prop(err, "message")])
  }

  /** The default message when the server gives none. */
  function SaveFallback(editing: bool): string {
    if editing then "Failed to update book" else "Failed to add book"
  }

  /** A failed save: a 400 whose message mentions the image URL in any
      letter case is reported as the length error; otherwise the server's
      message, else a default that says whether a book was being updated or
      added. */
  function SaveErrorMessage(err: Value, editing: bool): (m: Value)
    ensures Truthy(m)
    ensures (Prop(err, "status") == Num(400)
             && (Contains(Lower(ToStr(ServerMessage(err))), "image_url")
                 || Contains(Lower(ToStr(ServerMessage(err))), "imageurl")
                 || Contains(Lower(ToStr(ServerMessage(err))), "image url"))) ==> m == Str(TooLong)
    ensures ((Prop(err, "status") != Num(400) || !MentionsImageUrl(ToStr(ServerMessage(err))))
             && Truthy(Prop(Prop(err, "error"), "message"))) ==> m == Prop(Prop(err, "error"), "message")
    ensures ((Prop(err, "status") != Num(400) || !MentionsImageUrl(ToStr(ServerMessage(err))))
             && !Truthy(Prop(Prop(err, "error"), "message")) && Truthy(Prop(err, "error"))) ==> m == Prop(err, "error")
    ensures ((Prop(err, "status") != Num(400) || !MentionsImageUrl(ToStr(ServerMessage(err))))
             && !Truthy(Prop(Prop(err, "error"), "message")) && !Truthy(Prop(err, "error"))
             && Truthy(Prop(err, "message"))) ==>
              m == Prop(err, "message")
    ensures (!Truthy(Prop(Prop(err, "error"), "message")) && !Truthy(Prop(err, "error")) && !Truthy(Prop(err, "message"))) ==>
              m == Str(SaveFallback(editing))
  {
    var serverMsg := ServerMessage(err);
    OrAllTruthy([Prop(Prop(err, "error"), "message"), Prop(err, "error"), Prop(err, "message")]);
    OrAllTruthy([Prop(err, "error"), Prop(err, "message")]);
    FalsyNeverMentionsImageUrl(serverMsg);
    if Prop(err, "status") == Num(400) && MentionsImageUrl(ToStr(serverMsg)) then Str(TooLong)
    else Or(serverMsg, Str(SaveFallback(editing)))
  }

  /** `/image[_]?url|image url|imageUrl|image_url/i.test(s)`. */
  predicate MentionsImageUrl(s: string) {
    var t := Lower(s);
    Contains(t, "imageurl") || Contains(t, "image_url") || Contains(t, "image url")
  }

  /** A pattern with the letter `c` at position 3 cannot occur in a text
      without that letter. */
  lemma AbsentLetterNoMatch(t: string, sub: string, c: char)
    requires |sub| > 3 && sub[3] == c
    requires forall k :: 0 <= k < |t| ==> t[k] != c
    ensures !Contains(t, sub)
  {
    forall i | 0 <= i <= |t|
      ensures !HasPrefixAt(t, sub, i)
    {
      if i + |sub| <= |t| {
        assert t[i..i + |sub|][3] == t[i + 3];
      }
    }
  }

  /** A falsy server message ("undefined", "null", "false", "0" or "")
      never mentions the image URL, so the default message is reached. */
  lemma FalsyNeverMentionsImageUrl(v: Value)
    ensures !Truthy(v) ==> !MentionsImageUrl(ToStr(v))
  {
    if Truthy(v) { return; }
    var s := ToStr(v);
    assert s in {"undefined", "null", "false", "0", ""};
    assert forall k :: 0 <= k < |s| ==> s[k] != 'g' && !('A' <= s[k] <= 'Z');
    var t := Lower(s);
    assert forall k :: 0 <= k < |t| ==> t[k] != 'g';
    AbsentLetterNoMatch(t, "imageurl", 'g');
    AbsentLetterNoMatch(t, "image_url", 'g');
    AbsentLetterNoMatch(t, "image url", 'g');
  }

  /** Only a 400 is turned into the length message; any other failure shows
      that text only when the server itself sent it.  The server's own
      upper-case "IMAGE_URL too long" is one such 400. */
  lemma SaveErrorMapping(err: Value, editing: bool)
    ensures SaveErrorMessage(err, editing) == Str(TooLong) ==>
              Prop(err, "status") == Num(400) || ServerMessage(err) == Str(TooLong)
    ensures (Prop(err, "status") == Num(400) && Prop(err, "message") == Str("IMAGE_URL too long")
             && !Truthy(Prop(err, "error"))) ==> SaveErrorMessage(err, editing) == Str(TooLong)
  {
    if Prop(err, "status") == Num(400) && Prop(err, "message") == Str("IMAGE_URL too long") && !Truthy(Prop(err, "error")) {
      var t := Lower("IMAGE_URL too long");
      assert t[..9] == "image_url";
      assert HasPrefixAt(t, "image_url", 0);
    }
  }
}

=== FILE: book_list.dfy ===
/** The book catalogue page: the case-insensitive search over four text
    fields, the role test that shows the librarian's buttons, and the
    login guard in front of the request dialog. */
module BookList {
  import opened Options
  import opened Text
  import opened Values
  import opened Sequences

  /** The search word: the term trimmed and lower-cased. */
  function SearchWord(term: string): string {
    Lower(Trim(term))
  }

  /** `(b.field || '').toLowerCase()`: a missing or falsy field reads as "". */
  function FieldText(b: Value, field: string): (t: string)
    ensures !Truthy(Prop(b, field)) ==> t == ""
    ensures Prop(b, field).Str? ==> t == Lower(Prop(b, field).s)
  {
    Lower(ToStr(Or(Prop(b, field), Str(""))))
  }

  /** A book matches when its title, author, category or publisher
      contains the word. */
  predicate Matches(word: string, b: Value) {
    || Contains(FieldText(b, "title"), word)
    || Contains(FieldText(b, "author"), word)
    || Contains(FieldText(b, "category"), word)
    || Contains(FieldText(b, "publisher"), word)
  }

  function MatchesWord(word: string): Value -> bool {
    b => Matches(word, b)
  }

  /** `filterBooks`: every book for a blank term, else exactly the books
      that match, in catalogue order. */
  function FilterBooks(books: seq<Value>, term: string): (r: seq<Value>)
    ensures SearchWord(term) == "" ==> r == books
    ensures SearchWord(term) != "" ==> forall b :: b in r <==> b in books && Matches(SearchWord(term), b)
    ensures forall i :: 0 <= i < |r| ==> r[i] in books
  {
    var word := SearchWord(term);
    if word == "" then books
    else
      var r := Filter(books, MatchesWord(word));
      forall b
        ensures b in r <==> b in books && Matches(word, b)
      {
        FilterMembership(books, MatchesWord(word), b);
      }
      r
  }

  /** The search keeps the catalogue's order: searching a catalogue in
      two pieces gives the two results one after the other. */
  lemma FilterBooksKeepsOrder(a: seq<Value>, b: seq<Value>, term: string)
    ensures FilterBooks(a + b, term) == FilterBooks(a, term) + FilterBooks(b, term)
  {
    if SearchWord(term) != "" {
      FilterAppend(a, b, MatchesWord(SearchWord(term)));
    }
  }

  /** A field's text is found whatever its capitalisation. */
  lemma SearchIgnoresCase()
    ensures SearchWord("Dune") == "dune"
    ensures Matches("dune", Obj(map["title" := Str("DUNE Messiah")]))
  {
    TrimUnchanged("Dune");
    var t := Lower("DUNE Messiah");
    assert t[..4] == "dune";
    assert HasPrefixAt(t, "dune", 0);
    assert FieldText(Obj(map["title" := Str("DUNE Messiah")]), "title") == t;
  }

  /** A book with none of the four fields matches no word: missing fields
      read as empty text. */
  lemma MissingFieldsNeverMatch(word: string, b: Value)
    requires word != ""
    requires forall f :: f in ["title", "author", "category", "publisher"] ==> !Truthy(Prop(b, f))
    ensures !Matches(word, b)
  {
    assert "title" in ["title", "author", "category", "publisher"];
    assert "author" in ["title", "author", "category", "publisher"];
    assert "category" in ["title", "author", "category", "publisher"];
    assert "publisher" in ["title", "author", "category", "publisher"];
  }

  /** The spellings of the staff roles, in lower case. */
  const StaffRoles: set<string> := {"librarian", "superadmin", "super admin"}

  /** `isLibrarian`: the role, lower-cased, is one of the staff roles. */
  function IsLibrarian(role: Option<string>): (b: bool)
    ensures b <==> role.Some? && Lower(role.value) in StaffRoles
  {
    var r := Lower(role.GetOr(""));
    r == "librarian" || r == "superadmin" || r == "super admin"
  }

  /** Against the role names the server's route table uses, the test
      singles out exactly the two staff roles. */
  lemma IsLibrarianOnServerRoles()
    ensures IsLibrarian(Some("librarian"))
    ensures IsLibrarian(Some("superAdmin"))
    ensures !IsLibrarian(Some("member"))
    ensures IsLibrarian(Some("Super Admin"))
  {
    assert Lower("superAdmin") == "superadmin";
    assert Lower("Super Admin") == "super admin";
    assert Lower("member") == "member";
  }

  /** What `requestIssue` does. */
  datatype Request = ToLogin | OpenDialog(bookId: Value, title: Value)

  /** `requestIssue`: without a token the page goes to the login screen;
      otherwise the request dialog opens for the book. */
  function RequestIssue(token: Option<string>, book: Value): (r: Request)
    ensures r.ToLogin? <==> token.None? || token.value == ""
    ensures r.OpenDialog? ==> r.bookId == Prop(book, "book_id") && r.title == Prop(book, "title")
  {
    if token.None? || token.value == "" then ToLogin
    else OpenDialog(Prop(book, "book_id"), Prop(book, "title"))
  }
}

=== FILE: calendar.dfy ===
/** Local calendar dates as the frontend sees them through `Date`'s
    `getFullYear`, `getMonth() + 1` and `getDate`, the rollover performed by
    the `new Date(y, m - 1, d)` constructor, and the two text formats the
    application prints. */
module Calendar {
  import opened Options
  import opened Text

  datatype Date = Date(year: int, month: int, day: int)

  /** Proleptic Gregorian leap years, as JavaScript's `Date` uses. */
  predicate IsLeapYear(y: int) {
    y % 4 == 0 && (y % 100 != 0 || y % 400 == 0)
  }

  function DaysInMonth(y: int, m: int): (n: int)
    requires 1 <= m <= 12
    ensures 28 <= n <= 31
    ensures n == 31 <==> m in {1, 3, 5, 7, 8, 10, 12}
    ensures n == 28 <==> m == 2 && !IsLeapYear(y)
  {
    if m == 2 then (if IsLeapYear(y) then 29 else 28)
    else if m == 4 || m == 6 || m == 9 || m == 11 then 30
    else 31
  }

  predicate Valid(d: Date) {
    1 <= d.month <= 12 && 1 <= d.day <= DaysInMonth(d.year, d.month)
  }

  /** Strictly earlier in calendar order. */
  predicate Before(a: Date, b: Date) {
    a.year < b.year
    || (a.year == b.year && (a.month < b.month || (a.month == b.month && a.day < b.day)))
  }

  /** Calendar order is a strict total order. */
  lemma BeforeTotal(a: Date, b: Date)
    ensures !(Before(a, b) && Before(b, a))
    ensures a == b || Before(a, b) || Before(b, a)
  {
  }

  /** The year `new Date(y, ...)` actually uses: 0..99 mean 1900..1999. */
  function ConstructorYear(y: int): (fy: int)
    ensures fy != y <==> 0 <= y <= 99
  {
    if 0 <= y <= 99 then 1900 + y else y
  }

  /** `new Date(y, m - 1, d)` read back as a local date, for the month and
      day ranges the request dialog admits: a day past the end of its month
      rolls over into the next month. */
  function Compose(y: int, m: int, d: int): (r: Date)
    requires 1 <= m <= 12 && 1 <= d <= 31
    ensures Valid(r)
    ensures r.year == ConstructorYear(y)
  {
    var fy := ConstructorYear(y);
    var n := DaysInMonth(fy, m);
    if d <= n then Date(fy, m, d)
    else
      assert m != 12;
      Date(fy, m + 1, d - n)
  }

  /** The constructor reads back unchanged exactly when the year is not a
      two-digit one and the day exists in that month. */
  lemma ComposeRoundTrip(y: int, m: int, d: int)
    requires 1 <= m <= 12 && 1 <= d <= 31
    ensures Compose(y, m, d) == Date(y, m, d) <==> !(0 <= y <= 99) && Valid(Date(y, m, d))
  {
  }

  /** `${d.getFullYear()}-${pad2(month)}-${pad2(day)}`. */
  function FormatIso(d: Date): string {
    IntToString(d.year) + "-" + Pad2(IntToString(d.month)) + "-" + Pad2(IntToString(d.day))
  }

  /** `${pad2(day)}/${pad2(month)}/${d.getFullYear()}`. */
  function FormatDmy(d: Date): string {
    Pad2(IntToString(d.day)) + "/" + Pad2(IntToString(d.month)) + "/" + IntToString(d.year)
  }

  /** Reads `YYYY-MM-DD`. */
  function ParseIso(s: string): Option<Date> {
    if |s| == 10 && s[4] == '-' && s[7] == '-'
      && AllDigits(s[..4]) && AllDigits(s[5..7]) && AllDigits(s[8..])
    then Some(Date(DigitsValue(s[..4]), DigitsValue(s[5..7]), DigitsValue(s[8..])))
    else None
  }

  /** Reads `DD/MM/YYYY`. */
  function ParseDmy(s: string): Option<Date> {
    if |s| == 10 && s[2] == '/' && s[5] == '/'
      && AllDigits(s[..2]) && AllDigits(s[3..5]) && AllDigits(s[6..])
    then Some(Date(DigitsValue(s[6..]), DigitsValue(s[3..5]), DigitsValue(s[..2])))
    else None
  }

  /** Facts about the printed pieces of a date with a four-digit year. */
  lemma PiecesOfDate(d: Date)
    requires Valid(d) && 1000 <= d.year <= 9999
    ensures |IntToString(d.year)| == 4 && AllDigits(IntToString(d.year))
    ensures DigitsValue(IntToString(d.year)) == d.year
    ensures |Pad2(IntToString(d.month))| == 2 && AllDigits(Pad2(IntToString(d.month)))
    ensures DigitsValue(Pad2(IntToString(d.month))) == d.month
    ensures |Pad2(IntToString(d.day))| == 2 && AllDigits(Pad2(IntToString(d.day)))
    ensures DigitsValue(Pad2(IntToString(d.day))) == d.day
  {
    NatToStringLength4(d.year);
    DigitsValueOfNatToString(d.year);
    Pad2OfNat(d.month);
    Pad2OfNat(d.day);
  }

  /** The request payload's date text reads back as the date. */
  lemma {:induction false} ParseFormatIso(d: Date)
    requires Valid(d) && 1000 <= d.year <= 9999
    ensures |FormatIso(d)| == 10
    ensures ParseIso(FormatIso(d)) == Some(d)
  {
    PiecesOfDate(d);
    var y, m, dd := IntToString(d.year), Pad2(IntToString(d.month)), Pad2(IntToString(d.day));
    assert FormatIso(d) == y + "-" + m + "-" + dd;
    ParseIsoOfPieces(y, m, dd);
  }

  lemma ParseIsoOfPieces(y: string, m: string, dd: string)
    requires |dd| == 2 && |m| == 2 && |y| == 4 && AllDigits(dd) && AllDigits(m) && AllDigits(y)
    ensures |y + "-" + m + "-" + dd| == 10
    ensures ParseIso(y + "-" + m + "-" + dd) == Some(Date(DigitsValue(y), DigitsValue(m), DigitsValue(dd)))
  {
    var s := y + "-" + m + "-" + dd;
    assert s[..4] == y && s[5..7] == m && s[8..] == dd;
    assert s[4] == '-' && s[7] == '-';
  }

  /** The displayed date text reads back as the date. */
  lemma {:induction false} ParseFormatDmy(d: Date)
    requires Valid(d) && 1000 <= d.year <= 9999
    ensures |FormatDmy(d)| == 10
    ensures ParseDmy(FormatDmy(d)) == Some(d)
  {
    PiecesOfDate(d);
    var y, m, dd := IntToString(d.year), Pad2(IntToString(d.month)), Pad2(IntToString(d.day));
    assert FormatDmy(d) == dd + "/" + m + "/" + y;
    ParseDmyOfPieces(dd, m, y);
  }

  lemma ParseDmyOfPieces(dd: string, m: string, y: string)
    requires |dd| == 2 && |m| == 2 && |y| == 4 && AllDigits(dd) && AllDigits(m) && AllDigits(y)
    ensures |dd + "/" + m + "/" + y| == 10
    ensures ParseDmy(dd + "/" + m + "/" + y) == Some(Date(DigitsValue(y), DigitsValue(m), DigitsValue(dd)))
  {
    var s := dd + "/" + m + "/" + y;
    assert s[..2] == dd && s[3..5] == m && s[6..] == y;
    assert s[2] == '/' && s[5] == '/';
  }
}

=== FILE: display_date.dfy ===
/** The `formatDate` helper that the overdue dialog and the three issue
    lists share: a date value shown as `DD/MM/YYYY` in local time. */
module DisplayDate {
  import opened Options
  import opened Text
  import opened Values
  import opened Calendar

  /** `'-'` for a falsy value, the value itself when it is not a date, and
      otherwise its local calendar date as `DD/MM/YYYY`. `local` is the
      host's time-zone view of a time value. */
  function FormatDisplayDate(d: Value, parse: string -> Option<int>, local: int -> Date): (r: string)
    ensures !Truthy(d) ==> r == "-"
    ensures Truthy(d) && NewDate(d, parse).None? ==> r == ToStr(d)
  {
    if !Truthy(d) then "-"
    else
      match NewDate(d, parse)
      case None => ToStr(d)
      case Some(t) => FormatDmy(local(t))
  }

  /** A non-empty string that is not a date is shown exactly as given. */
  lemma UnparsableShownAsIs(s: string, parse: string -> Option<int>, local: int -> Date)
    requires s != "" && (parse(s).None? || !(-MaxTime <= parse(s).value <= MaxTime))
    ensures FormatDisplayDate(Str(s), parse, local) == s
  {
  }

  /** A date is shown as ten characters that read back as its local
      calendar date. */
  lemma {:induction false} DisplayDateReadsBack(d: Value, parse: string -> Option<int>, local: int -> Date)
    requires Truthy(d) && NewDate(d, parse).Some?
    requires Valid(local(NewDate(d, parse).value)) && 1000 <= local(NewDate(d, parse).value).year <= 9999
    ensures |FormatDisplayDate(d, parse, local)| == 10
    ensures ParseDmy(FormatDisplayDate(d, parse, local)) == Some(local(NewDate(d, parse).value))
  {
    ParseFormatDmy(local(NewDate(d, parse).value));
  }

  /** Distinct local dates are never shown alike. */
  lemma DisplayDateInjective(a: Value, b: Value, parse: string -> Option<int>, local: int -> Date)
    requires Truthy(a) && NewDate(a, parse).Some? && Truthy(b) && NewDate(b, parse).Some?
    requires var da := local(NewDate(a, parse).value); Valid(da) && 1000 <= da.year <= 9999
    requires var db := local(NewDate(b, parse).value); Valid(db) && 1000 <= db.year <= 9999
    requires FormatDisplayDate(a, parse, local) == FormatDisplayDate(b, parse, local)
    ensures local(NewDate(a, parse).value) == local(NewDate(b, parse).value)
  {
    DisplayDateReadsBack(a, parse, local);
    DisplayDateReadsBack(b, parse, local);
  }
}

=== FILE: elapsed.dfy ===
/** How long ago an instant lies, in whole days and remaining whole hours:
    the decomposition that both the overdue e-mail and the overdue dialog
    compute from a positive number of milliseconds. */
module Elapsed {

  const HourMs: int := 1000 * 60 * 60
  const DayMs: int := 1000 * 60 * 60 * 24

  datatype Span = Span(days: int, hours: int)

  /** `floor(diff / DayMs)` days and `floor((diff % DayMs) / HourMs)` hours.
      Only positive differences are split, so JavaScript's truncating `%`
      and Dafny's Euclidean `%` agree here. */
  function Split(diff: int): (sp: Span)
    requires diff > 0
    ensures sp.days >= 0 && 0 <= sp.hours < 24
    ensures Covers(sp, diff)
  {
    var days := diff / DayMs;
    var rest := diff % DayMs;
    var hours := rest / HourMs;
    assert diff == days * DayMs + rest;
    assert rest == hours * HourMs + rest % HourMs;
    Span(days, hours)
  }

  /** `diff` lies within the hour that the span names. */
  predicate Covers(sp: Span, diff: int) {
    sp.days * DayMs + sp.hours * HourMs <= diff < sp.days * DayMs + (sp.hours + 1) * HourMs
  }

  /** Only one day/hour pair with hours below 24 covers a difference, so the
      split is the decomposition and not merely one of several. */
  lemma SplitUnique(diff: int, sp: Span)
    requires diff > 0
    requires 0 <= sp.hours < 24 && Covers(sp, diff)
    ensures Split(diff) == sp
  {
    var q := Split(diff);
    var a := sp.days * 24 + sp.hours;
    var b := q.days * 24 + q.hours;
    assert a == diff / HourMs;
    assert b == diff / HourMs;
    assert sp.days == a / 24 && sp.hours == a % 24;
    assert q.days == b / 24 && q.hours == b % 24;
  }

  /** Less than an hour late splits to nothing; a day or more late always
      has a day count. */
  lemma SplitRanges(diff: int)
    requires diff > 0
    ensures Split(diff) == Span(0, 0) <==> diff < HourMs
    ensures Split(diff).days == 0 <==> diff < DayMs
  {
  }
}

=== FILE: guards.dfy ===
/** The two navigation guards of the frontend, over the session's stored
    token and role. */
module Guards {
  import opened Options
  import opened Text
  import opened Values

  /** The `jwt` and `role` entries of session storage. */
  datatype Session = Session(token: Option<string>, role: Option<string>)

  /** `auth.logout()`: both entries removed. */
  function Logout(s: Session): (r: Session)
    ensures r.token.None? && r.role.None?
  {
    Session(None, None)
  }

  /** A stored entry read with `|| ''`: absent and empty alike count as missing. */
  predicate Present(v: Option<string>) {
    v.Some? && v.value != ""
  }

  datatype Decision = Allow | Redirect(to: string)

  /** `RoleGuard.canActivate`: `allowed` is the route's `roles` data (None
      when the route declares none). */
  function RoleGuard(allowed: Option<seq<string>>, s: Session): (r: Decision)
    ensures r.Redirect? ==> r.to == "/login" || r.to == "/"
    ensures r.Redirect? && r.to == "/login" <==> !Present(s.role)
  {
    var roles := allowed.GetOr([]);
    if !Present(s.role) then Redirect("/login")
    else if |roles| > 0 && s.role.value !in roles then Redirect("/")
    else Allow
  }

  /** The guard admits exactly a stored role that the route lists, and any
      stored role when the route lists none; the comparison is exact, so
      case matters. */
  lemma RoleGuardAdmits(allowed: Option<seq<string>>, s: Session)
    ensures RoleGuard(allowed, s) == Allow <==>
      Present(s.role)
      && (allowed.None? || allowed.value == [] || exists i :: 0 <= i < |allowed.value| && allowed.value[i] == s.role.value)
  {
  }

  /** The administrator page, which lists only `superAdmin`, turns away a
      differently capitalised role. */
  lemma RoleGuardIsCaseSensitive()
    ensures RoleGuard(Some(["superAdmin"]), Session(Some("t"), Some("superadmin"))) == Redirect("/")
    ensures RoleGuard(Some(["superAdmin"]), Session(Some("t"), Some("superAdmin"))) == Allow
  {
    assert "superadmin" != "superAdmin" by {
      assert "superadmin"[5] != "superAdmin"[5];
    }
  }

  /** What a guard decided and the session it leaves. */
  datatype GuardResult = GuardResult(allow: bool, redirect: Option<string>, session: Session)

  /** The `exp` claim of a decoded token payload, when it is a non-zero
      number (`exp && typeof exp === 'number'`). */
  function Expiry(payload: Value): Option<int> {
    var exp := Prop(payload, "exp");
    if exp.Num? && Truthy(exp) then Some(exp.n) else None
  }

  /** `AuthGuard.canActivate` at `nowMs`. `decode` is the base64url and JSON
      decoding of the token's second part; None when that throws. */
  function AuthGuard(s: Session, nowMs: int, decode: string -> Option<Value>): (r: GuardResult)
    ensures !Present(s.token) ==> r == GuardResult(false, Some("/login"), s)
    ensures r.allow ==> r.session == s && r.redirect.None?
    ensures !r.allow ==> r.redirect == Some("/login")
  {
    if !Present(s.token) then GuardResult(false, Some("/login"), s)
    else
      var parts := SplitOn(s.token.value, '.');
      if |parts| < 2 then GuardResult(true, None, s)
      else
        match decode(parts[1])
        case None => GuardResult(true, None, s)
        case Some(payload) =>
          match Expiry(payload)
          case None => GuardResult(true, None, s)
          case Some(exp) =>
            // Math.floor(Date.now() / 1000): Dafny's division by a positive
            // divisor already rounds toward negative infinity.
            var nowSec := nowMs / 1000;
            if exp < nowSec then GuardResult(false, Some("/login"), Logout(s)) else GuardResult(true, None, s)
  }

  /** The payload the guard inspects: the decoding of the token's second
      `.`-separated part, if there is one. */
  function PayloadOf(token: string, decode: string -> Option<Value>): Option<Value> {
    var parts := SplitOn(token, '.');
    if |parts| < 2 then None else decode(parts[1])
  }

  /** With a token present, navigation is refused exactly when the payload
      carries an expiry second that ended before `nowMs`: a token is still
      accepted throughout the second it expires in, and the refusal logs the
      user out. */
  lemma AuthGuardExpiry(s: Session, nowMs: int, decode: string -> Option<Value>)
    requires Present(s.token)
    ensures var p := PayloadOf(s.token.value, decode);
            var r := AuthGuard(s, nowMs, decode);
            (!r.allow <==> p.Some? && Expiry(p.value).Some? && (Expiry(p.value).value + 1) * 1000 <= nowMs)
            && (!r.allow ==> r.session == Session(None, None))
  {
  }

  /** A token without a readable numeric expiry is always let through. */
  lemma AuthGuardWithoutExpiry(s: Session, nowMs: int, decode: string -> Option<Value>)
    requires Present(s.token)
    requires PayloadOf(s.token.value, decode).None? || Expiry(PayloadOf(s.token.value, decode).value).None?
    ensures AuthGuard(s, nowMs, decode).allow
  {
  }

  /** Once refused, a token stays refused. */
  lemma AuthGuardRefusalPersists(s: Session, nowMs: int, later: int, decode: string -> Option<Value>)
    requires !AuthGuard(s, nowMs, decode).allow && nowMs <= later
    ensures !AuthGuard(s, later, decode).allow
  {
  }
}

=== FILE: interceptor.dfy ===
/** The HTTP interceptor: it adds the bearer token to every request and
    turns connection failures and rejected sessions into standard errors. */
module AuthInterceptor {
  import opened Options
  import opened Text
  import opened Values
  import opened Guards

  /** The `Authorization` header set on the outgoing request, if any. */
  function AuthorizationHeader(token: Option<string>): (h: Option<string>)
    ensures h.Some? <==> Present(token)
  {
    if Present(token) then Some("Bearer " + token.value) else None
  }

  /** The header carries the stored token unchanged after the `Bearer ` scheme. */
  lemma HeaderCarriesToken(token: Option<string>)
    requires Present(token)
    ensures |AuthorizationHeader(token).value| > 7
    ensures AuthorizationHeader(token).value[..7] == "Bearer "
    ensures AuthorizationHeader(token).value[7..] == token.value
  {
  }

  /** A failed response as the interceptor sees it: `status`, whether it is
      an `Error` instance, and `message`. */
  datatype Failure = Failure(status: Value, isError: bool, message: Value)

  /** What reaches the caller: a new `Error` with the given message, or the
      original failure unchanged. */
  datatype Raised = NewError(message: string) | Original

  datatype Caught = Caught(raised: Raised, toast: Option<string>, session: Session, navigate: Option<string>)

  const ConnectionMessage: string := "Connection error, Please check the server !!"
  const ExpiredMessage: string := "Session expired, please login again"

  /** Status 0, or an `Error` whose message mentions "unknown error" in any
      letter case. */
  predicate IsConnectionFailure(err: Failure) {
    err.status == Num(0)
    || (err.isError && Contains(Lower(ToStr(Or(err.message, Str("")))), "unknown error"))
  }

  /** The error handler; `err` is None for a falsy error value. The token
      is the one read when the request was sent. */
  function CatchFailure(err: Option<Failure>, token: Option<string>, s: Session): (c: Caught)
    ensures c.raised == NewError(ConnectionMessage) <==> err.Some? && IsConnectionFailure(err.value)
    ensures c.session != s ==> c.raised == NewError(ExpiredMessage)
  {
    if err.Some? && IsConnectionFailure(err.value) then
      Caught(NewError(ConnectionMessage), Some(ConnectionMessage), s, None)
    else if err.Some? && (err.value.status == Num(401) || err.value.status == Num(403)) && Present(token) then
      Caught(NewError(ExpiredMessage), Some(ExpiredMessage), Logout(s), Some("/login"))
    else
      Caught(Original, None, s, None)
  }

  /** The classification of a failure by status: 0 is a connection failure
      with or without a token; 401 and 403 end the session only when a token
      was sent; everything else reaches the caller unchanged. */
  lemma CatchFailureByStatus(status: int, isError: bool, message: Value, token: Option<string>, s: Session)
    requires !isError
    ensures var c := CatchFailure(Some(Failure(Num(status), isError, message)), token, s);
            && (status == 0 ==> c.raised == NewError(ConnectionMessage) && c.session == s)
            && ((status == 401 || status == 403) ==>
                  (Present(token) ==>
                     c.raised == NewError(ExpiredMessage) && c.session == Session(None, None) && c.navigate == Some("/login"))
                  && (!Present(token) ==> c.raised == Original && c.session == s))
            && (status != 0 && status != 401 && status != 403 ==> c == Caught(Original, None, s, None))
  {
  }

  /** An `Error` reading "Http failure response: Unknown Error" counts as a
      connection failure whatever its status. */
  lemma UnknownErrorIsConnectionFailure(status: Value)
    ensures IsConnectionFailure(Failure(status, true, Str("Http failure response: Unknown Error")))
  {
    var s := "Http failure response: Unknown Error";
    assert ToStr(Or(Str(s), Str(""))) == s;
    LowerSlice(s, 23, 36);
    assert s[23..36] == "Unknown Error";
    assert Lower("Unknown Error") == "unknown error";
    assert HasPrefixAt(Lower(s), "unknown error", 23);
  }
}

=== FILE: issue_rows.dfy ===
/** The list helpers the dashboards apply to issue rows: the newest-first
    sort on a fallback chain of timestamp fields, and the two-phase filling
    of a display field (a book title, a member name) first from the row's
    nested record and then from records fetched by id. */
module IssueRows {
  import opened Options
  import opened Text
  import opened Values
  import opened Sequences

  /** The timestamp fields in the order the sort key tries them, closed by
      `null`. */
  function TimestampChain(it: Value): seq<Value> {
    [Prop(it, "issue_date"), Prop(it, "issued_at"), Prop(it, "issuedAt"),
     Prop(it, "created_at"), Prop(it, "createdAt"), Null]
  }

  /** `it?.issue_date ?? it?.issued_at ?? it?.issuedAt ?? it?.created_at ?? it?.createdAt ?? null`. */
  function IssuedAtField(it: Value): Value {
    CoalesceAll(TimestampChain(it))
  }

  /** The sort key `toTs`: the time value of the issued-at field, 0 when it
      is missing, falsy or not a date. */
  function IssuedAt(it: Value, parse: string -> Option<int>): int {
    var d := IssuedAtField(it);
    if Truthy(d) then NewDate(d, parse).GetOr(0) else 0
  }

  function IssuedAtKey(parse: string -> Option<int>): Value -> int {
    it => IssuedAt(it, parse)
  }

  /** The key reads the first timestamp field that is neither null nor
      undefined, whichever of the five it is; a row with none of them, or
      whose field is falsy or not a date, sorts as time 0, and otherwise as
      the field's time value. */
  lemma IssuedAtFallback(it: Value, parse: string -> Option<int>)
    ensures forall k :: CoalesceStopsAt(TimestampChain(it), k) ==> IssuedAtField(it) == TimestampChain(it)[k]
    ensures !Nullish(Prop(it, "issue_date")) ==> IssuedAtField(it) == Prop(it, "issue_date")
    ensures Nullish(Prop(it, "issue_date")) && !Nullish(Prop(it, "issued_at")) ==> IssuedAtField(it) == Prop(it, "issued_at")
    ensures (Nullish(Prop(it, "issue_date")) && Nullish(Prop(it, "issued_at")) && Nullish(Prop(it, "issuedAt"))
             && Nullish(Prop(it, "created_at")) && Nullish(Prop(it, "createdAt"))) ==> IssuedAt(it, parse) == 0
    ensures !Truthy(IssuedAtField(it)) || NewDate(IssuedAtField(it), parse).None? ==> IssuedAt(it, parse) == 0
    ensures Truthy(IssuedAtField(it)) && NewDate(IssuedAtField(it), parse).Some? ==>
              IssuedAt(it, parse) == NewDate(IssuedAtField(it), parse).value
    ensures Truthy(Prop(it, "issue_date")) && NewDate(Prop(it, "issue_date"), parse).None? ==> IssuedAt(it, parse) == 0
  {
    var vs := TimestampChain(it);
    assert IssuedAtField(it) == CoalesceAll(vs);
    var k0 :| CoalesceStopsAt(vs, k0) && IssuedAtField(it) == vs[k0];
    forall k | CoalesceStopsAt(vs, k)
      ensures IssuedAtField(it) == vs[k]
    {
      assert k == k0;
    }
    assert !Nullish(vs[0]) ==> k0 == 0;
    assert Nullish(vs[0]) && !Nullish(vs[1]) ==> k0 == 1;
    assert (Nullish(vs[0]) && Nullish(vs[1]) && Nullish(vs[2]) && Nullish(vs[3]) && Nullish(vs[4])) ==> Nullish(vs[k0]);
  }

  /** The list a response carries, as most pages read it: the response
      itself when it is an array, else `res.data || []`. */
  function ResponseList(res: Value): (r: Value)
    ensures res.Arr? ==> r == res
    ensures !res.Arr? && !Truthy(Prop(res, "data")) ==> r == Arr([])
    ensures !res.Arr? && Truthy(Prop(res, "data")) ==> r == Prop(res, "data")
  {
    if res.Arr? then res else Or(Prop(res, "data"), Arr([]))
  }

  /** `sortByIssuedDate`: an array is sorted newest first, stably; anything
      else is left as it is. */
  function SortByIssuedDate(items: Value, parse: string -> Option<int>): (r: Value)
    ensures !items.Arr? ==> r == items
    ensures items.Arr? ==> r.Arr? && |r.items| == |items.items| && multiset(r.items) == multiset(items.items)
    ensures items.Arr? ==> SortedDesc(r.items, IssuedAtKey(parse))
  {
    match items
    case Arr(xs) =>
      SortDescSorted(xs, IssuedAtKey(parse));
      Arr(SortDesc(xs, IssuedAtKey(parse)))
    case _ => items
  }

  /** Rows with equal timestamps keep their relative order, and a list that
      is already newest first is left unchanged. */
  lemma SortByIssuedDateStable(xs: seq<Value>, parse: string -> Option<int>, t: int)
    ensures WithKey(SortByIssuedDate(Arr(xs), parse).items, IssuedAtKey(parse), t) == WithKey(xs, IssuedAtKey(parse), t)
    ensures SortedDesc(xs, IssuedAtKey(parse)) ==> SortByIssuedDate(Arr(xs), parse) == Arr(xs)
  {
    SortDescStable(xs, IssuedAtKey(parse), t);
    if SortedDesc(xs, IssuedAtKey(parse)) {
      SortDescIdempotent(xs, IssuedAtKey(parse));
    }
  }

  /** How one display field is filled in: `nested` is the value the row's
      own nested record offers, `idOf` the id used to fetch the record, and
      `fromDetail` the value read from a fetched record. */
  datatype Filler = Filler(field: string, nested: Row -> Value, idOf: Row -> Value, fromDetail: Value -> Value)

  /** The first phase: an empty field takes the nested value when that is truthy. */
  function FillNested(f: Filler, row: Row): (r: Row)
    ensures Truthy(Get(row, f.field)) ==> r == row
    ensures r.Keys <= row.Keys + {f.field}
    ensures r - {f.field} == row - {f.field}
  {
    if !Truthy(Get(row, f.field)) && Truthy(f.nested(row)) then row[f.field := f.nested(row)] else row
  }

  function Nested(f: Filler): Row -> Row {
    row => FillNested(f, row)
  }

  /** The ids of the rows whose field is still empty, nullish ones dropped,
      in row order. */
  function Candidates(f: Filler, rows: seq<Row>): (ids: seq<Value>)
    ensures forall k :: 0 <= k < |ids| ==> !Nullish(ids[k])
    ensures forall k :: 0 <= k < |ids| ==>
              exists i :: 0 <= i < |rows| && !Truthy(Get(rows[i], f.field)) && ids[k] == f.idOf(rows[i])
    ensures forall i :: 0 <= i < |rows| && !Truthy(Get(rows[i], f.field)) && !Nullish(f.idOf(rows[i])) ==>
              f.idOf(rows[i]) in ids
    decreases |rows|
  {
    if |rows| == 0 then []
    else
      var rest := Candidates(f, rows[1..]);
      var head := if !Truthy(Get(rows[0], f.field)) && !Nullish(f.idOf(rows[0])) then [f.idOf(rows[0])] else [];
      assert forall k :: 0 <= k < |rest| ==>
               exists i :: 0 <= i < |rows| && !Truthy(Get(rows[i], f.field)) && rest[k] == f.idOf(rows[i]) by {
        forall k | 0 <= k < |rest|
          ensures exists i :: 0 <= i < |rows| && !Truthy(Get(rows[i], f.field)) && rest[k] == f.idOf(rows[i])
        {
          var i :| 0 <= i < |rows[1..]| && !Truthy(Get(rows[1..][i], f.field)) && rest[k] == f.idOf(rows[1..][i]);
          assert rows[1..][i] == rows[i + 1];
        }
      }
      assert forall i :: 1 <= i < |rows| ==> rows[i] == rows[1..][i - 1];
      head + rest
  }

  /** The ids to fetch: the candidates, each once, in order of first occurrence. */
  function PendingIds(f: Filler, rows: seq<Row>): seq<Value> {
    Dedup(Candidates(f, rows))
  }

  /** The lookup table built from the fetched records: `String(id)` maps to
      the record when the fetch produced a truthy one; a later id with the
      same string form replaces an earlier one. */
  function LookupTable(ids: seq<Value>, detail: Value -> Value): (m: map<string, Value>)
    ensures forall k :: k in m ==> Truthy(m[k])
    ensures forall k :: k in m ==> exists i :: 0 <= i < |ids| && ToStr(ids[i]) == k && m[k] == detail(ids[i])
    ensures forall i :: 0 <= i < |ids| && Truthy(detail(ids[i])) ==> ToStr(ids[i]) in m
    decreases |ids|
  {
    if |ids| == 0 then map[]
    else
      var p := ids[..|ids| - 1];
      var m := LookupTable(p, detail);
      var id := ids[|ids| - 1];
      assert forall i :: 0 <= i < |p| ==> ids[i] == p[i];
      if Truthy(detail(id)) then m[ToStr(id) := detail(id)] else m
  }

  /** An id whose string form no other id shares finds its own record. */
  lemma {:induction false} LookupTableUnique(ids: seq<Value>, detail: Value -> Value, i: nat)
    requires i < |ids| && Truthy(detail(ids[i]))
    requires forall j :: 0 <= j < |ids| && j != i ==> ToStr(ids[j]) != ToStr(ids[i])
    ensures LookupTable(ids, detail)[ToStr(ids[i])] == detail(ids[i])
    decreases |ids|
  {
    var p := ids[..|ids| - 1];
    if i < |ids| - 1 {
      assert p[i] == ids[i];
      forall j | 0 <= j < |p| && j != i
        ensures ToStr(p[j]) != ToStr(p[i])
      {
        assert p[j] == ids[j];
      }
      LookupTableUnique(p, detail, i);
    }
  }

  /** The second phase for one row: an empty field takes the fetched
      record's value (or keeps its own falsy value) when the row's id finds
      a record. */
  function FillFetched(f: Filler, row: Row, m: map<string, Value>): (r: Row)
    ensures Truthy(Get(row, f.field)) ==> r == row
    ensures r - {f.field} == row - {f.field}
  {
    if Truthy(Get(row, f.field)) then row
    else
      var key := ToStr(Or(f.idOf(row), Str("")));
      if key in m then row[f.field := Or(f.fromDetail(m[key]), Get(row, f.field))] else row
  }

  /** Both phases over a list: nested values first, then, when some row
      still lacks the field and has an id, the fetched records. `detail`
      gives the record fetched for an id (falsy when the fetch failed). */
  function Attach(f: Filler, rows: seq<Row>, detail: Value -> Value): (r: seq<Row>)
    ensures |r| == |rows|
    ensures forall i :: 0 <= i < |rows| && Truthy(Get(rows[i], f.field)) ==> r[i] == rows[i]
    ensures forall i :: 0 <= i < |rows| ==> r[i] - {f.field} == rows[i] - {f.field}
  {
    var p := MapSeq(Nested(f), rows);
    FillAll(f, Table(f, p, detail), p)
  }

  /** The table the fetch phase builds for the rows `p`; None when no row
      needs a fetch (`attachTitles` returns before issuing any request). */
  function Table(f: Filler, p: seq<Row>, detail: Value -> Value): Option<map<string, Value>> {
    var ids := PendingIds(f, p);
    if |ids| == 0 then None else Some(LookupTable(ids, detail))
  }

  /** The fetch phase's completion: every row passes through `FillFetched`. */
  function FillAll(f: Filler, t: Option<map<string, Value>>, rows: seq<Row>): (r: seq<Row>)
    ensures |r| == |rows|
    ensures forall i :: 0 <= i < |rows| ==> r[i] - {f.field} == rows[i] - {f.field}
  {
    match t
    case None => rows
    case Some(m) => MapSeq(Fetched(f, m), rows)
  }

  function Fetched(f: Filler, m: map<string, Value>): Row -> Row {
    row => FillFetched(f, row, m)
  }

  /** The fields the sort key reads. */
  const TimestampFields: set<string> := {"issue_date", "issued_at", "issuedAt", "created_at", "createdAt"}

  /** The sort key on rows. */
  function RowKey(parse: string -> Option<int>): Row -> int {
    r => IssuedAt(Obj(r), parse)
  }

  /** Rows that differ only in a field the key does not read sort alike. */
  lemma KeyIgnoresOtherFields(parse: string -> Option<int>, a: Row, b: Row, field: string)
    requires field !in TimestampFields
    requires a - {field} == b - {field}
    ensures RowKey(parse)(a) == RowKey(parse)(b)
  {
    forall k | k in TimestampFields
      ensures Get(a, k) == Get(b, k)
    {
      assert k in a <==> k in a - {field};
      assert k in b <==> k in b - {field};
      if k in a {
        assert a[k] == (a - {field})[k];
        assert b[k] == (b - {field})[k];
      }
    }
    assert IssuedAtField(Obj(a)) == IssuedAtField(Obj(b));
  }

  /** A fetch phase never moves a row in the newest-first order, so it may
      complete after the list was sorted. */
  lemma {:induction false} SortThenFill(f: Filler, t: Option<map<string, Value>>, rows: seq<Row>, parse: string -> Option<int>)
    requires f.field !in TimestampFields
    ensures FillAll(f, t, SortDesc(rows, RowKey(parse))) == SortDesc(FillAll(f, t, rows), RowKey(parse))
  {
    if t.Some? {
      var g := Fetched(f, t.value);
      forall y: Row
        ensures RowKey(parse)(g(y)) == RowKey(parse)(y)
      {
        KeyIgnoresOtherFields(parse, g(y), y, f.field);
      }
      SortDescMap(g, rows, RowKey(parse));
    }
  }

  /** Both phases for both fields, with the rows kept in their received
      order: titles first, member names second, each nested phase before
      its fetch phase is started. */
  function LoadUnsorted(titles: Filler, members: Filler, rows: seq<Row>,
                        books: Value -> Value, users: Value -> Value): (r: seq<Row>)
    ensures |r| == |rows|
    ensures forall i :: 0 <= i < |rows| ==> r[i] - {titles.field, members.field} == rows[i] - {titles.field, members.field}
  {
    var a := MapSeq(Nested(titles), rows);
    var b := MapSeq(Nested(members), a);
    var r := FillAll(members, Table(members, b, users), FillAll(titles, Table(titles, a, books), b));
    assert forall i :: 0 <= i < |rows| ==> r[i] - {titles.field, members.field} == rows[i] - {titles.field, members.field} by {
      forall i | 0 <= i < |rows|
        ensures r[i] - {titles.field, members.field} == rows[i] - {titles.field, members.field}
      {
        var c := FillAll(titles, Table(titles, a, books), b);
        TwoFieldChain(rows[i], a[i], b[i], c[i], r[i], titles.field, members.field);
      }
    }
    r
  }

  lemma TwoFieldChain(r0: Row, r1: Row, r2: Row, r3: Row, r4: Row, t: string, m: string)
    requires r1 - {t} == r0 - {t} && r2 - {m} == r1 - {m}
    requires r3 - {t} == r2 - {t} && r4 - {m} == r3 - {m}
    ensures r4 - {t, m} == r0 - {t, m}
  {
    forall k | k != t && k != m
      ensures (k in r4 <==> k in r0) && (k in r0 ==> r4[k] == r0[k])
    {
      assert k in r0 <==> k in r0 - {t};
      assert k in r1 <==> k in r1 - {t};
      assert k in r1 <==> k in r1 - {m};
      assert k in r2 <==> k in r2 - {m};
      assert k in r2 <==> k in r2 - {t};
      assert k in r3 <==> k in r3 - {t};
      assert k in r3 <==> k in r3 - {m};
      assert k in r4 <==> k in r4 - {m};
      if k in r0 {
        assert r0[k] == (r0 - {t})[k] == r1[k] == (r1 - {m})[k] == r2[k];
        assert r2[k] == (r2 - {t})[k] == r3[k] == (r3 - {m})[k] == r4[k];
      }
    }
    assert (r4 - {t, m}).Keys == (r0 - {t, m}).Keys;
  }

  /** The order of events when a dashboard loads a list: the nested phases
      for titles and names run, the fetches are started, the list is sorted,
      and the fetch phases complete afterwards on the sorted list. */
  function LoadRows(titles: Filler, members: Filler, rows: seq<Row>,
                    books: Value -> Value, users: Value -> Value, parse: string -> Option<int>): seq<Row> {
    var a := MapSeq(Nested(titles), rows);
    var b := MapSeq(Nested(members), a);
    var s := SortDesc(b, RowKey(parse));
    FillAll(members, Table(members, b, users), FillAll(titles, Table(titles, a, books), s))
  }

  /** A loaded list is newest first, and it is the sort of the rows with
      both fields filled in: the late fetches do not disturb the order. */
  lemma {:induction false} LoadRowsSorted(titles: Filler, members: Filler, rows: seq<Row>,
                                          books: Value -> Value, users: Value -> Value, parse: string -> Option<int>)
    requires titles.field !in TimestampFields && members.field !in TimestampFields
    ensures LoadRows(titles, members, rows, books, users, parse) == SortDesc(LoadUnsorted(titles, members, rows, books, users), RowKey(parse))
    ensures SortedDesc(LoadRows(titles, members, rows, books, users, parse), RowKey(parse))
    ensures multiset(LoadRows(titles, members, rows, books, users, parse)) == multiset(LoadUnsorted(titles, members, rows, books, users))
  {
    var a := MapSeq(Nested(titles), rows);
    var b := MapSeq(Nested(members), a);
    var tt, tm := Table(titles, a, books), Table(members, b, users);
    SortThenFill(titles, tt, b, parse);
    SortThenFill(members, tm, FillAll(titles, tt, b), parse);
    SortDescSorted(LoadUnsorted(titles, members, rows, books, users), RowKey(parse));
  }

  /** A row whose field is empty after the first phase, whose id is truthy
      and whose fetched record offers a value, takes that value, provided
      the ids are numbers (distinct numbers print differently). */
  lemma AttachFillsFromFetch(f: Filler, rows: seq<Row>, detail: Value -> Value, i: nat)
    requires i < |rows|
    requires forall j :: 0 <= j < |rows| ==> f.idOf(FillNested(f, rows[j])).Num? || Nullish(f.idOf(FillNested(f, rows[j])))
    requires !Truthy(Get(FillNested(f, rows[i]), f.field))
    requires Truthy(f.idOf(FillNested(f, rows[i])))
    requires Truthy(detail(f.idOf(FillNested(f, rows[i]))))
    requires Truthy(f.fromDetail(detail(f.idOf(FillNested(f, rows[i])))))
    ensures f.field in Attach(f, rows, detail)[i]
    ensures Attach(f, rows, detail)[i][f.field] == f.fromDetail(detail(f.idOf(FillNested(f, rows[i]))))
  {
    var p := MapSeq(Nested(f), rows);
    var row := p[i];
    var id := f.idOf(row);
    var ids := PendingIds(f, p);
    assert id in Candidates(f, p);
    assert id in ids;
    var k :| 0 <= k < |ids| && ids[k] == id;
    PendingIdsAreNumbers(f, p);
    DistinctNumbersPrintDistinct(ids);
    LookupTableUnique(ids, detail, k);
    var m := LookupTable(ids, detail);
    assert ToStr(Or(id, Str(""))) == ToStr(id);
    assert Table(f, p, detail) == Some(m);
    AttachAt(f, rows, detail, m, i);
  }

  lemma AttachAt(f: Filler, rows: seq<Row>, detail: Value -> Value, m: map<string, Value>, i: nat)
    requires i < |rows| && Table(f, MapSeq(Nested(f), rows), detail) == Some(m)
    ensures Attach(f, rows, detail)[i] == FillFetched(f, MapSeq(Nested(f), rows)[i], m)
  {
    var p := MapSeq(Nested(f), rows);
    assert Attach(f, rows, detail) == MapSeq(Fetched(f, m), p);
  }

  lemma PendingIdsAreNumbers(f: Filler, p: seq<Row>)
    requires forall j :: 0 <= j < |p| ==> f.idOf(p[j]).Num? || Nullish(f.idOf(p[j]))
    ensures forall k :: 0 <= k < |PendingIds(f, p)| ==> PendingIds(f, p)[k].Num?
  {
    var cands := Candidates(f, p);
    forall k | 0 <= k < |PendingIds(f, p)|
      ensures PendingIds(f, p)[k].Num?
    {
      var c :| 0 <= c < |cands| && cands[c] == PendingIds(f, p)[k];
      var q :| 0 <= q < |p| && !Truthy(Get(p[q], f.field)) && cands[c] == f.idOf(p[q]);
    }
  }

  lemma DistinctNumbersPrintDistinct(ids: seq<Value>)
    requires forall k :: 0 <= k < |ids| ==> ids[k].Num?
    requires forall j, k :: 0 <= j < k < |ids| ==> ids[j] != ids[k]
    ensures forall j, k :: 0 <= j < |ids| && 0 <= k < |ids| && j != k ==> ToStr(ids[j]) != ToStr(ids[k])
  {
    forall j, k | 0 <= j < |ids| && 0 <= k < |ids| && j != k
      ensures ToStr(ids[j]) != ToStr(ids[k])
    {
      ToStrNumInjective(ids[j].n, ids[k].n);
    }
  }
}

=== FILE: librarian.dfy ===
/** The librarian dashboard's row logic: the issue-id picker, the approval
    gate and its local update, the confirm-return guard, and the title and
    member-name fillers its lists are loaded with. */
module LibrarianDashboard {
  import opened Options
  import opened Text
  import opened Values
  import opened Sequences
  import opened IssueRows

  /** The fields `getIssueId` tries, in order. */
  const IssueIdKeys: seq<string> := ["id", "issueId", "issue_id", "request_id"]

  /** `getIssueId`: the first of the id fields that is neither null nor
      undefined, as a string; None for a falsy row or a row with none. */
  function GetIssueId(it: Value): (r: Option<string>)
    ensures r.Some? <==> Truthy(it) && exists i :: 0 <= i < |IssueIdKeys| && !Nullish(Prop(it, IssueIdKeys[i]))
    ensures r.Some? ==> (exists i :: 0 <= i < |IssueIdKeys|
                           && !Nullish(Prop(it, IssueIdKeys[i]))
                           && (forall j :: 0 <= j < i ==> Nullish(Prop(it, IssueIdKeys[j])))
                           && r.value == ToStr(Prop(it, IssueIdKeys[i])))
  {
    if !Truthy(it) then None
    else
      var vs := [Prop(it, "id"), Prop(it, "issueId"), Prop(it, "issue_id"), Prop(it, "request_id"), Null];
      assert forall i :: 0 <= i < 4 ==> vs[i] == Prop(it, IssueIdKeys[i]);
      CoalesceAllDefined(vs);
      var id := CoalesceAll(vs);
      if Nullish(id) then None else Some(ToStr(id))
  }

  /** Only the id fields matter: a row's other fields never change its id. */
  lemma GetIssueIdReadsIdFields(r: Row, key: string, v: Value)
    requires key !in IssueIdKeys
    ensures GetIssueId(Obj(r[key := v])) == GetIssueId(Obj(r))
  {
    assert forall i :: 0 <= i < |IssueIdKeys| ==> Prop(Obj(r[key := v]), IssueIdKeys[i]) == Prop(Obj(r), IssueIdKeys[i]);
  }

  /** `isApprovalAllowed`: the status, as text, lower-cased, is "requested". */
  function IsApprovalAllowed(it: Value): (b: bool)
    ensures b <==> Lower(ToStr(Prop(it, "status"))) == "requested"
  {
    var s := ToStr(Or(Prop(it, "status"), Str("")));
    assert !Truthy(Prop(it, "status")) ==> Lower(ToStr(Prop(it, "status"))) != "requested" by {
      if !Truthy(Prop(it, "status")) {
        var t := ToStr(Prop(it, "status"));
        assert t in {"undefined", "null", "false", "0", ""};
        assert Lower(t) == t;
      }
    }
    Lower(s) == "requested"
  }

  /** The gate on some statuses: any capitalisation of "requested" opens it,
      the statuses a decided request moves to do not. */
  lemma ApprovalAllowedExamples()
    ensures IsApprovalAllowed(Obj(map["status" := Str("Requested")]))
    ensures IsApprovalAllowed(Obj(map["status" := Str("REQUESTED")]))
    ensures !IsApprovalAllowed(Obj(map["status" := Str("issued")]))
    ensures !IsApprovalAllowed(Obj(map["status" := Str("rejected")]))
    ensures !IsApprovalAllowed(Obj(map[]))
  {
    assert Lower("Requested") == "requested";
    assert Lower("REQUESTED") == "requested";
    assert Lower("issued")[0] == 'i';
    assert Lower("rejected")[0] == 'r' && Lower("rejected")[2] == 'j';
  }

  /** The librarian's pending choice for a row. */
  datatype Choice = Approve | Reject

  datatype Toast = ToastSuccess(text: string) | ToastError(message: Value)

  /** What `applyApproval` leaves behind: the row, the selections, the
      request it sent (issue id and whether it approves) and the toast. */
  datatype Approval = Approval(row: Row, selections: map<string, Choice>, sent: Option<(string, bool)>, toast: Option<Toast>)

  /** `err?.error?.message || err?.message || fallback`. */
  function ErrorMessage(err: Value, fallback: string): (m: Value)
    ensures fallback != "" ==> Truthy(m)
    ensures Truthy(Prop(Prop(err, "error"), "message")) ==> m == Prop(Prop(err, "error"), "message")
    ensures !Truthy(Prop(Prop(err, "error"), "message")) && Truthy(Prop(err, "message")) ==> m == Prop(err, "message")
    ensures !Truthy(Prop(Prop(err, "error"), "message")) && !Truthy(Prop(err, "message")) ==> m == Str(fallback)
  {
    var vs := [Prop(Prop(err, "error"), "message"), Prop(err, "message"), Str(fallback)];
    OrAllTruthy(vs);
    assert vs[1..] == [vs[1], vs[2]];
    OrAllTruthy(vs[1..]);
    assert fallback != "" ==> Truthy(vs[2]);
    OrAll([Prop(Prop(err, "error"), "message"), Prop(err, "message"), Str(fallback)])
  }

  /** `applyApproval`. `err` is the request's failure, None when it succeeds. */
  function ApplyApproval(it: Row, selections: map<string, Choice>, err: Option<Value>): (r: Approval)
    ensures r.sent.Some? <==> GetIssueId(Obj(it)).Some? && GetIssueId(Obj(it)).value != "" && GetIssueId(Obj(it)).value in selections
    ensures r.sent.None? ==> r == Approval(it, selections, None, None)
    ensures r.sent.Some? ==> r.sent.value == (GetIssueId(Obj(it)).value, selections[GetIssueId(Obj(it)).value] == Approve)
    ensures r.sent.Some? && err.None? ==>
              && r.sent.value.0 !in r.selections
              && (forall k :: k in selections && k != r.sent.value.0 ==> k in r.selections && r.selections[k] == selections[k])
              && Get(r.row, "status") == Str(if r.sent.value.1 then "issued" else "rejected")
              && !IsApprovalAllowed(Obj(r.row))
    ensures err.Some? ==> r.row == it && r.selections == selections
    ensures r.row - {"status"} == it - {"status"}
  {
    var id := GetIssueId(Obj(it));
    if id.None? || id.value == "" || id.value !in selections then Approval(it, selections, None, None)
    else
      var key := id.value;
      var approve := selections[key] == Approve;
      match err
      case None =>
        var status := if approve then "issued" else "rejected";
        assert Lower(status) == status;
        Approval(it["status" := Str(status)], selections - {key}, Some((key, approve)),
                 Some(ToastSuccess(if approve then "Book Request Approved" else "Book Request Rejected")))
      case Some(e) =>
        Approval(it, selections, Some((key, approve)), Some(ToastError(ErrorMessage(e, "Failed to apply approval"))))
  }

  /** A decision is sent once: after a successful approval the row's
      selection is gone, so applying again sends nothing. */
  lemma ApplyApprovalOnce(it: Row, selections: map<string, Choice>, err: Option<Value>)
    requires ApplyApproval(it, selections, None).sent.Some?
    ensures ApplyApproval(ApplyApproval(it, selections, None).row, ApplyApproval(it, selections, None).selections, err).sent.None?
  {
    var first := ApplyApproval(it, selections, None);
    GetIssueIdReadsIdFields(it, "status", Get(first.row, "status"));
    assert first.row == it["status" := Get(first.row, "status")];
  }

  /** What `onConfirmReturn` does. */
  datatype ReturnFlow =
    | InvalidId
    | Declined(prompt: string)
    | Confirmed(prompt: string, id: string, toast: Toast)

  /** The title shown in the confirmation prompt. */
  function ReturnTitle(it: Value): Value {
    OrAll([Prop(it, "title"), And(Prop(it, "book"), Or(Prop(Prop(it, "book"), "title"), Prop(Prop(it, "book"), "name"))),
           Prop(it, "book_title"), Str("-")])
  }

  /** `onConfirmReturn`: a row without an id is refused with a toast;
      otherwise the prompt names the book and, once confirmed, the return
      is sent for the row's id. `err` is the request's failure. */
  function ConfirmReturn(it: Value, confirmed: bool, err: Option<Value>): (r: ReturnFlow)
    ensures r.InvalidId? <==> GetIssueId(it).None? || GetIssueId(it).value == ""
    ensures r.Confirmed? <==> !r.InvalidId? && confirmed
    ensures r.Confirmed? ==> r.id == GetIssueId(it).value && r.id != ""
    ensures r.Confirmed? ==> (r.toast.ToastSuccess? <==> err.None?)
    ensures !r.InvalidId? ==> r.prompt == "Return confirmation of the book: " + ToStr(ReturnTitle(it))
    ensures Truthy(ReturnTitle(it))
  {
    var id := GetIssueId(it);
    OrAllTruthy([Prop(it, "title"), And(Prop(it, "book"), Or(Prop(Prop(it, "book"), "title"), Prop(Prop(it, "book"), "name"))),
                 Prop(it, "book_title"), Str("-")]);
    if id.None? || id.value == "" then InvalidId
    else
      var prompt := "Return confirmation of the book: " + ToStr(ReturnTitle(it));
      if !confirmed then Declined(prompt)
      else match err
        case None => Confirmed(prompt, id.value, ToastSuccess("Return confirmed"))
        case Some(e) => Confirmed(prompt, id.value, ToastError(ErrorMessage(e, "Failed to confirm return")))
  }

  /** The nested-record title fill: `it.book && (it.book.title || it.book.name)`. */
  function BookTitleOrName(row: Row): Value {
    And(Get(row, "book"), Or(Prop(Get(row, "book"), "title"), Prop(Get(row, "book"), "name")))
  }

  /** The id a row's book is fetched by: `bookId ?? book_id ?? (book && (book.id || bookId))`. */
  function BookIdOf(row: Row): Value {
    CoalesceAll([Get(row, "bookId"), Get(row, "book_id"),
                 And(Get(row, "book"), Or(Prop(Get(row, "book"), "id"), Get(row, "bookId")))])
  }

  /** A fetched book's title: `book.title || book?.[0]?.title`. */
  function FetchedTitle(book: Value): Value {
    Or(Prop(book, "title"), Prop(At(book, 0), "title"))
  }

  /** `attachTitles` on this dashboard. */
  const Titles: Filler := Filler("title", BookTitleOrName, BookIdOf, FetchedTitle)

  /** The nested-record name fill: `user.name || user.fullName` when the
      user record offers one, else `user_name || userName`. */
  function NestedMemberName(row: Row): Value {
    Or(And(Get(row, "user"), Or(Prop(Get(row, "user"), "name"), Prop(Get(row, "user"), "fullName"))),
       Or(Get(row, "user_name"), Get(row, "userName")))
  }

  /** `userId ?? user_id ?? requested_by ?? (user && (user.id || userId))`. */
  function UserIdOf(row: Row): Value {
    CoalesceAll([Get(row, "userId"), Get(row, "user_id"), Get(row, "requested_by"),
                 And(Get(row, "user"), Or(Prop(Get(row, "user"), "id"), Get(row, "userId")))])
  }

  /** `user.name || user.fullName || user?.[0]?.name`. */
  function FetchedName(user: Value): Value {
    OrAll([Prop(user, "name"), Prop(user, "fullName"), Prop(At(user, 0), "name")])
  }

  /** `attachMembers`, the same on both dashboards. */
  const Members: Filler := Filler("memberName", NestedMemberName, UserIdOf, FetchedName)

  /** A list as the dashboard loads it: titles and member names attached,
      newest first. */
  function LoadList(rows: seq<Row>, books: Value -> Value, users: Value -> Value, parse: string -> Option<int>): (r: seq<Row>)
    ensures |r| == |rows|
    ensures SortedDesc(r, RowKey(parse))
    ensures multiset(r) == multiset(LoadUnsorted(Titles, Members, rows, books, users))
  {
    LoadRowsSorted(Titles, Members, rows, books, users, parse);
    LoadRows(Titles, Members, rows, books, users, parse)
  }

  /** The first phase fills an empty title from a book record's `name`
      when it has no `title`, and an empty member name from `user_name`
      when there is no user record. */
  lemma NestedFillFallbacks(n: string, u: string)
    requires n != "" && u != ""
    ensures FillNested(Titles, map["book" := Obj(map["name" := Str(n)])])["title"] == Str(n)
    ensures FillNested(Members, map["user_name" := Str(u)])["memberName"] == Str(u)
  {
  }

  /** The book id chain: `bookId` wins whenever it is defined, then
      `book_id`, and the nested `book.id` counts only when both are null or
      undefined. */
  lemma BookIdChain(row: Row)
    ensures !Nullish(Get(row, "bookId")) ==> BookIdOf(row) == Get(row, "bookId")
    ensures Nullish(Get(row, "bookId")) && !Nullish(Get(row, "book_id")) ==> BookIdOf(row) == Get(row, "book_id")
    ensures Nullish(Get(row, "bookId")) && Nullish(Get(row, "book_id")) ==>
              (Truthy(BookIdOf(row)) <==> Truthy(Get(row, "book")) && Truthy(Prop(Get(row, "book"), "id")))
              && (Truthy(BookIdOf(row)) ==> BookIdOf(row) == Prop(Get(row, "book"), "id"))
  {
    var b := Get(row, "book");
    var bs := [Get(row, "bookId"), Get(row, "book_id"), And(b, Or(Prop(b, "id"), Get(row, "bookId")))];
    assert BookIdOf(row) == CoalesceAll(bs);
    var kb :| CoalesceStopsAt(bs, kb) && BookIdOf(row) == bs[kb];
    assert !Nullish(bs[0]) ==> kb == 0;
    assert Nullish(bs[0]) && !Nullish(bs[1]) ==> kb == 1;
    assert Nullish(bs[0]) && Nullish(bs[1]) ==> kb == 2;
  }

  /** The member id chain: `userId`, then `user_id`, then `requested_by`,
      each winning whenever defined, and the nested `user.id` last. */
  lemma UserIdChain(row: Row)
    ensures !Nullish(Get(row, "userId")) ==> UserIdOf(row) == Get(row, "userId")
    ensures Nullish(Get(row, "userId")) && !Nullish(Get(row, "user_id")) ==> UserIdOf(row) == Get(row, "user_id")
    ensures Nullish(Get(row, "userId")) && Nullish(Get(row, "user_id")) && !Nullish(Get(row, "requested_by")) ==>
              UserIdOf(row) == Get(row, "requested_by")
    ensures Nullish(Get(row, "userId")) && Nullish(Get(row, "user_id")) && Nullish(Get(row, "requested_by")) ==>
              (Truthy(UserIdOf(row)) <==> Truthy(Get(row, "user")) && Truthy(Prop(Get(row, "user"), "id")))
              && (Truthy(UserIdOf(row)) ==> UserIdOf(row) == Prop(Get(row, "user"), "id"))
  {
    var u := Get(row, "user");
    var us := [Get(row, "userId"), Get(row, "user_id"), Get(row, "requested_by"), And(u, Or(Prop(u, "id"), Get(row, "userId")))];
    assert UserIdOf(row) == CoalesceAll(us);
    var ku :| CoalesceStopsAt(us, ku) && UserIdOf(row) == us[ku];
    assert !Nullish(us[0]) ==> ku == 0;
    assert Nullish(us[0]) && !Nullish(us[1]) ==> ku == 1;
    assert Nullish(us[0]) && Nullish(us[1]) && !Nullish(us[2]) ==> ku == 2;
    assert Nullish(us[0]) && Nullish(us[1]) && Nullish(us[2]) ==> ku == 3;
  }

  /** The member name sources: a fetched user's name is its first truthy
      `name`, `fullName` or first element's `name`; a nested user record's
      name wins over the row's `user_name`/`userName`. */
  lemma NameChains(row: Row, user: Value)
    ensures Truthy(FetchedName(user)) <==>
              Truthy(Prop(user, "name")) || Truthy(Prop(user, "fullName")) || Truthy(Prop(At(user, 0), "name"))
    ensures Truthy(Prop(user, "name")) ==> FetchedName(user) == Prop(user, "name")
    ensures !Truthy(Prop(user, "name")) && Truthy(Prop(user, "fullName")) ==> FetchedName(user) == Prop(user, "fullName")
    ensures Truthy(Get(row, "user")) && Truthy(Prop(Get(row, "user"), "name")) ==>
              NestedMemberName(row) == Prop(Get(row, "user"), "name")
    ensures !(Truthy(Get(row, "user")) && (Truthy(Prop(Get(row, "user"), "name")) || Truthy(Prop(Get(row, "user"), "fullName")))) ==>
              NestedMemberName(row) == Or(Get(row, "user_name"), Get(row, "userName"))
  {
    OrAllTruthy([Prop(user, "name"), Prop(user, "fullName"), Prop(At(user, 0), "name")]);
    OrAllTruthy([Prop(user, "fullName"), Prop(At(user, 0), "name")]);
  }

  /** A title or member name a row already has is never replaced. */
  lemma LoadKeepsExisting(rows: seq<Row>, books: Value -> Value, users: Value -> Value, i: nat)
    requires i < |rows|
    ensures Truthy(Get(rows[i], "title")) ==> Get(LoadUnsorted(Titles, Members, rows, books, users)[i], "title") == Get(rows[i], "title")
    ensures Truthy(Get(rows[i], "memberName")) ==> Get(LoadUnsorted(Titles, Members, rows, books, users)[i], "memberName") == Get(rows[i], "memberName")
  {
    var a := MapSeq(Nested(Titles), rows);
    var b := MapSeq(Nested(Members), a);
    var c := FillAll(Titles, Table(Titles, a, books), b);
    var r := FillAll(Members, Table(Members, b, users), c);
    assert r == LoadUnsorted(Titles, Members, rows, books, users);
    if Truthy(Get(rows[i], "title")) {
      assert a[i] == rows[i];
      assert Get(b[i], "title") == Get(a[i], "title") by {
        assert b[i] - {"memberName"} == a[i] - {"memberName"};
        assert "title" in b[i] <==> "title" in b[i] - {"memberName"};
        assert "title" in a[i] <==> "title" in a[i] - {"memberName"};
      }
      assert c[i] == b[i] by {
        if Table(Titles, a, books).Some? {
          assert c[i] == FillFetched(Titles, b[i], Table(Titles, a, books).value);
        }
      }
      assert Get(r[i], "title") == Get(c[i], "title") by {
        assert r[i] - {"memberName"} == c[i] - {"memberName"};
        assert "title" in r[i] <==> "title" in r[i] - {"memberName"};
        assert "title" in c[i] <==> "title" in c[i] - {"memberName"};
      }
    }
    if Truthy(Get(rows[i], "memberName")) {
      assert Get(a[i], "memberName") == Get(rows[i], "memberName") by {
        assert a[i] - {"title"} == rows[i] - {"title"};
        assert "memberName" in a[i] <==> "memberName" in a[i] - {"title"};
        assert "memberName" in rows[i] <==> "memberName" in rows[i] - {"title"};
      }
      assert b[i] == a[i];
      assert Get(c[i], "memberName") == Get(b[i], "memberName") by {
        assert c[i] - {"title"} == b[i] - {"title"};
        assert "memberName" in c[i] <==> "memberName" in c[i] - {"title"};
        assert "memberName" in b[i] <==> "memberName" in b[i] - {"title"};
      }
      assert r[i] == c[i] by {
        if Table(Members, b, users).Some? {
          assert r[i] == FillFetched(Members, c[i], Table(Members, b, users).value);
        }
      }
    }
  }

  /** A book id of 0 is looked up under the empty string, so unless some
      record is stored under "" a row whose book id is 0 receives no
      fetched title, even when the book record for id 0 was fetched. */
  lemma ZeroBookIdNeverMatches(m: map<string, Value>)
    requires "" !in m
    ensures FillFetched(Titles, map["bookId" := Num(0)], m) == map["bookId" := Num(0)]
  {
    var row := map["bookId" := Num(0)];
    assert BookIdOf(row) == Num(0) by {
      var vs := [Get(row, "bookId"), Get(row, "book_id"),
                 And(Get(row, "book"), Or(Prop(Get(row, "book"), "id"), Get(row, "bookId")))];
      assert !Nullish(vs[0]);
    }
  }
}

=== FILE: my_requests.dfy ===
/** A member's own requests page: the issue-id picker of the return
    action, and the list load that sorts the requests, fetches each
    distinct book once and writes the fetched titles into the rows. */
module MyRequests {
  import opened Options
  import opened Values
  import opened Sequences
  import opened IssueRows
  import LibrarianDashboard

  /** The fields `onRequestReturn` tries, in order. */
  const ReturnIdKeys: seq<string> := ["id", "_id", "issue_id", "issueId", "issueIdNumber"]

  function ReturnIdChain(it: Value): seq<Value> {
    [Prop(it, "id"), Prop(it, "_id"), Prop(it, "issue_id"), Prop(it, "issueId"), Prop(it, "issueIdNumber"), Null]
  }

  /** What `onRequestReturn` does before the confirmation dialog closes. */
  datatype ReturnRequest = NoIssueId(error: string) | Prompt(id: Value, message: string)

  const NoIssueIdMessage := "Unable to determine issue id for this request"

  /** `onRequestReturn`: the id is the first of the id fields that is
      neither null nor undefined; when that is missing or falsy an error is
      shown and no dialog opens, otherwise the dialog names the book. */
  function OnRequestReturn(it: Value): (r: ReturnRequest)
    ensures r.NoIssueId? ==> r.error == NoIssueIdMessage
    ensures r.Prompt? <==> exists i :: 0 <= i < |ReturnIdKeys| && Truthy(Prop(it, ReturnIdKeys[i]))
                                      && forall j :: 0 <= j < i ==> Nullish(Prop(it, ReturnIdKeys[j]))
    ensures r.Prompt? ==> Truthy(r.id)
    ensures r.Prompt? ==> exists i :: 0 <= i < |ReturnIdKeys| && r.id == Prop(it, ReturnIdKeys[i])
                                      && forall j :: 0 <= j < i ==> Nullish(Prop(it, ReturnIdKeys[j]))
    ensures r.Prompt? ==> r.message == "Do you want to return book: "
                                       + ToStr(OrAll([Prop(it, "title"), Prop(it, "bookTitle"), Prop(it, "name"), Str("")]))
  {
    var vs := ReturnIdChain(it);
    assert forall i :: 0 <= i < 5 ==> vs[i] == Prop(it, ReturnIdKeys[i]);
    var id := CoalesceAll(vs);
    var k :| CoalesceStopsAt(vs, k) && id == vs[k];
    if !Truthy(id) then
      assert forall i :: 0 <= i < 5 && Truthy(Prop(it, ReturnIdKeys[i])) ==> exists j :: 0 <= j < i && !Nullish(Prop(it, ReturnIdKeys[j])) by {
        forall i | 0 <= i < 5 && Truthy(Prop(it, ReturnIdKeys[i]))
          ensures exists j :: 0 <= j < i && !Nullish(Prop(it, ReturnIdKeys[j]))
        {
          assert !Nullish(vs[i]);
          assert k < i;
          assert !Nullish(vs[k]) && vs[k] == Prop(it, ReturnIdKeys[k]);
        }
      }
      NoIssueId(NoIssueIdMessage)
    else
      var title := OrAll([Prop(it, "title"), Prop(it, "bookTitle"), Prop(it, "name"), Str("")]);
      Prompt(id, "Do you want to return book: " + ToStr(title))
  }

  /** The first id field decides: a row whose `id` is 0 is refused even
      when a later field holds a usable id. */
  lemma ZeroIdHidesLaterIds()
    ensures OnRequestReturn(Obj(map["id" := Num(0), "issue_id" := Num(7)])).NoIssueId?
  {
    var it := Obj(map["id" := Num(0), "issue_id" := Num(7)]);
    assert ReturnIdChain(it)[0] == Num(0);
  }

  /** A null field is skipped: the next defined one is the id. */
  lemma NullIdSkipped()
    ensures OnRequestReturn(Obj(map["_id" := Null, "issue_id" := Num(7)])).Prompt?
    ensures OnRequestReturn(Obj(map["_id" := Null, "issue_id" := Num(7)])).id == Num(7)
  {
    var it := Obj(map["_id" := Null, "issue_id" := Num(7)]);
    var vs := ReturnIdChain(it);
    assert vs == [Undefined, Null, Num(7), Undefined, Undefined, Null];
    assert vs[1..][1..] == [Num(7), Undefined, Undefined, Null];
  }

  /** `it.bookId ?? it.book_id`. */
  function BookKey(row: Row): Value {
    Coalesce(Get(row, "bookId"), Get(row, "book_id"))
  }

  /** The book keys of the rows that have one, in row order. */
  function PresentKeys(rows: seq<Row>): (ks: seq<Value>)
    ensures forall k :: 0 <= k < |ks| ==> !Nullish(ks[k])
    ensures forall k :: 0 <= k < |ks| ==> exists i :: 0 <= i < |rows| && ks[k] == BookKey(rows[i])
    ensures forall i :: 0 <= i < |rows| && !Nullish(BookKey(rows[i])) ==> BookKey(rows[i]) in ks
    decreases |rows|
  {
    if |rows| == 0 then []
    else
      var rest := PresentKeys(rows[1..]);
      assert forall i :: 1 <= i < |rows| ==> rows[i] == rows[1..][i - 1];
      assert forall k :: 0 <= k < |rest| ==> exists i :: 0 <= i < |rows| && rest[k] == BookKey(rows[i]) by {
        forall k | 0 <= k < |rest|
          ensures exists i :: 0 <= i < |rows| && rest[k] == BookKey(rows[i])
        {
          var i :| 0 <= i < |rows[1..]| && rest[k] == BookKey(rows[1..][i]);
          assert rows[1..][i] == rows[i + 1];
        }
      }
      (if Nullish(BookKey(rows[0])) then [] else [BookKey(rows[0])]) + rest
  }

  /** The book ids to fetch: each present book key once, in order of first
      occurrence. */
  function BookIds(rows: seq<Row>): (ids: seq<Value>)
    ensures forall k :: 0 <= k < |ids| ==> !Nullish(ids[k]) && exists i :: 0 <= i < |rows| && ids[k] == BookKey(rows[i])
    ensures forall i :: 0 <= i < |rows| && !Nullish(BookKey(rows[i])) ==> BookKey(rows[i]) in ids
    ensures forall j, k :: 0 <= j < k < |ids| ==> ids[j] != ids[k]
  {
    var ks := PresentKeys(rows);
    var ids := Dedup(ks);
    assert forall k :: 0 <= k < |ids| ==> ids[k] in ks;
    ids
  }

  /** The key a row is looked up by: `String(it.bookId ?? it.book_id ?? '')`. */
  function LookupKey(row: Row): string {
    ToStr(CoalesceAll([Get(row, "bookId"), Get(row, "book_id"), Str("")]))
  }

  lemma LookupKeyOfPresent(row: Row)
    requires !Nullish(BookKey(row))
    ensures LookupKey(row) == ToStr(BookKey(row))
  {
    var vs := [Get(row, "bookId"), Get(row, "book_id"), Str("")];
    if Nullish(vs[0]) {
      assert vs[1..] == [Get(row, "book_id"), Str("")];
      assert CoalesceAll(vs) == CoalesceAll(vs[1..]);
      assert CoalesceAll(vs[1..]) == vs[1];
    }
  }

  /** The title step for one row: when its book was fetched the row's
      title becomes the fetched one, replacing any title it had; the row's
      own title is kept only when the fetched record has none. */
  function TitleFrom(row: Row, m: map<string, Value>): (r: Row)
    ensures r - {"title"} == row - {"title"}
    ensures LookupKey(row) !in m ==> r == row
    ensures LookupKey(row) in m ==>
              Get(r, "title") == Or(LibrarianDashboard.FetchedTitle(m[LookupKey(row)]), Get(row, "title"))
  {
    var key := LookupKey(row);
    if key in m then row["title" := Or(LibrarianDashboard.FetchedTitle(m[key]), Get(row, "title"))] else row
  }

  function TitleStep(m: map<string, Value>): Row -> Row {
    row => TitleFrom(row, m)
  }

  /** The outcome of a load: the items shown and the error text. */
  datatype Loaded = Loaded(items: seq<Row>, error: Value)

  /** The list request's reply: the rows, or the failure. */
  datatype Reply = Listed(rows: seq<Row>) | Failed(err: Value)

  /** The table of fetched books for the ids of `s`; None when there is
      nothing to fetch. */
  function BookTable(s: seq<Row>, books: Value -> Value): Option<map<string, Value>> {
    var ids := BookIds(s);
    if |ids| == 0 then None else Some(LookupTable(ids, books))
  }

  /** The rows after the title step (when any book was fetched). */
  function Titled(s: seq<Row>, books: Value -> Value): (r: seq<Row>)
    ensures |r| == |s|
    ensures forall i :: 0 <= i < |s| ==> r[i] - {"title"} == s[i] - {"title"}
  {
    match BookTable(s, books)
    case None => s
    case Some(m) => MapSeq(TitleStep(m), s)
  }

  /** `fetch`: sort the rows, fetch each distinct book, write the titles,
      sort again. A failed list request empties the list and sets the
      error text. `books` gives the record fetched for an id (falsy when
      that fetch failed). */
  function Fetch(reply: Reply, books: Value -> Value, parse: string -> Option<int>): (r: Loaded)
    ensures reply.Failed? ==> r.items == [] && Truthy(r.error)
    ensures reply.Failed? && Truthy(Prop(reply.err, "message")) ==> r.error == Prop(reply.err, "message")
    ensures reply.Failed? && !Truthy(Prop(reply.err, "message")) && ToStr(reply.err) != "" ==>
              r.error == Str(ToStr(reply.err))
    ensures reply.Failed? && !Truthy(Prop(reply.err, "message")) && ToStr(reply.err) == "" ==>
              r.error == Str("Failed to load requests")
    ensures reply.Listed? ==> |r.items| == |reply.rows| && r.error == Str("")
    ensures reply.Listed? ==> SortedDesc(r.items, RowKey(parse))
  {
    match reply
    case Failed(err) =>
      var vs := [Prop(err, "message"), Str(ToStr(err)), Str("Failed to load requests")];
      OrAllTruthy(vs);
      assert vs[1..] == [vs[1], vs[2]];
      OrAllTruthy(vs[1..]);
      assert Truthy(vs[2]);
      Loaded([], OrAll(vs))
    case Listed(rows) =>
      var t := Titled(SortDesc(rows, RowKey(parse)), books);
      SortDescSorted(t, RowKey(parse));
      Loaded(SortDesc(t, RowKey(parse)), Str(""))
  }

  /** Writing titles never moves a row, so the second sort leaves the list
      as the first sort put it: the items are the sorted rows with the
      title step applied, one for one. */
  lemma FetchSortsOnce(rows: seq<Row>, books: Value -> Value, parse: string -> Option<int>)
    ensures Fetch(Listed(rows), books, parse).items == Titled(SortDesc(rows, RowKey(parse)), books)
  {
    var s := SortDesc(rows, RowKey(parse));
    var t := Titled(s, books);
    SortDescSorted(rows, RowKey(parse));
    forall i | 0 <= i < |t|
      ensures RowKey(parse)(t[i]) == RowKey(parse)(s[i])
    {
      KeyIgnoresOtherFields(parse, t[i], s[i], "title");
    }
    assert SortedDesc(t, RowKey(parse));
    SortDescIdempotent(t, RowKey(parse));
  }

  /** In a sorted list whose book ids are all numbers, a row whose book was
      fetched with a title shows that title, whatever title it came with. */
  lemma TitledShowsFetchedTitle(s: seq<Row>, books: Value -> Value, i: nat)
    requires forall j :: 0 <= j < |s| ==> BookKey(s[j]).Num? || Nullish(BookKey(s[j]))
    requires i < |s| && BookKey(s[i]).Num?
    requires Truthy(LibrarianDashboard.FetchedTitle(books(BookKey(s[i]))))
    ensures Get(Titled(s, books)[i], "title") == LibrarianDashboard.FetchedTitle(books(BookKey(s[i])))
  {
    var id := BookKey(s[i]);
    var ids := BookIds(s);
    var k :| 0 <= k < |ids| && ids[k] == id;
    BookIdsAreNumbers(s);
    DistinctNumbersPrintDistinct(ids);
    FetchedTitleNeedsRecord(books(id));
    LookupTableUnique(ids, books, k);
    LookupKeyOfPresent(s[i]);
    var m := LookupTable(ids, books);
    assert BookTable(s, books) == Some(m);
    TitledAt(s, books, m, i);
  }

  lemma TitledAt(s: seq<Row>, books: Value -> Value, m: map<string, Value>, i: nat)
    requires BookTable(s, books) == Some(m) && i < |s|
    ensures Titled(s, books)[i] == TitleFrom(s[i], m)
  {
    assert Titled(s, books) == MapSeq(TitleStep(m), s);
  }

  lemma BookIdsAreNumbers(s: seq<Row>)
    requires forall j :: 0 <= j < |s| ==> BookKey(s[j]).Num? || Nullish(BookKey(s[j]))
    ensures forall q :: 0 <= q < |BookIds(s)| ==> BookIds(s)[q].Num?
  {
    var ids := BookIds(s);
    forall q | 0 <= q < |ids|
      ensures ids[q].Num?
    {
      var j :| 0 <= j < |s| && ids[q] == BookKey(s[j]);
    }
  }

  /** A fetched title needs a fetched record. */
  lemma FetchedTitleNeedsRecord(v: Value)
    ensures Truthy(LibrarianDashboard.FetchedTitle(v)) ==> Truthy(v)
  {
  }

  /** The same on the loaded page. */
  lemma FetchShowsFetchedTitle(rows: seq<Row>, books: Value -> Value, parse: string -> Option<int>, i: nat)
    requires forall j :: 0 <= j < |rows| ==> BookKey(rows[j]).Num? || Nullish(BookKey(rows[j]))
    requires i < |rows|
    requires var s := SortDesc(rows, RowKey(parse));
             BookKey(s[i]).Num? && Truthy(LibrarianDashboard.FetchedTitle(books(BookKey(s[i]))))
    ensures var s := SortDesc(rows, RowKey(parse));
            Get(Fetch(Listed(rows), books, parse).items[i], "title") == LibrarianDashboard.FetchedTitle(books(BookKey(s[i])))
  {
    var s := SortDesc(rows, RowKey(parse));
    FetchSortsOnce(rows, books, parse);
    forall j | 0 <= j < |s|
      ensures BookKey(s[j]).Num? || Nullish(BookKey(s[j]))
    {
      assert s[j] in multiset(rows);
      var q :| 0 <= q < |rows| && rows[q] == s[j];
    }
    TitledShowsFetchedTitle(s, books, i);
  }

  /** A failed list request leaves nothing on the page. */
  lemma FetchErrorEmpties(err: Value, books: Value -> Value, parse: string -> Option<int>)
    ensures Fetch(Failed(err), books, parse).items == []
    ensures Truthy(Prop(err, "message")) ==> Fetch(Failed(err), books, parse).error == Prop(err, "message")
  {
    OrAllTruthy([Prop(err, "message"), Str(ToStr(err)), Str("Failed to load requests")]);
  }
}

=== FILE: options.dfy ===
/** The Some/None datatype used wherever the application reads a value that
    may be absent (a session-storage entry, a parsed date, a decoded token). */
module Options {

  datatype Option<+T> = None | Some(value: T) {

    /** The wrapped value, or `default` when absent. */
    function GetOr(default: T): T {
      match this
      case Some(v) => v
      case None => default
    }
  }
}

=== FILE: overdue_details.dfy ===
/** The overdue-details dialog: how long an issue is overdue, worded for
    people, and the issue-id guard of its "contact user" action. */
module OverdueDetails {
  import opened Options
  import opened Text
  import opened Values
  import opened Elapsed
  import OverdueMail

  /** `d?.item || d`: the row the dialog was opened with. */
  function DialogData(d: Value): Value {
    Or(Prop(d, "item"), d)
  }

  /** `data?.return_date ?? data?.returnDate ?? null`. */
  function ReturnDateOf(data: Value): Value {
    CoalesceAll([Prop(data, "return_date"), Prop(data, "returnDate"), Null])
  }

  /** The wording for a positive span: days with an hour remainder when
      there is one, else hours, else "Less than an hour". */
  function DescribeSpan(sp: Span): string {
    if sp.days > 0 then IntToString(sp.days) + DayUnit(sp.days) + HourTail(sp.hours)
    else if sp.hours > 0 then IntToString(sp.hours) + HourUnit(sp.hours)
    else
      "Less than an hour"
  }

  /** `computeOverdueText`, with the current time `now` in milliseconds. */
  function OverdueText(data: Value, now: int, parse: string -> Option<int>): string {
    var rd := ReturnDateOf(data);
    if !Truthy(rd) then "-"
    else
      match NewDate(rd, parse)
      case None => "-"
      case Some(t) => if now - t <= 0 then "Not overdue" else DescribeSpan(Split(now - t))
  }

  function DayUnit(n: int): string {
    if n == 1 then " day" else " days"
  }

  function HourUnit(n: int): string {
    if n == 1 then " hour" else " hours"
  }

  /** The optional `, H hr` remainder after a day count. */
  function HourTail(h: int): string {
    if h > 0 then ", " + IntToString(h) + " hr" else ""
  }

  /** Reads the wording back, accepting only correctly inflected text:
      "day"/"hour" for one, "days"/"hours" otherwise, and an hour part only
      when there are hours. */
  function ParseWording(s: string): Option<Span> {
    if s == "Less than an hour" then Some(Span(0, 0))
    else
      match ReadNat(s)
      case None => None
      case Some((n, r)) =>
        if n == 0 then None
        else if r == HourUnit(n) then Some(Span(0, n))
        else ParseDays(n, r)
  }

  /** Reads `" day"`/`" days"` and the optional hour remainder after a day count `n`. */
  function ParseDays(n: nat, r: string): Option<Span> {
    var unit := DayUnit(n);
    if !(|unit| <= |r| && r[..|unit|] == unit) then None
    else
      match ParseHourTail(r[|unit|..])
      case None => None
      case Some(h) => Some(Span(n, h))
  }

  function ParseHourTail(rest: string): Option<nat> {
    if rest == "" then Some(0)
    else if |rest| >= 2 && rest[..2] == ", " then
      match ReadNat(rest[2..])
      case None => None
      case Some((h, r2)) => if h > 0 && r2 == " hr" then Some(h) else None
    else None
  }

  lemma ParseHourTailOf(h: nat)
    ensures ParseHourTail(HourTail(h)) == Some(h)
  {
    if h > 0 {
      var t := HourTail(h);
      assert t[..2] == ", " && t[2..] == NatToString(h) + " hr";
      ReadNatOfNatToString(h, " hr");
    }
  }

  lemma ParseDaysOf(n: nat, h: nat)
    requires n > 0
    ensures ParseDays(n, DayUnit(n) + HourTail(h)) == Some(Span(n, h))
  {
    var r := DayUnit(n) + HourTail(h);
    assert r[..|DayUnit(n)|] == DayUnit(n) && r[|DayUnit(n)|..] == HourTail(h);
    ParseHourTailOf(h);
  }

  /** The wording loses nothing: it reads back as the span it describes. */
  lemma ParseDescribeSpan(sp: Span)
    requires sp.days >= 0 && sp.hours >= 0
    ensures ParseWording(DescribeSpan(sp)) == Some(sp)
  {
    if sp.days > 0 {
      ParseDescribeDays(sp.days, sp.hours);
    } else if sp.hours > 0 {
      ParseDescribeHours(sp.hours);
    }
  }

  lemma {:induction false} ParseDescribeDays(n: nat, h: nat)
    requires n > 0
    ensures ParseWording(DescribeSpan(Span(n, h))) == Some(Span(n, h))
  {
    var s := DescribeSpan(Span(n, h));
    var r := DayUnit(n) + HourTail(h);
    assert s == NatToString(n) + r;
    DescribeSpanNotLess(Span(n, h));
    ReadNatOfNatToString(n, r);
    DayTextNotHour(n, h);
    ParseDaysOf(n, h);
    ParseWordingAfterCount(s, n, r);
  }

  lemma DayTextNotHour(n: nat, h: nat)
    ensures DayUnit(n) + HourTail(h) != HourUnit(n)
  {
    var r := DayUnit(n) + HourTail(h);
    assert r[1] == 'd' && HourUnit(n)[1] == 'h';
  }

  /** After a positive count that is not followed by an hour unit, the
      wording is read as a day count. */
  lemma ParseWordingAfterCount(s: string, n: nat, r: string)
    requires s != "Less than an hour" && ReadNat(s) == Some((n, r))
    requires n > 0 && r != HourUnit(n)
    ensures ParseWording(s) == ParseDays(n, r)
  {
  }

  /** Only a zero span is worded "Less than an hour". */
  lemma DescribeSpanNotLess(sp: Span)
    requires sp.days >= 0 && sp.hours >= 0 && (sp.days > 0 || sp.hours > 0)
    ensures DescribeSpan(sp) != "Less than an hour"
  {
    var n := if sp.days > 0 then sp.days else sp.hours;
    var s := DescribeSpan(sp);
    assert s[0] == NatToString(n)[0];
    assert IsDigit(s[0]) && !IsDigit("Less than an hour"[0]);
  }

  lemma {:induction false} ParseDescribeHours(h: nat)
    requires h > 0
    ensures ParseWording(DescribeSpan(Span(0, h))) == Some(Span(0, h))
  {
    var s := DescribeSpan(Span(0, h));
    var d := NatToString(h);
    assert s == d + HourUnit(h);
    assert s[0] == d[0];
    ReadNatOfNatToString(h, HourUnit(h));
  }

  /** A missing or unusable return date shows "-". */
  lemma NoDateShowsDash(data: Value, now: int, parse: string -> Option<int>)
    requires !Truthy(ReturnDateOf(data)) || NewDate(ReturnDateOf(data), parse).None?
    ensures OverdueText(data, now, parse) == "-"
  {
  }

  /** A return date at or after now shows "Not overdue". */
  lemma NotYetDue(data: Value, now: int, parse: string -> Option<int>)
    requires Truthy(ReturnDateOf(data)) && NewDate(ReturnDateOf(data), parse).Some?
    requires now <= NewDate(ReturnDateOf(data), parse).value
    ensures OverdueText(data, now, parse) == "Not overdue"
  {
  }

  /** Past the return date, the text names exactly the whole days and the
      remaining whole hours elapsed, with the inflection their counts call
      for; "Less than an hour" appears exactly in the first hour. */
  lemma {:induction false} OverdueTextDescribesElapsed(data: Value, now: int, parse: string -> Option<int>)
    requires Truthy(ReturnDateOf(data)) && NewDate(ReturnDateOf(data), parse).Some?
    requires NewDate(ReturnDateOf(data), parse).value < now
    ensures var diff := now - NewDate(ReturnDateOf(data), parse).value;
            var sp := ParseWording(OverdueText(data, now, parse));
            sp.Some? && 0 <= sp.value.hours < 24 && Covers(sp.value, diff)
            && (OverdueText(data, now, parse) == "Less than an hour" <==> diff < HourMs)
  {
    var diff := now - NewDate(ReturnDateOf(data), parse).value;
    var sp := Split(diff);
    assert OverdueText(data, now, parse) == DescribeSpan(sp);
    ParseDescribeSpan(sp);
    SplitRanges(diff);
    if sp.days > 0 || sp.hours > 0 {
      DescribeSpanNotLess(sp);
    }
  }

  /** The dialog and the backend agree: for a row carrying `return_date`,
      the dialog shows an overdue duration exactly when the backend would
      accept the overdue notice for it. */
  lemma AgreesWithBackend(row: Row, now: int, parse: string -> Option<int>)
    requires "return_date" in row && Truthy(row["return_date"])
    ensures var text := OverdueText(Obj(row), now, parse);
            (text != "-" && text != "Not overdue") <==> OverdueMail.IsOverdue(row, now, parse)
  {
    assert ParseWording("-").None? && ParseWording("Not overdue").None?;
    if OverdueMail.IsOverdue(row, now, parse) {
      OverdueTextDescribesElapsed(Obj(row), now, parse);
    }
  }

  datatype ContactAction = InvalidId | Notify(issueId: Value)

  /** `contactUser`: the id is `issue_id ?? id ?? issueId ?? issue_id`
      (the last operand repeats the first); a falsy id shows "Invalid issue
      id" and sends nothing. */
  function ContactUser(data: Value): (a: ContactAction)
    ensures a.Notify? ==> Truthy(a.issueId)
    ensures a.Notify? && !Nullish(Prop(data, "issue_id")) ==> a.issueId == Prop(data, "issue_id")
    ensures a.Notify? && Nullish(Prop(data, "issue_id")) && !Nullish(Prop(data, "id")) ==> a.issueId == Prop(data, "id")
    ensures a.Notify? && Nullish(Prop(data, "issue_id")) && Nullish(Prop(data, "id")) ==> a.issueId == Prop(data, "issueId")
  {
    var vs := [Prop(data, "issue_id"), Prop(data, "id"), Prop(data, "issueId"), Prop(data, "issue_id")];
    assert vs[1..] == [vs[1], vs[2], vs[3]];
    assert vs[1..][1..] == [vs[2], vs[3]];
    assert vs[1..][1..][1..] == [vs[3]];
    var id := CoalesceAll(vs);
    if !Truthy(id) then InvalidId else Notify(id)
  }

  /** The notify request is sent exactly when the first present id key holds
      a truthy id; in particular a row with none of the keys sends nothing. */
  lemma ContactUserGuard(data: Value)
    ensures ContactUser(data).Notify? <==>
      (!Nullish(Prop(data, "issue_id")) && Truthy(Prop(data, "issue_id")))
      || (Nullish(Prop(data, "issue_id")) && !Nullish(Prop(data, "id")) && Truthy(Prop(data, "id")))
      || (Nullish(Prop(data, "issue_id")) && Nullish(Prop(data, "id")) && Truthy(Prop(data, "issueId")))
    ensures ContactUser(data).Notify? && !Nullish(Prop(data, "issue_id")) ==>
      ContactUser(data).issueId == Prop(data, "issue_id")
    ensures ContactUser(data).Notify? && Nullish(Prop(data, "issue_id")) && !Nullish(Prop(data, "id")) ==>
      ContactUser(data).issueId == Prop(data, "id")
    ensures ContactUser(data).Notify? && Nullish(Prop(data, "issue_id")) && Nullish(Prop(data, "id")) ==>
      ContactUser(data).issueId == Prop(data, "issueId")
  {
    var vs := [Prop(data, "issue_id"), Prop(data, "id"), Prop(data, "issueId"), Prop(data, "issue_id")];
    assert vs[1..] == [vs[1], vs[2], vs[3]];
    assert vs[1..][1..] == [vs[2], vs[3]];
    assert vs[1..][1..][1..] == [vs[3]];
  }
}

=== FILE: overdue_mail.dfy ===
/** The backend's overdue notice for one book issue: the controller decides
    whether the issue is overdue, looks up the member and the book, composes
    the e-mail, hands it to the mail emitter and answers the request. */
module OverdueMail {
  import opened Options
  import opened Text
  import opened Values
  import opened Elapsed

  /** What a service lookup yields: the record, nothing, or a thrown error. */
  datatype Lookup = Found(row: Row) | Missing | Threw(message: string)

  /** `res.sendResponse(data, message, true, status)` or `res.sendError(message, status)`. */
  datatype Reply =
    | Success(status: int, message: string, data: Value)
    | Failure(status: int, message: string)

  /** The fields the notice text is built from. */
  datatype Notice = Notice(
    bookTitle: string, issuedDate: string, returnDate: string, period: string,
    memberName: string, email: string, phone: string)

  /** The `sendEmail` event: recipient, subject and the fields of the
      notice; its `text` is the body built from them. */
  datatype Email = Email(to: Value, subject: string, notice: Notice) {
    function Text(): string {
      Body(notice)
    }
  }

  /** The reply, the e-mail event the emitter accepted (if it did), and the
      lines written to the log. */
  datatype Outcome = Outcome(reply: Reply, emitted: Option<Email>, log: seq<string>)

  /** `bookIssue.return_date ? new Date(bookIssue.return_date) : null` as a
      time value: None both for a missing date and for an Invalid Date, since
      neither compares as earlier than today. */
  function ReturnTime(issue: Row, parse: string -> Option<int>): Option<int> {
    var v := Get(issue, "return_date");
    if Truthy(v) then NewDate(v, parse) else None
  }

  predicate IsOverdue(issue: Row, now: int, parse: string -> Option<int>) {
    var t := ReturnTime(issue, parse);
    t.Some? && t.value < now
  }

  /** `${diffDays} days, ${diffHours} hr`. */
  function PeriodText(sp: Span): string {
    IntToString(sp.days) + " days, " + IntToString(sp.hours) + " hr"
  }

  /** Reads a period text back into days and hours. */
  function ParsePeriod(s: string): Option<Span> {
    match ReadNat(s)
    case None => None
    case Some((d, r)) =>
      if |r| >= 7 && r[..7] == " days, " then
        match ReadNat(r[7..])
        case None => None
        case Some((h, r2)) => if r2 == " hr" then Some(Span(d, h)) else None
      else None
  }

  /** The period text loses nothing: it reads back as the span it prints. */
  lemma {:induction false} ParsePeriodText(sp: Span)
    requires sp.days >= 0 && sp.hours >= 0
    ensures ParsePeriod(PeriodText(sp)) == Some(sp)
  {
    var d, h := NatToString(sp.days), NatToString(sp.hours);
    var tail := " days, " + h + " hr";
    assert PeriodText(sp) == d + tail;
    ReadNatOfNatToString(sp.days, tail);
    assert tail[..7] == " days, " && tail[7..] == h + " hr";
    ReadNatOfNatToString(sp.hours, " hr");
  }

  /** `toLocaleDateString()` of a time value, "Invalid Date" for an Invalid
      Date; the host's locale formatting is the parameter `locale`. */
  function LocaleDate(t: Option<int>, locale: int -> string): string {
    match t
    case Some(ms) => locale(ms)
    case None => "Invalid Date"
  }

  /** The lines of the overdue e-mail's text, as the template writes them. */
  function BodyLines(n: Notice): seq<string> {
    ["Dear member,", "", "This is a reminder that the following book you borrowed is overdue.", "",
     "Book Title: " + n.bookTitle, "Issued Date: " + n.issuedDate, "Return Date: " + n.returnDate,
     "Overdue Period: " + n.period, "",
     "Member Name: " + n.memberName, "Email: " + n.email, "Phone: " + n.phone,
     "        ", "Please return the book as soon as possible to avoid further penalties.", "", "",
     "        ", "Library Lounge Team"]
  }

  /** Lines joined by line breaks. */
  function JoinLines(ls: seq<string>): string {
    if |ls| == 0 then "" else if |ls| == 1 then ls[0] else ls[0] + "\n" + JoinLines(ls[1..])
  }

  /** The text of the overdue e-mail: its lines joined by line breaks. */
  function Body(n: Notice): string {
    JoinLines(BodyLines(n))
  }

  /** Every line occurs in the joined text. */
  lemma {:induction false} JoinLinesHasLine(ls: seq<string>, k: nat)
    requires k < |ls|
    ensures exists pre, post :: JoinLines(ls) == pre + ls[k] + post
    decreases |ls|
  {
    if |ls| == 1 {
      assert JoinLines(ls) == "" + ls[0] + "";
    } else if k == 0 {
      assert JoinLines(ls) == "" + ls[0] + ("\n" + JoinLines(ls[1..]));
    } else {
      JoinLinesHasLine(ls[1..], k - 1);
      var pre, post :| JoinLines(ls[1..]) == pre + ls[1..][k - 1] + post;
      assert JoinLines(ls) == (ls[0] + "\n" + pre) + ls[k] + post;
    }
  }

  /** The e-mail's text names the book and reports the overdue period and
      the member's contact details. */
  lemma BodyReportsNotice(n: Notice)
    ensures exists pre, post :: Body(n) == pre + ("Book Title: " + n.bookTitle) + post
    ensures exists pre, post :: Body(n) == pre + ("Overdue Period: " + n.period) + post
    ensures exists pre, post :: Body(n) == pre + ("Email: " + n.email) + post
  {
    var ls := BodyLines(n);
    JoinLinesHasLine(ls, 4);
    JoinLinesHasLine(ls, 7);
    JoinLinesHasLine(ls, 10);
  }

  /** The notice fields for an overdue issue returned at `returned`: the
      book's title (or "N/A"), the issue date (or "N/A"), the return date,
      the period as the days and hours since the return date, and the
      member's name, address and phone. */
  function OverdueNotice(issue: Row, returned: int, now: int, member: Row, book: Option<Row>,
                         parse: string -> Option<int>, locale: int -> string): (n: Notice)
    requires returned < now
    ensures n.bookTitle == (if book.Some? then ToStr(Get(book.value, "title")) else "N/A")
    ensures ParsePeriod(n.period) == Some(Split(now - returned))
    ensures n.memberName == ToStr(Get(member, "name")) && n.email == ToStr(Get(member, "email"))
            && n.phone == ToStr(Get(member, "phone"))
  {
    ParsePeriodText(Split(now - returned));
    var issued := Get(issue, "issue_date");
    Notice(
      match book case Some(b) => ToStr(Get(b, "title")) case None => "N/A",
      if Truthy(issued) then LocaleDate(NewDate(issued, parse), locale) else "N/A",
      locale(returned),
      PeriodText(Split(now - returned)),
      ToStr(Get(member, "name")), ToStr(Get(member, "email")), ToStr(Get(member, "phone")))
  }

  /** The e-mail for an overdue issue returned at `returned`: addressed to
      the member, its subject naming the book (or "Your borrowed book"). */
  function Compose(issue: Row, returned: int, now: int, member: Row, book: Option<Row>,
                   parse: string -> Option<int>, locale: int -> string): (e: Email)
    requires returned < now
    ensures e.to == Get(member, "email")
    ensures e.subject == "Overdue book notice: " + (if book.Some? then ToStr(Get(book.value, "title")) else "Your borrowed book")
    ensures e.notice == OverdueNotice(issue, returned, now, member, book, parse, locale)
  {
    var title := match book case Some(b) => ToStr(Get(b, "title")) case None => "Your borrowed book";
    var notice := OverdueNotice(issue, returned, now, member, book, parse, locale);
    Email(Get(member, "email"), "Overdue book notice: " + title, notice)
  }

  /** The controller. `issue`, `user` and `book` are what the three service
      lookups yield (the member and the book are fetched only once the issue
      is known to be overdue); `emitFails` says whether handing the event to
      the emitter throws. */
  function NotifyOverdueMail(issueId: string, issue: Lookup, now: int, user: Lookup, book: Lookup,
                             emitFails: bool, parse: string -> Option<int>,
                             locale: int -> string): (o: Outcome)
    ensures o.reply.Success? <==>
      issue.Found? && IsOverdue(issue.row, now, parse) && user.Found? && !book.Threw?
    ensures o.reply.Success? ==>
      o.reply == Success(200, "Overdue email queued", Obj(map["to" := Get(user.row, "email")]))
    ensures o.reply.Failure? ==> o.reply.status == 400 || o.reply.status == 404
    ensures o.emitted.Some? ==> o.reply.Success? && !emitFails
    ensures o.emitted.Some? ==> o.emitted.value.to == Get(user.row, "email")
    ensures issue.Found? && IsOverdue(issue.row, now, parse) && user.Found? && !book.Threw? ==>
      o == Queue(issueId, issue.row, ReturnTime(issue.row, parse).value, now, user.row,
                 if book.Found? then Some(book.row) else None, emitFails, parse, locale)
    ensures issue.Missing? ==> o.reply == Failure(404, "Book issue not found")
    ensures issue.Found? && !IsOverdue(issue.row, now, parse) ==>
      o.reply == Failure(400, "Book is not overdue") && o.emitted.None?
    ensures issue.Threw? ==> o.reply == Failure(400, issue.message) && o.emitted.None?
    ensures issue.Found? && IsOverdue(issue.row, now, parse) && user.Threw? ==>
      o.reply == Failure(400, user.message) && o.emitted.None?
    ensures issue.Found? && IsOverdue(issue.row, now, parse) && !user.Threw? && book.Threw? ==>
      o.reply == Failure(400, book.message) && o.emitted.None?
    ensures issue.Found? && IsOverdue(issue.row, now, parse) && user.Missing? && !book.Threw? ==>
      o.reply == Failure(404, "User not found") && o.emitted.None?
    ensures o.reply.Failure? ==> o.log == []
  {
    match issue
    case Threw(m) => Outcome(Failure(400, m), None, [])
    case Missing => Outcome(Failure(404, "Book issue not found"), None, [])
    case Found(row) =>
      var t := ReturnTime(row, parse);
      if !(t.Some? && t.value < now) then Outcome(Failure(400, "Book is not overdue"), None, [])
      else if user.Threw? then Outcome(Failure(400, user.message), None, [])
      else if book.Threw? then Outcome(Failure(400, book.message), None, [])
      else if user.Missing? then Outcome(Failure(404, "User not found"), None, [])
      else
        Queue(issueId, row, t.value, now, user.row, if book.Found? then Some(book.row) else None, emitFails, parse, locale)
  }

  /** The successful path: the e-mail is composed and handed to the
      emitter, the send is logged, and the reply reports the queued e-mail;
      a throwing emitter only adds a log line. */
  function Queue(issueId: string, row: Row, returned: int, now: int, member: Row, book: Option<Row>,
                 emitFails: bool, parse: string -> Option<int>, locale: int -> string): (o: Outcome)
    requires returned < now
    ensures o.reply == Success(200, "Overdue email queued", Obj(map["to" := Get(member, "email")]))
    ensures o.emitted.Some? <==> !emitFails
    ensures o.emitted.Some? ==> o.emitted.value == Compose(row, returned, now, member, book, parse, locale)
    ensures |o.log| == (if emitFails then 2 else 1)
    ensures emitFails ==> o.log[1] == "Failed to emit overdue sendEmail event"
  {
    var email := Compose(row, returned, now, member, book, parse, locale);
    var sending := "Sending overdue email to: " + ToStr(Get(member, "email")) + " for issue id: " + issueId;
    var log := if emitFails then [sending, "Failed to emit overdue sendEmail event"] else [sending];
    Outcome(Success(200, "Overdue email queued", Obj(map["to" := Get(member, "email")])),
            if emitFails then None else Some(email), log)
  }

  /** A successful notice hands the e-mail to the emitter unless the
      emitter throws: addressed to the member, its subject naming the book
      (or "Your borrowed book" when the book lookup found nothing). */
  lemma SuccessfulNoticeIsSent(issueId: string, issue: Lookup, now: int, user: Lookup, book: Lookup,
                               emitFails: bool, parse: string -> Option<int>, locale: int -> string)
    ensures var o := NotifyOverdueMail(issueId, issue, now, user, book, emitFails, parse, locale);
            o.reply.Success? && !emitFails ==>
              && o.emitted.Some?
              && o.emitted.value.to == Get(user.row, "email")
              && o.emitted.value.subject ==
                   "Overdue book notice: " + (if book.Found? then ToStr(Get(book.row, "title")) else "Your borrowed book")
  {
    var o := NotifyOverdueMail(issueId, issue, now, user, book, emitFails, parse, locale);
    if o.reply.Success? && !emitFails {
      var bk := if book.Found? then Some(book.row) else None;
      var q := Queue(issueId, issue.row, ReturnTime(issue.row, parse).value, now, user.row, bk, emitFails, parse, locale);
      assert o == q;
      assert q.emitted.value == Compose(issue.row, ReturnTime(issue.row, parse).value, now, user.row, bk, parse, locale);
    }
  }

  /** Only the return date decides whether an issue is overdue: changing any
      other field of the issue changes nothing. */
  lemma OverdueReadsOnlyReturnDate(issue: Row, k: string, v: Value, now: int, parse: string -> Option<int>)
    requires k != "return_date"
    ensures IsOverdue(issue[k := v], now, parse) == IsOverdue(issue, now, parse)
  {
    assert Get(issue[k := v], "return_date") == Get(issue, "return_date");
  }

  /** An issue without a return date is never overdue. */
  lemma NoReturnDateNotOverdue(issue: Row, now: int, parse: string -> Option<int>)
    requires "return_date" !in issue || !Truthy(issue["return_date"])
    ensures !IsOverdue(issue, now, parse)
  {
  }

  /** Once overdue, an issue stays overdue as time passes. */
  lemma OverdueStaysOverdue(issue: Row, now: int, later: int, parse: string -> Option<int>)
    requires IsOverdue(issue, now, parse) && now <= later
    ensures IsOverdue(issue, later, parse)
  {
  }

  /** The period in a queued notice names exactly the whole days and hours
      between the return date and now. */
  lemma EmittedPeriodIsElapsed(issueId: string, issue: Lookup, now: int, user: Lookup, book: Lookup,
                               emitFails: bool, parse: string -> Option<int>, locale: int -> string)
    requires NotifyOverdueMail(issueId, issue, now, user, book, emitFails, parse, locale).emitted.Some?
    ensures issue.Found? && ReturnTime(issue.row, parse).Some?
    ensures var e := NotifyOverdueMail(issueId, issue, now, user, book, emitFails, parse, locale).emitted.value;
            var sp := ParsePeriod(e.notice.period);
            sp.Some? && 0 <= sp.value.hours < 24
            && Covers(sp.value, now - ReturnTime(issue.row, parse).value)
  {
    var row := issue.row;
    var t := ReturnTime(row, parse).value;
    var n := OverdueNotice(row, t, now, user.row, if book.Found? then Some(book.row) else None, parse, locale);
    assert NotifyOverdueMail(issueId, issue, now, user, book, emitFails, parse, locale).emitted.value.notice == n;
  }

  /** A failing emitter changes neither the reply nor what precedes it: the
      failure is only logged. */
  lemma EmitFailureSwallowed(issueId: string, issue: Lookup, now: int, user: Lookup, book: Lookup,
                             parse: string -> Option<int>, locale: int -> string)
    ensures var a := NotifyOverdueMail(issueId, issue, now, user, book, false, parse, locale);
            var b := NotifyOverdueMail(issueId, issue, now, user, book, true, parse, locale);
            a.reply == b.reply && b.emitted.None?
            && (a.reply.Success? ==> b.log == a.log + ["Failed to emit overdue sendEmail event"])
  {
  }
}

=== FILE: request_dialog.dfy ===
/** The book-request dialog: the member types a return date as year, month
    and day (or picks one from the calendar), and `confirm` validates it
    before sending the request with the date as `YYYY-MM-DD`. */
module RequestDialog {
  import opened Options
  import opened Text
  import opened Values
  import opened Calendar

  /** The dialog's inputs: the three typed parts, the calendar selection and
      the error line. */
  datatype Form = Form(year: string, month: string, day: string, picked: Option<Date>, error: string)

  /** `confirm` either stops with an error message or sends the request
      with the given return-date text. */
  datatype Outcome = Rejected(message: string) | Submit(returnDate: string)

  const AccessDenied: string := "Access Denied"
  const IncompleteDate: string := "Please enter full return date in YYYY-MM-DD format."
  const NotNumbers: string := "Date parts must be numbers."
  const OutOfRange: string := "Please enter a valid date."
  const NoSuchDate: string := "Please enter a valid calendar date."
  const PastDate: string := "Return date cannot be before today."
  const NoDate: string := "Please select a return date."

  /** `Number(part)` when it is an integer. */
  function PartValue(part: string): Option<int> {
    ParseInteger(part)
  }

  /** The three typed parts all read as integers. */
  predicate PartsNumeric(year: string, month: string, day: string) {
    PartValue(year).Some? && PartValue(month).Some? && PartValue(day).Some?
  }

  /** The date the typed parts name, read literally. */
  function TypedDate(year: string, month: string, day: string): Date
    requires PartsNumeric(year, month, day)
  {
    Date(PartValue(year).value, PartValue(month).value, PartValue(day).value)
  }

  /** Numeric parts within the admitted ranges: a four-character year, a
      month in 1..12 and a day in 1..31. */
  predicate PartsInRange(year: string, month: string, day: string)
    requires PartsNumeric(year, month, day)
  {
    |year| == 4 && 1 <= PartValue(month).value <= 12 && 1 <= PartValue(day).value <= 31
  }

  /** The typed-date path, for three non-empty parts: non-numeric parts and
      parts out of range are refused with their own messages, and what is
      sent is the typed date itself, an existing day not before today. */
  function ConfirmTyped(year: string, month: string, day: string, today: Date): (r: Outcome)
    requires year != "" && month != "" && day != ""
    ensures r == Rejected(NotNumbers) <==> !PartsNumeric(year, month, day)
    ensures PartsNumeric(year, month, day) && !PartsInRange(year, month, day) ==> r == Rejected(OutOfRange)
    ensures r.Submit? ==>
              && PartsNumeric(year, month, day) && PartsInRange(year, month, day)
              && Valid(TypedDate(year, month, day)) && !Before(TypedDate(year, month, day), today)
              && r.returnDate == FormatIso(TypedDate(year, month, day))
    ensures r.Submit? ==> exists d :: Valid(d) && !Before(d, today) && r.returnDate == FormatIso(d)
  {
    var y, m, d := PartValue(year), PartValue(month), PartValue(day);
    if y.None? || m.None? || d.None? then Rejected(NotNumbers)
    else if |year| != 4 || m.value < 1 || m.value > 12 || d.value < 1 || d.value > 31 then Rejected(OutOfRange)
    else
      var composed := Compose(y.value, m.value, d.value);
      if composed != Date(y.value, m.value, d.value) then Rejected(NoSuchDate)
      else if Before(composed, today) then Rejected(PastDate)
      else Submit(FormatIso(composed))
  }

  /** The calendar path: no pick is refused, a pick before today is
      refused, and any other pick is sent. */
  function ConfirmPicked(picked: Option<Date>, today: Date): (r: Outcome)
    ensures picked.None? <==> r == Rejected(NoDate)
    ensures picked.Some? && Before(picked.value, today) <==> r == Rejected(PastDate)
    ensures r.Submit? <==> picked.Some? && !Before(picked.value, today)
    ensures r.Submit? ==> r.returnDate == FormatIso(picked.value)
  {
    match picked
    case None => Rejected(NoDate)
    case Some(p) => if Before(p, today) then Rejected(PastDate) else Submit(FormatIso(p))
  }

  /** `confirm`, with `role` the stored session role and `today` the local date. */
  function Confirm(role: Option<string>, f: Form, today: Date): (r: Outcome)
    ensures Lower(role.GetOr("")) != "member" ==> r == Rejected(AccessDenied)
    ensures r.Submit? && (f.year != "" || f.month != "" || f.day != "") ==>
              exists d :: Valid(d) && !Before(d, today) && r.returnDate == FormatIso(d)
    ensures r.Submit? && f.year == "" && f.month == "" && f.day == "" ==>
              f.picked.Some? && !Before(f.picked.value, today) && r.returnDate == FormatIso(f.picked.value)
    ensures r.Submit? && (f.year != "" || f.month != "" || f.day != "") ==>
              && PartsNumeric(f.year, f.month, f.day) && PartsInRange(f.year, f.month, f.day)
              && r.returnDate == FormatIso(TypedDate(f.year, f.month, f.day))
    ensures Lower(role.GetOr("")) == "member" && f.year == "" && f.month == "" && f.day == "" && f.picked.None? ==>
              r == Rejected(NoDate)
  {
    if Lower(role.GetOr("")) != "member" then Rejected(AccessDenied)
    else if f.year != "" || f.month != "" || f.day != "" then
      if f.year == "" || f.month == "" || f.day == "" then Rejected(IncompleteDate)
      else ConfirmTyped(f.year, f.month, f.day, today)
    else ConfirmPicked(f.picked, today)
  }

  /** `onCalendarChange`: a valid picked date fills the three parts from it
      and clears the error; anything else leaves the form as it was. */
  function OnCalendarChange(f: Form, e: Option<Date>): (g: Form)
    ensures e.None? ==> g == f
    ensures e.Some? ==> g.picked == e && g.error == ""
  {
    match e
    case None => f
    case Some(d) => Form(IntToString(d.year), Pad2(IntToString(d.month)), Pad2(IntToString(d.day)), Some(d), "")
  }

  /** A request carries a date only when the stored role is `member` in any
      letter case, and that date exists (a calendar pick always does) and
      is not before today. */
  lemma SubmittedDateIsValid(role: Option<string>, f: Form, today: Date)
    requires f.picked.None? || Valid(f.picked.value)
    requires Confirm(role, f, today).Submit?
    ensures Lower(role.GetOr("")) == "member"
    ensures exists d :: Valid(d) && !Before(d, today) && Confirm(role, f, today).returnDate == FormatIso(d)
  {
    if f.year == "" && f.month == "" && f.day == "" {
      var p := f.picked.value;
      assert Valid(p) && !Before(p, today) && Confirm(role, f, today).returnDate == FormatIso(p);
    }
  }

  /** Typing some but not all of the parts is refused before anything is parsed. */
  lemma PartialDateRefused(role: Option<string>, f: Form, today: Date)
    requires Lower(role.GetOr("")) == "member"
    requires (f.year != "" || f.month != "" || f.day != "") && (f.year == "" || f.month == "" || f.day == "")
    ensures Confirm(role, f, today) == Rejected(IncompleteDate)
  {
  }

  /** The typed parts are refused, in order, when one of them is not an
      integer and when they fall outside the admitted ranges; with nothing
      typed and nothing picked there is no date to send. */
  lemma TypedRejections(role: Option<string>, f: Form, today: Date)
    requires Lower(role.GetOr("")) == "member"
    ensures f.year != "" && f.month != "" && f.day != "" && !PartsNumeric(f.year, f.month, f.day) ==>
              Confirm(role, f, today) == Rejected(NotNumbers)
    ensures (f.year != "" && f.month != "" && f.day != "" && PartsNumeric(f.year, f.month, f.day)
             && !PartsInRange(f.year, f.month, f.day)) ==> Confirm(role, f, today) == Rejected(OutOfRange)
    ensures f.year == "" && f.month == "" && f.day == "" && f.picked.None? ==> Confirm(role, f, today) == Rejected(NoDate)
  {
  }

  /** Today itself is an acceptable return date on the calendar path. */
  lemma TodayAccepted(role: Option<string>, today: Date)
    requires Lower(role.GetOr("")) == "member"
    ensures Confirm(role, Form("", "", "", Some(today), ""), today) == Submit(FormatIso(today))
  {
  }

  /** Typed parts that parse to `y`, `m`, `d` within the admitted ranges are
      sent exactly when `y-m-d` is a real date, `y` is not a two-digit year
      (the `Date` constructor would move it to the 1900s) and it is not
      before today. */
  lemma {:induction false} TypedDateDecision(year: string, month: string, day: string, today: Date)
    requires year != "" && month != "" && day != "" && |year| == 4
    requires PartValue(year).Some? && PartValue(month).Some? && PartValue(day).Some?
    requires 1 <= PartValue(month).value <= 12 && 1 <= PartValue(day).value <= 31
    ensures var dt := Date(PartValue(year).value, PartValue(month).value, PartValue(day).value);
            ConfirmTyped(year, month, day, today) ==
              if !(Valid(dt) && !(0 <= dt.year <= 99)) then Rejected(NoSuchDate)
              else if Before(dt, today) then Rejected(PastDate)
              else Submit(FormatIso(dt))
  {
    var y, m, d := PartValue(year).value, PartValue(month).value, PartValue(day).value;
    ComposeRoundTrip(y, m, d);
  }

  /** 31 April and 29 February of a common year do not exist; 29 February
      of a leap year does. */
  lemma NonexistentDates()
    ensures !Valid(Date(2030, 4, 31)) && Compose(2030, 4, 31) == Date(2030, 5, 1)
    ensures !Valid(Date(2027, 2, 29)) && Compose(2027, 2, 29) == Date(2027, 3, 1)
    ensures Valid(Date(2028, 2, 29))
  {
  }

  /** The parts a calendar pick fills in read back as the picked date. */
  lemma {:induction false} PickedPartsParse(d: Date)
    requires Valid(d) && 1000 <= d.year <= 9999
    ensures var g := OnCalendarChange(Form("", "", "", None, ""), Some(d));
            |g.year| == 4 && g.month != "" && g.day != ""
            && PartValue(g.year) == Some(d.year) && PartValue(g.month) == Some(d.month)
            && PartValue(g.day) == Some(d.day)
  {
    PiecesOfDate(d);
    ParseIntegerOfDigits(IntToString(d.year));
    ParseIntegerOfDigits(Pad2(IntToString(d.month)));
    ParseIntegerOfDigits(Pad2(IntToString(d.day)));
  }

  /** Picking a date and confirming sends that date, unless it is before
      today: the filled-in parts take the typed path and reproduce it. */
  lemma {:induction false} PickThenConfirm(role: Option<string>, f: Form, d: Date, today: Date)
    requires Lower(role.GetOr("")) == "member"
    requires Valid(d) && 1000 <= d.year <= 9999
    ensures Confirm(role, OnCalendarChange(f, Some(d)), today) ==
              if Before(d, today) then Rejected(PastDate) else Submit(FormatIso(d))
  {
    var g := OnCalendarChange(f, Some(d));
    assert g == OnCalendarChange(Form("", "", "", None, ""), Some(d));
    PickedPartsParse(d);
    TypedDateDecision(g.year, g.month, g.day, today);
  }

  /** The message shown when the request itself fails: the error's
      `message`, else "Request failed". */
  function RequestFailedMessage(err: Value): (m: Value)
    ensures Truthy(m)
    ensures Truthy(Prop(err, "message")) ==> m == Prop(err, "message")
    ensures !Truthy(Prop(err, "message")) ==> m == Str("Request failed")
  {
    Or(Prop(err, "message"), Str("Request failed"))
  }
}

=== FILE: routes.dfy ===
/** The book-issue router: ten endpoints, each guarded by the JWT check, a
    role check and request validators, tried in registration order. */
module IssueRoutes {
  import opened Options

  datatype Verb = Get | Post

  /** One path segment of a route pattern: a literal or a `:name` parameter. */
  datatype Segment = Lit(text: string) | Param(name: string)

  /** The validators of the issue routes. */
  datatype Check = RequestBookBody | IssueIdParam | ApproveBody

  datatype Handler =
    | RequestBook | ReturnBook | ViewDailyIssued | ViewAllIssued | IssueBook
    | IssuesByUser | CountIssued | RequestReturn | ReturningList | NotifyOverdue

  datatype Route = Route(verb: Verb, pattern: seq<Segment>, roles: seq<string>, checks: seq<Check>, handler: Handler)

  /** The routes in registration order. */
  const Table: seq<Route> := [
    Route(Post, [Lit("request")], ["member"], [RequestBookBody], RequestBook),
    Route(Post, [Lit("return"), Param("id")], ["member", "librarian"], [IssueIdParam], ReturnBook),
    Route(Get, [Lit("daily")], ["librarian", "superAdmin"], [], ViewDailyIssued),
    Route(Get, [], ["librarian"], [], ViewAllIssued),
    Route(Post, [Param("id")], ["librarian"], [IssueIdParam, ApproveBody], IssueBook),
    Route(Get, [Lit("user")], ["member"], [], IssuesByUser),
    Route(Get, [Lit("count")], ["librarian", "superAdmin"], [], CountIssued),
    Route(Post, [Lit("request-return"), Param("id")], ["member"], [IssueIdParam], RequestReturn),
    Route(Get, [Lit("returning-request")], ["member", "librarian", "superAdmin"], [], ReturningList),
    Route(Post, [Lit("notify-overdue"), Param("id")], ["librarian", "superAdmin"], [IssueIdParam], NotifyOverdue)
  ]

  /** A request path, split into its segments, matches a pattern: literals
      equal, parameters non-empty. */
  predicate Matches(pattern: seq<Segment>, path: seq<string>) {
    |pattern| == |path|
    && forall i :: 0 <= i < |path| ==>
         match pattern[i]
         case Lit(t) => path[i] == t
         case Param(_) => path[i] != ""
  }

  /** The index of the first registered route that matches. */
  function FirstMatch(verb: Verb, path: seq<string>): (r: Option<nat>)
    ensures r.Some? ==> r.value < |Table| && Table[r.value].verb == verb && Matches(Table[r.value].pattern, path)
    ensures r.Some? ==> forall j :: 0 <= j < r.value ==> !(Table[j].verb == verb && Matches(Table[j].pattern, path))
    ensures r.None? ==> forall j :: 0 <= j < |Table| ==> !(Table[j].verb == verb && Matches(Table[j].pattern, path))
  {
    FirstMatchFrom(verb, path, 0)
  }

  function FirstMatchFrom(verb: Verb, path: seq<string>, i: nat): (r: Option<nat>)
    requires i <= |Table|
    ensures r.Some? ==> i <= r.value < |Table| && Table[r.value].verb == verb && Matches(Table[r.value].pattern, path)
    ensures r.Some? ==> forall j :: i <= j < r.value ==> !(Table[j].verb == verb && Matches(Table[j].pattern, path))
    ensures r.None? ==> forall j :: i <= j < |Table| ==> !(Table[j].verb == verb && Matches(Table[j].pattern, path))
    decreases |Table| - i
  {
    if i == |Table| then None
    else if Table[i].verb == verb && Matches(Table[i].pattern, path) then Some(i)
    else FirstMatchFrom(verb, path, i + 1)
  }

  /** What the router answers. `role` is the role carried by a valid token
      (None when the JWT check rejects the request) and `passes` says which
      validators accept the request. */
  datatype Response =
    | NoRoute
    | Unauthenticated
    | Forbidden
    | Invalid(check: Check)
    | Handled(handler: Handler)

  /** The first check of `checks` that rejects the request. */
  function FirstFailing(checks: seq<Check>, passes: Check -> bool): (r: Option<Check>)
    ensures r.None? <==> forall i :: 0 <= i < |checks| ==> passes(checks[i])
    ensures r.Some? ==> r.value in checks && !passes(r.value)
  {
    if |checks| == 0 then None
    else if !passes(checks[0]) then Some(checks[0])
    else FirstFailing(checks[1..], passes)
  }

  /** Dispatch: the first matching route runs its JWT check, then its role
      check, then its validators, then its handler. */
  function Dispatch(verb: Verb, path: seq<string>, role: Option<string>, passes: Check -> bool): (r: Response)
    ensures r.Handled? ==> role.Some? && exists i :: 0 <= i < |Table| && Table[i].handler == r.handler
                                            && role.value in Table[i].roles
    ensures FirstMatch(verb, path).Some? && role.None? ==> r == Unauthenticated
    ensures FirstMatch(verb, path).None? <==> r == NoRoute
  {
    match FirstMatch(verb, path)
    case None => NoRoute
    case Some(i) =>
      var route := Table[i];
      if role.None? then Unauthenticated
      else if role.value !in route.roles then Forbidden
      else
        match FirstFailing(route.checks, passes)
        case Some(c) => Invalid(c)
        case None => Handled(route.handler)
  }

  /** The permission table of the issue endpoints, stated per handler. */
  predicate Permitted(h: Handler, role: string) {
    match h
    case RequestBook => role == "member"
    case ReturnBook => role == "member" || role == "librarian"
    case ViewDailyIssued => role == "librarian" || role == "superAdmin"
    case ViewAllIssued => role == "librarian"
    case IssueBook => role == "librarian"
    case IssuesByUser => role == "member"
    case CountIssued => role == "librarian" || role == "superAdmin"
    case RequestReturn => role == "member"
    case ReturningList => role == "member" || role == "librarian" || role == "superAdmin"
    case NotifyOverdue => role == "librarian" || role == "superAdmin"
  }

  /** A handler is reached only by a role the permission table admits, and
      a matched route with an admitted role and passing validators always
      reaches its handler. */
  lemma DispatchHonoursPermissions(verb: Verb, path: seq<string>, role: string, passes: Check -> bool)
    ensures Dispatch(verb, path, Some(role), passes).Handled? ==>
              Permitted(Dispatch(verb, path, Some(role), passes).handler, role)
    ensures FirstMatch(verb, path).Some? ==>
              var route := Table[FirstMatch(verb, path).value];
              (Dispatch(verb, path, Some(role), passes) == Handled(route.handler) <==>
                 Permitted(route.handler, role) && forall c :: c in route.checks ==> passes(c))
  {
    match FirstMatch(verb, path)
    case None =>
    case Some(i) =>
      var route := Table[i];
      PermittedIsTable(i, role);
      if forall c :: c in route.checks ==> passes(c) {
        assert forall k :: 0 <= k < |route.checks| ==> passes(route.checks[k]);
      }
      if Dispatch(verb, path, Some(role), passes).Handled? {
        assert role in route.roles;
      }
  }

  /** The per-handler statement of the permissions is the table's. */
  lemma PermittedIsTable(i: nat, role: string)
    requires i < |Table|
    ensures Permitted(Table[i].handler, role) <==> role in Table[i].roles
  {
    if i == 0 { } else if i == 1 { } else if i == 2 { } else if i == 3 { } else if i == 4 { }
    else if i == 5 { } else if i == 6 { } else if i == 7 { } else if i == 8 { } else { }
  }

  /** `POST /request` is registered before `POST /:id`, so a book request
      reaches `requestBook` and never `issueBook`. */
  lemma RequestNotShadowed(role: Option<string>, passes: Check -> bool)
    ensures FirstMatch(Post, ["request"]) == Some(0)
    ensures Dispatch(Post, ["request"], role, passes).Handled? ==>
              Dispatch(Post, ["request"], role, passes).handler == RequestBook
  {
    assert Matches(Table[0].pattern, ["request"]);
  }

  /** Approving or rejecting requires a librarian, a valid issue id and a
      valid decision body. */
  lemma IssueBookGuards(verb: Verb, path: seq<string>, role: Option<string>, passes: Check -> bool)
    requires Dispatch(verb, path, role, passes) == Handled(IssueBook)
    ensures role == Some("librarian")
    ensures passes(IssueIdParam) && passes(ApproveBody)
    ensures verb == Post && |path| == 1 && path[0] != "request"
  {
    var i := FirstMatch(verb, path).value;
    assert Table[i].handler == IssueBook;
    assert i == 4;
    assert Table[4].checks[0] == IssueIdParam && Table[4].checks[1] == ApproveBody;
    assert !(Table[0].verb == verb && Matches(Table[0].pattern, path));
  }

  /** Every route is reachable: some request selects it. */
  lemma EveryRouteReachable(i: nat)
    requires i < |Table|
    ensures exists path :: FirstMatch(Table[i].verb, path) == Some(i)
  {
    var path := SamplePath(i);
    assert Matches(Table[i].pattern, path);
    forall j | 0 <= j < i
      ensures !(Table[j].verb == Table[i].verb && Matches(Table[j].pattern, path))
    {
      if Table[j].verb == Table[i].verb && |Table[j].pattern| == |path| {
        assert Table[j].pattern[0].Lit? && Table[j].pattern[0].text != path[0];
      }
    }
    FirstMatchIsFirst(Table[i].verb, path, i);
  }

  /** A request path that selects route `i`: its literals, with "1" for the parameter. */
  function SamplePath(i: nat): seq<string>
    requires i < |Table|
  {
    var pattern := Table[i].pattern;
    seq(|pattern|, k requires 0 <= k < |pattern| => match pattern[k] case Lit(t) => t case Param(_) => "1")
  }

  /** The first matching route is the one `FirstMatch` finds. */
  lemma FirstMatchIsFirst(verb: Verb, path: seq<string>, i: nat)
    requires i < |Table| && Table[i].verb == verb && Matches(Table[i].pattern, path)
    requires forall j :: 0 <= j < i ==> !(Table[j].verb == verb && Matches(Table[j].pattern, path))
    ensures FirstMatch(verb, path) == Some(i)
  {
  }
}

=== FILE: sequences.dfy ===
/** List operations shared by the dashboards: the stable newest-first sort
    that `Array.prototype.sort` performs with a `(a, b) => key(b) - key(a)`
    comparator, and the first-occurrence de-duplication of
    `Array.from(new Set(xs))`. */
module Sequences {

  /** Non-increasing by `key`. */
  predicate SortedDesc<T>(s: seq<T>, key: T -> int) {
    forall i, j :: 0 <= i < j < |s| ==> key(s[i]) >= key(s[j])
  }

  /** The elements of `s` whose key is `k`, in their order in `s`. */
  function WithKey<T>(s: seq<T>, key: T -> int, k: int): (r: seq<T>)
    ensures |r| <= |s|
    ensures forall i :: 0 <= i < |r| ==> key(r[i]) == k
  {
    if |s| == 0 then []
    else (if key(s[0]) == k then [s[0]] else []) + WithKey(s[1..], key, k)
  }

  /** Places `x` before the first element whose key is not larger than its
      own, so that `x` precedes the elements it ties with. */
  function Insert<T>(x: T, s: seq<T>, key: T -> int): (r: seq<T>)
    ensures multiset(r) == multiset(s) + multiset{x}
    ensures |r| == |s| + 1
  {
    if |s| == 0 then [x]
    else if key(s[0]) <= key(x) then [x] + s
    else
      assert s == [s[0]] + s[1..];
      [s[0]] + Insert(x, s[1..], key)
  }

  /** The stable sort, newest (largest key) first. */
  function SortDesc<T>(s: seq<T>, key: T -> int): (r: seq<T>)
    ensures multiset(r) == multiset(s)
    ensures |r| == |s|
  {
    if |s| == 0 then []
    else
      assert s == [s[0]] + s[1..];
      Insert(s[0], SortDesc(s[1..], key), key)
  }

  lemma {:induction false} InsertSorted<T>(x: T, s: seq<T>, key: T -> int)
    requires SortedDesc(s, key)
    ensures SortedDesc(Insert(x, s, key), key)
    decreases |s|
  {
    if |s| > 0 && key(s[0]) > key(x) {
      InsertSorted(x, s[1..], key);
      var r := Insert(x, s[1..], key);
      assert r[0] == x || r[0] == s[1..][0] by {
        if |s[1..]| > 0 && key(s[1..][0]) > key(x) {
          assert r[0] == s[1..][0];
        }
      }
      assert forall i :: 0 <= i < |r| ==> key(s[0]) >= key(r[i]) by {
        forall i | 0 <= i < |r|
          ensures key(s[0]) >= key(r[i])
        {
          assert r[i] in multiset(r);
          assert r[i] == x || r[i] in multiset(s[1..]);
          if r[i] != x {
            var j :| 0 <= j < |s[1..]| && s[1..][j] == r[i];
            assert s[j + 1] == r[i];
          }
        }
      }
      assert ([s[0]] + r)[0] == s[0];
    }
  }

  /** The sort yields a newest-first ordering. */
  lemma {:induction false} SortDescSorted<T>(s: seq<T>, key: T -> int)
    ensures SortedDesc(SortDesc(s, key), key)
    decreases |s|
  {
    if |s| > 0 {
      SortDescSorted(s[1..], key);
      InsertSorted(s[0], SortDesc(s[1..], key), key);
    }
  }

  lemma {:induction false} WithKeyAppend<T>(a: seq<T>, b: seq<T>, key: T -> int, k: int)
    ensures WithKey(a + b, key, k) == WithKey(a, key, k) + WithKey(b, key, k)
    decreases |a|
  {
    if |a| > 0 {
      assert (a + b)[1..] == a[1..] + b;
      WithKeyAppend(a[1..], b, key, k);
    } else {
      assert a + b == b;
    }
  }

  lemma {:induction false} InsertWithKey<T>(x: T, s: seq<T>, key: T -> int, k: int)
    ensures WithKey(Insert(x, s, key), key, k) == WithKey([x] + s, key, k)
    decreases |s|
  {
    if |s| > 0 && key(s[0]) > key(x) {
      var r := Insert(x, s[1..], key);
      var y, t := s[0], s[1..];
      assert s == [y] + t;
      assert key(y) != key(x);
      calc {
        WithKey(Insert(x, s, key), key, k);
        WithKey([y] + r, key, k);
        { WithKeyAppend([y], r, key, k); }
        WithKey([y], key, k) + WithKey(r, key, k);
        { InsertWithKey(x, t, key, k); }
        WithKey([y], key, k) + WithKey([x] + t, key, k);
        { WithKeyAppend([x], t, key, k); }
        WithKey([y], key, k) + (WithKey([x], key, k) + WithKey(t, key, k));
        WithKey([x], key, k) + (WithKey([y], key, k) + WithKey(t, key, k));
        { WithKeyAppend([y], t, key, k); }
        WithKey([x], key, k) + WithKey(s, key, k);
        { WithKeyAppend([x], s, key, k); }
        WithKey([x] + s, key, k);
      }
    }
  }

  /** Stability: for every key, the elements carrying it keep their relative
      order. */
  lemma {:induction false} SortDescStable<T>(s: seq<T>, key: T -> int, k: int)
    ensures WithKey(SortDesc(s, key), key, k) == WithKey(s, key, k)
    decreases |s|
  {
    if |s| > 0 {
      var t := SortDesc(s[1..], key);
      SortDescStable(s[1..], key, k);
      InsertWithKey(s[0], t, key, k);
      WithKeyAppend([s[0]], t, key, k);
      WithKeyAppend([s[0]], s[1..], key, k);
      assert s == [s[0]] + s[1..];
    }
  }

  /** Sorting an already sorted list changes nothing. */
  lemma {:induction false} SortDescIdempotent<T>(s: seq<T>, key: T -> int)
    requires SortedDesc(s, key)
    ensures SortDesc(s, key) == s
    decreases |s|
  {
    if |s| > 0 {
      assert SortedDesc(s[1..], key);
      SortDescIdempotent(s[1..], key);
      assert s == [s[0]] + s[1..];
    }
  }

  function MapSeq<T, U>(f: T -> U, s: seq<T>): (r: seq<U>)
    ensures |r| == |s|
    ensures forall i :: 0 <= i < |s| ==> r[i] == f(s[i])
  {
    seq(|s|, i requires 0 <= i < |s| => f(s[i]))
  }

  lemma {:induction false} InsertMap<T>(f: T -> T, x: T, s: seq<T>, key: T -> int)
    requires forall y :: key(f(y)) == key(y)
    ensures Insert(f(x), MapSeq(f, s), key) == MapSeq(f, Insert(x, s, key))
    decreases |s|
  {
    if |s| > 0 {
      assert MapSeq(f, s)[1..] == MapSeq(f, s[1..]);
      if key(s[0]) > key(x) {
        InsertMap(f, x, s[1..], key);
      }
    }
  }

  /** Changing the elements without changing their keys commutes with the
      sort: filling in fields after sorting gives the same list as filling
      them in before. */
  lemma {:induction false} SortDescMap<T>(f: T -> T, s: seq<T>, key: T -> int)
    requires forall y :: key(f(y)) == key(y)
    ensures SortDesc(MapSeq(f, s), key) == MapSeq(f, SortDesc(s, key))
    decreases |s|
  {
    if |s| > 0 {
      assert MapSeq(f, s)[1..] == MapSeq(f, s[1..]);
      SortDescMap(f, s[1..], key);
      InsertMap(f, s[0], SortDesc(s[1..], key), key);
    }
  }

  /** `Array.from(new Set(s))`: the distinct elements of `s`, each at the
      place of its first occurrence. */
  function Dedup<T(==)>(s: seq<T>): (r: seq<T>)
    ensures forall i :: 0 <= i < |r| ==> r[i] in s
    ensures forall i :: 0 <= i < |s| ==> s[i] in r
    ensures forall i, j :: 0 <= i < j < |r| ==> r[i] != r[j]
    ensures |r| <= |s|
  {
    if |s| == 0 then []
    else
      var p := s[..|s| - 1];
      var d := Dedup(p);
      assert forall i :: 0 <= i < |s| - 1 ==> s[i] == p[i];
      if s[|s| - 1] in d then d else d + [s[|s| - 1]]
  }

  /** `x` first occurs in `s` at index `a`. */
  ghost predicate FirstAt<T>(s: seq<T>, x: T, a: int) {
    0 <= a < |s| && s[a] == x && x !in s[..a]
  }

  /** The first-occurrence order: `x` comes before `y` in the de-duplicated
      list iff the first `x` comes before the first `y` in `s`. */
  lemma {:induction false} DedupKeepsFirstOccurrence<T>(s: seq<T>, i: nat, j: nat)
    requires i < j < |Dedup(s)|
    ensures exists a, b :: a < b && FirstAt(s, Dedup(s)[i], a) && FirstAt(s, Dedup(s)[j], b)
    decreases |s|
  {
    var p := s[..|s| - 1];
    var d := Dedup(p);
    var r := Dedup(s);
    if j < |d| {
      DedupKeepsFirstOccurrence(p, i, j);
      var a, b :| a < b && FirstAt(p, d[i], a) && FirstAt(p, d[j], b);
      assert r[i] == d[i] && r[j] == d[j];
      assert s[..a] == p[..a] && s[..b] == p[..b];
      assert FirstAt(s, r[i], a) && FirstAt(s, r[j], b);
    } else {
      assert r[j] == s[|s| - 1] && s[|s| - 1] !in d;
      assert r[i] == d[i] && d[i] in p;
      FirstIndex(p, d[i]);
      var a0 :| FirstAt(p, d[i], a0);
      assert s[..a0] == p[..a0];
      assert FirstAt(s, r[i], a0);
      assert FirstAt(s, r[j], |s| - 1);
    }
  }

  lemma {:induction false} FirstIndex<T>(s: seq<T>, x: T)
    requires x in s
    ensures exists a :: FirstAt(s, x, a)
    decreases |s|
  {
    if s[0] == x {
      assert FirstAt(s, x, 0);
    } else {
      assert x in s[1..];
      FirstIndex(s[1..], x);
      var a :| FirstAt(s[1..], x, a);
      assert s[..a + 1] == [s[0]] + s[1..][..a];
      assert FirstAt(s, x, a + 1);
    }
  }

  /** `s.filter(p)`: the elements satisfying `p`, in their order. */
  function Filter<T>(s: seq<T>, p: T -> bool): (r: seq<T>)
    ensures |r| <= |s|
    ensures forall i :: 0 <= i < |r| ==> p(r[i])
    ensures multiset(r) <= multiset(s)
    ensures forall i :: 0 <= i < |s| && p(s[i]) ==> multiset(r)[s[i]] == multiset(s)[s[i]]
    decreases |s|
  {
    if |s| == 0 then []
    else
      var rest := Filter(s[1..], p);
      assert s == [s[0]] + s[1..];
      if p(s[0]) then [s[0]] + rest else rest
  }

  /** The filter keeps the order of what it keeps: filtering a list in two
      pieces gives the filtered pieces one after the other. */
  lemma {:induction false} FilterAppend<T>(a: seq<T>, b: seq<T>, p: T -> bool)
    ensures Filter(a + b, p) == Filter(a, p) + Filter(b, p)
    decreases |a|
  {
    if |a| > 0 {
      assert (a + b)[1..] == a[1..] + b;
      FilterAppend(a[1..], b, p);
    } else {
      assert a + b == b;
    }
  }

  /** A list whose every element passes is left exactly as it was. */
  lemma {:induction false} FilterAll<T>(s: seq<T>, p: T -> bool)
    requires forall i :: 0 <= i < |s| ==> p(s[i])
    ensures Filter(s, p) == s
    decreases |s|
  {
    if |s| > 0 {
      assert forall i :: 0 <= i < |s[1..]| ==> s[1..][i] == s[i + 1];
      FilterAll(s[1..], p);
      assert s == [s[0]] + s[1..];
    }
  }

  /** Membership after filtering. */
  lemma FilterMembership<T>(s: seq<T>, p: T -> bool, x: T)
    ensures x in Filter(s, p) <==> x in s && p(x)
  {
    var r := Filter(s, p);
    if x in r {
      assert x in multiset(r);
      var i :| 0 <= i < |r| && r[i] == x;
    }
    if x in s && p(x) {
      var i :| 0 <= i < |s| && s[i] == x;
      assert multiset(r)[x] == multiset(s)[x] > 0;
    }
  }
}

=== FILE: signup.dfy ===
/** The signup form: its field validators, the cross-field password match,
    and the message shown after the server answers. */
module Signup {
  import opened Options
  import opened Text
  import opened Values

  datatype SignupForm = SignupForm(name: string, email: string, phone: string, password: string,
                                   confirmPassword: string, role: string)

  /** `required` and `minLength(3)`. */
  predicate NameValid(s: string) {
    s != "" && |s| >= 3
  }

  /** The separator `[\s-]` the phone pattern allows after a country code. */
  predicate IsPhoneSeparator(c: char) {
    IsWhitespace(c) || c == '-'
  }

  /** The part before the ten-digit number: one to three digits, optionally
      followed by one separator. */
  predicate CountryCode(u: string) {
    (1 <= |u| <= 3 && AllDigits(u))
    || (2 <= |u| <= 4 && AllDigits(u[..|u| - 1]) && IsPhoneSeparator(u[|u| - 1]))
  }

  /** `/^(?:\+?\d{1,3}[\s-]?)?\d{10}$/.test(s)`, decided from the end: the
      last ten characters are the number and what precedes them (after an
      optional `+`) is a country code. */
  predicate PhoneMatches(s: string) {
    (|s| == 10 && AllDigits(s))
    || (var t := if |s| > 0 && s[0] == '+' then s[1..] else s;
        |t| > 10 && AllDigits(t[|t| - 10..]) && CountryCode(t[..|t| - 10]))
  }

  /** One way of writing a number the pattern describes: an optional `+`,
      a country code of up to three digits (none means no `+` and no
      separator), an optional separator and ten digits. */
  predicate PhoneShape(plus: bool, code: string, sep: string, number: string) {
    && AllDigits(code) && |code| <= 3
    && (sep == "" || (|sep| == 1 && IsPhoneSeparator(sep[0])))
    && |number| == 10 && AllDigits(number)
    && (code == "" ==> !plus && sep == "")
  }

  function PhoneText(plus: bool, code: string, sep: string, number: string): string {
    (if plus then "+" else "") + code + sep + number
  }

  /** The decision procedure accepts exactly the numbers the pattern
      describes. */
  lemma PhoneMatchesLanguage(s: string)
    ensures PhoneMatches(s) <==>
      exists plus, code, sep, number :: PhoneShape(plus, code, sep, number) && s == PhoneText(plus, code, sep, number)
  {
    if PhoneMatches(s) {
      PhoneWitness(s);
    }
    if exists plus, code, sep, number :: PhoneShape(plus, code, sep, number) && s == PhoneText(plus, code, sep, number) {
      var plus, code, sep, number :| PhoneShape(plus, code, sep, number) && s == PhoneText(plus, code, sep, number);
      PhoneTextMatches(plus, code, sep, number);
    }
  }

  lemma PhoneWitness(s: string)
    requires PhoneMatches(s)
    ensures exists plus, code, sep, number :: PhoneShape(plus, code, sep, number) && s == PhoneText(plus, code, sep, number)
  {
    if |s| == 10 && AllDigits(s) {
      assert PhoneShape(false, "", "", s) && s == PhoneText(false, "", "", s);
    } else {
      var plus := |s| > 0 && s[0] == '+';
      var t := if plus then s[1..] else s;
      assert s == (if plus then "+" else "") + t;
      CodedWitness(plus, t, s);
    }
  }

  lemma CodedWitness(plus: bool, t: string, s: string)
    requires s == (if plus then "+" else "") + t
    requires |t| > 10 && AllDigits(t[|t| - 10..]) && CountryCode(t[..|t| - 10])
    ensures exists plus, code, sep, number :: PhoneShape(plus, code, sep, number) && s == PhoneText(plus, code, sep, number)
  {
    var u, number := t[..|t| - 10], t[|t| - 10..];
    assert t == u + number;
    if 1 <= |u| <= 3 && AllDigits(u) {
      assert PhoneShape(plus, u, "", number);
      assert s == PhoneText(plus, u, "", number);
    } else {
      var code, sep := u[..|u| - 1], [u[|u| - 1]];
      assert u == code + sep;
      assert PhoneShape(plus, code, sep, number);
      assert s == PhoneText(plus, code, sep, number);
    }
  }

  lemma PhoneTextMatches(plus: bool, code: string, sep: string, number: string)
    requires PhoneShape(plus, code, sep, number)
    ensures PhoneMatches(PhoneText(plus, code, sep, number))
  {
    var s := PhoneText(plus, code, sep, number);
    if code == "" {
      assert s == number;
    } else {
      var t := code + sep + number;
      if plus {
        assert s == "+" + t && s[1..] == t;
      } else {
        assert s[0] == code[0] && s == t;
      }
      assert t[|t| - 10..] == number && t[..|t| - 10] == code + sep;
      if sep != "" {
        assert (code + sep)[..|code + sep| - 1] == code;
      }
    }
  }

  /** The characters `[!@#$%^&*()_+\-=[\]{};':"\\|,.<>\/?]` lists. */
  predicate IsSpecial(c: char) {
    c in "!@#$%^&*()_+-=[]{};':\"\\|,.<>/?"
  }

  predicate IsLowerAscii(c: char) { 'a' <= c <= 'z' }
  predicate IsUpperAscii(c: char) { 'A' <= c <= 'Z' }

  /** Some character satisfying `p` occurs before any line terminator:
      the lookahead `(?=.*[...])`. */
  predicate Lookahead(s: string, p: char -> bool) {
    exists i :: 0 <= i < |s| && p(s[i]) && forall j :: 0 <= j < i ==> !IsLineTerminator(s[j])
  }

  /** `required`, `minLength(8)` and the strength pattern, read literally:
      four lookaheads, then at least eight characters none of which is a
      line terminator, up to the end. */
  predicate PasswordPattern(s: string) {
    && s != "" && |s| >= 8
    && Lookahead(s, IsLowerAscii) && Lookahead(s, IsUpperAscii) && Lookahead(s, IsDigit) && Lookahead(s, IsSpecial)
    && forall i :: 0 <= i < |s| ==> !IsLineTerminator(s[i])
  }

  /** The strength rule in plain terms. */
  predicate PasswordStrong(s: string) {
    && |s| >= 8
    && (forall i :: 0 <= i < |s| ==> !IsLineTerminator(s[i]))
    && (exists i :: 0 <= i < |s| && IsLowerAscii(s[i]))
    && (exists i :: 0 <= i < |s| && IsUpperAscii(s[i]))
    && (exists i :: 0 <= i < |s| && IsDigit(s[i]))
    && (exists i :: 0 <= i < |s| && IsSpecial(s[i]))
  }

  /** Because the whole password must be free of line terminators, each
      lookahead just asks for one character of its class. */
  lemma PasswordPatternMeaning(s: string)
    ensures PasswordPattern(s) <==> PasswordStrong(s)
  {
    if PasswordStrong(s) {
      var a :| 0 <= a < |s| && IsLowerAscii(s[a]);
      var b :| 0 <= b < |s| && IsUpperAscii(s[b]);
      var c :| 0 <= c < |s| && IsDigit(s[c]);
      var d :| 0 <= d < |s| && IsSpecial(s[d]);
      assert IsLowerAscii(s[a]) && IsUpperAscii(s[b]) && IsDigit(s[c]) && IsSpecial(s[d]);
    }
  }

  /** The group validator: `passwordMismatch` exactly when the two differ. */
  predicate PasswordMismatch(f: SignupForm) {
    f.password != f.confirmPassword
  }

  /** The whole form; `emailOk` is the framework's e-mail validator. */
  predicate FormValid(f: SignupForm, emailOk: string -> bool) {
    && NameValid(f.name)
    && f.email != "" && emailOk(f.email)
    && f.phone != "" && PhoneMatches(f.phone)
    && PasswordPattern(f.password)
    && f.confirmPassword != ""
    && f.role != ""
    && !PasswordMismatch(f)
  }

  /** The form is valid exactly when the name has at least three
      characters, the e-mail is given and accepted, the phone matches, the
      password is strong and confirmed, and a role is chosen; the separate
      `required` checks on phone and confirmation add nothing. */
  lemma FormValidMeaning(f: SignupForm, emailOk: string -> bool)
    ensures FormValid(f, emailOk) <==>
              && |f.name| >= 3
              && f.email != "" && emailOk(f.email)
              && PhoneMatches(f.phone)
              && PasswordStrong(f.password)
              && f.confirmPassword == f.password
              && f.role != ""
  {
    PasswordPatternMeaning(f.password);
  }

  /** `submit`: an invalid form sends nothing; a valid one sends its fields. */
  function Submit(f: SignupForm, emailOk: string -> bool): (payload: Option<Row>)
    ensures payload.Some? <==> FormValid(f, emailOk)
    ensures payload.Some? ==> "confirmPassword" !in payload.value && "password" in payload.value
                              && payload.value["password"] == Str(f.confirmPassword)
  {
    if !FormValid(f, emailOk) then None
    else Some(Payload(f))
  }

  /** The request body: every field but the confirmation. */
  function Payload(f: SignupForm): (p: Row)
    ensures "confirmPassword" !in p && "password" in p && p["password"] == Str(f.password)
  {
    var p := map["name" := Str(f.name), "email" := Str(f.email), "phone" := Str(f.phone),
                 "password" := Str(f.password), "role" := Str(f.role)];
    assert p.Keys == {"name", "email", "phone", "password", "role"};
    p
  }

  /** `v?.join(', ')` for the field-error list: the joined texts of an
      array, absent otherwise. */
  function JoinErrors(v: Value): (r: Value)
    ensures r.Str? || r.Undefined?
    ensures !v.Arr? ==> r == Undefined
    ensures v.Arr? ==> r.Str?
    ensures v.Arr? && |v.items| == 1 ==> r == Str(ErrorText(v.items[0]))
  {
    match v
    case Arr(items) => Str(Join(ErrorTexts(items), ", "))
    case _ => Undefined
  }

  /** How `join` prints one element: null and undefined as "". */
  function ErrorText(x: Value): string {
    if Nullish(x) then "" else ToStr(x)
  }

  function ErrorTexts(items: seq<Value>): (ts: seq<string>)
    ensures |ts| == |items| && forall i :: 0 <= i < |items| ==> ts[i] == ErrorText(items[i])
  {
    seq(|items|, i requires 0 <= i < |items| => ErrorText(items[i]))
  }

  /** Appending a field error appends ", " and its text to the joined
      message. */
  lemma JoinErrorsAppend(items: seq<Value>, x: Value)
    requires |items| > 0
    ensures JoinErrors(Arr(items + [x])) == Str(JoinErrors(Arr(items)).s + ", " + ErrorText(x))
  {
    assert ErrorTexts(items + [x]) == ErrorTexts(items) + [ErrorText(x)];
    JoinAppend(ErrorTexts(items), ErrorText(x), ", ");
  }

  /** A reply that counts as a failure although it arrived normally. */
  predicate RejectedReply(res: Value) {
    !Truthy(res) || Prop(res, "api_status") == Bool(false) || Truthy(Prop(res, "error"))
  }

  datatype Shown = Error(message: Value) | Success(message: Value)

  /** The message after a normal reply. */
  function OnReply(res: Value): (m: Shown)
    ensures m.Error? <==> RejectedReply(res)
    ensures Truthy(m.message)
    ensures m.Success? && Truthy(Prop(res, "message")) ==> m.message == Prop(res, "message")
    ensures m.Success? && !Truthy(Prop(res, "message")) ==> m.message == Str("Signup successful. Redirecting...")
  {
    if RejectedReply(res) then
      Error(OrAll([JoinErrors(Prop(res, "feildErrors")), Prop(res, "message"), Str("Signup failed")]))
    else
      Success(Or(Prop(res, "message"), Str("Signup successful. Redirecting...")))
  }

  /** The message after a failed request. */
  function OnFailure(err: Value): (m: Value)
    ensures Truthy(m)
    ensures Truthy(JoinErrors(Prop(Prop(err, "error"), "feildErrors"))) ==>
              m == JoinErrors(Prop(Prop(err, "error"), "feildErrors"))
    ensures !Truthy(JoinErrors(Prop(Prop(err, "error"), "feildErrors"))) && Truthy(Prop(Prop(err, "error"), "message")) ==>
              m == Prop(Prop(err, "error"), "message")
    ensures (!Truthy(JoinErrors(Prop(Prop(err, "error"), "feildErrors"))) && !Truthy(Prop(Prop(err, "error"), "message"))
             && Truthy(Prop(err, "message"))) ==> m == Prop(err, "message")
    ensures (!Truthy(JoinErrors(Prop(Prop(err, "error"), "feildErrors"))) && !Truthy(Prop(Prop(err, "error"), "message"))
             && !Truthy(Prop(err, "message"))) ==> m == Str("Signup failed")
  {
    var body := Prop(err, "error");
    var vs := [JoinErrors(Prop(body, "feildErrors")), Prop(body, "message"), Prop(err, "message"), Str("Signup failed")];
    OrAllTruthy(vs);
    assert vs[1..] == [vs[1], vs[2], vs[3]] && vs[1..][1..] == [vs[2], vs[3]] && vs[1..][1..][1..] == [vs[3]];
    OrAllTruthy(vs[1..]);
    OrAllTruthy(vs[1..][1..]);
    OrAll([JoinErrors(Prop(body, "feildErrors")), Prop(body, "message"), Prop(err, "message"), Str("Signup failed")])
  }

  /** Field errors win over the message, the message over the default; an
      empty field-error list counts as none. */
  lemma FailureMessagePriority(res: Value)
    requires RejectedReply(res)
    ensures Truthy(JoinErrors(Prop(res, "feildErrors"))) ==> OnReply(res) == Error(JoinErrors(Prop(res, "feildErrors")))
    ensures !Truthy(JoinErrors(Prop(res, "feildErrors"))) && Truthy(Prop(res, "message")) ==>
              OnReply(res) == Error(Prop(res, "message"))
    ensures !Truthy(JoinErrors(Prop(res, "feildErrors"))) && !Truthy(Prop(res, "message")) ==>
              OnReply(res) == Error(Str("Signup failed"))
  {
    var vs := [JoinErrors(Prop(res, "feildErrors")), Prop(res, "message"), Str("Signup failed")];
    assert vs[1..] == [vs[1], vs[2]] && vs[1..][1..] == [vs[2]];
  }

  /** Two field errors are shown joined by a comma and a space. */
  lemma FieldErrorsJoined()
    ensures JoinErrors(Arr([Str("Email exists"), Str("Phone invalid")])) == Str("Email exists, Phone invalid")
  {
    var a, b := Str("Email exists"), Str("Phone invalid");
    assert [a] + [b] == [a, b];
    JoinErrorsAppend([a], b);
    var head, tail := JoinErrors(Arr([a])).s, ErrorText(b);
    assert head == "Email exists" && tail == "Phone invalid";
    assert JoinErrors(Arr([a, b])) == Str(head + ", " + tail);
  }
}

=== FILE: super_admin.dfy ===
/** The super-admin dashboard's row logic: its own title filler (which,
    unlike the librarian's, ignores a book record's `name`), its lists, and
    the user-deletion flow with its local list filter. */
module AdminDashboard {
  import opened Options
  import opened Values
  import opened Sequences
  import opened IssueRows
  import LibrarianDashboard

  /** The nested-record title fill: `it.book && it.book.title`. */
  function BookTitle(row: Row): Value {
    And(Get(row, "book"), Prop(Get(row, "book"), "title"))
  }

  /** `attachTitles` on this dashboard: the fetch phase is the librarian's. */
  const Titles: Filler := Filler("title", BookTitle, LibrarianDashboard.BookIdOf, LibrarianDashboard.FetchedTitle)

  /** The list a response carries: the response itself when it is an array,
      else `res.data || res || []`. */
  function ListOf(res: Value): Value {
    if res.Arr? then res else OrAll([Prop(res, "data"), res, Arr([])])
  }

  /** The two readings of a response differ on an object without `data`:
      the other pages see an empty list, this one keeps the object, which
      the sort and fill steps then leave alone as a non-array. */
  lemma ListOfObjectWithoutData(f: map<string, Value>)
    requires "data" !in f
    ensures ListOf(Obj(f)) == Obj(f)
    ensures ResponseList(Obj(f)) == Arr([])
    ensures SortByIssuedDate(ListOf(Obj(f)), (s: string) => None) == Obj(f)
  {
    var vs := [Prop(Obj(f), "data"), Obj(f), Arr([])];
    assert vs[1..] == [Obj(f), Arr([])];
    assert OrAll(vs) == OrAll(vs[1..]) == Obj(f);
  }

  /** A list as this dashboard loads it: titles and member names attached,
      newest first. */
  function LoadList(rows: seq<Row>, books: Value -> Value, users: Value -> Value, parse: string -> Option<int>): (r: seq<Row>)
    ensures |r| == |rows|
    ensures SortedDesc(r, RowKey(parse))
    ensures multiset(r) == multiset(LoadUnsorted(Titles, LibrarianDashboard.Members, rows, books, users))
  {
    LoadRowsSorted(Titles, LibrarianDashboard.Members, rows, books, users, parse);
    LoadRows(Titles, LibrarianDashboard.Members, rows, books, users, parse)
  }

  /** A book record with a `name` but no `title` fills a title on the
      librarian's dashboard and not on this one. */
  lemma NestedTitleIgnoresName(n: string)
    requires n != ""
    ensures FillNested(Titles, map["book" := Obj(map["name" := Str(n)])]) == map["book" := Obj(map["name" := Str(n)])]
    ensures FillNested(LibrarianDashboard.Titles, map["book" := Obj(map["name" := Str(n)])])["title"] == Str(n)
  {
  }

  /** Where the two dashboards' first phases agree: a book record with a
      truthy `title` fills an empty title alike on both. */
  lemma NestedTitleAgrees(row: Row)
    requires Truthy(Prop(Get(row, "book"), "title"))
    ensures FillNested(Titles, row) == FillNested(LibrarianDashboard.Titles, row)
  {
  }

  /** `u?.id ?? u?.user_id ?? u?._id` (the delete handler's id). */
  function UserIdField(u: Value): Value {
    CoalesceAll([Prop(u, "id"), Prop(u, "user_id"), Prop(u, "_id")])
  }

  /** The local filter after a delete keeps the users whose id prints
      unlike the deleted id. */
  predicate Keeps(id: Value, x: Value) {
    ToStr(UserIdField(x)) != ToStr(id)
  }

  function KeepsUser(id: Value): Value -> bool {
    x => Keeps(id, x)
  }

  /** The handler's id, when truthy, is the filter's id. */
  lemma SameUserId(u: Value)
    requires Truthy(CoalesceAll([Prop(u, "id"), Prop(u, "user_id"), Prop(u, "_id"), Null]))
    ensures CoalesceAll([Prop(u, "id"), Prop(u, "user_id"), Prop(u, "_id"), Null]) == UserIdField(u)
  {
    var vs := [Prop(u, "id"), Prop(u, "user_id"), Prop(u, "_id"), Null];
    var ws := [Prop(u, "id"), Prop(u, "user_id"), Prop(u, "_id")];
    assert vs[1..] == [Prop(u, "user_id"), Prop(u, "_id"), Null];
    assert vs[1..][1..] == [Prop(u, "_id"), Null];
    assert ws[1..] == [Prop(u, "user_id"), Prop(u, "_id")];
    assert ws[1..][1..] == [Prop(u, "_id")];
  }

  /** What `confirmDeleteUser` does. */
  datatype Deletion =
    | NoUserId
    | Kept(prompt: string)
    | DeleteFailed(prompt: string, id: Value)
    | Deleted(prompt: string, id: Value, users: seq<Value>)

  /** The name in the prompt: `u?.name || u?.fullName || u?.email || ''`. */
  function DisplayName(u: Value): Value {
    OrAll([Prop(u, "name"), Prop(u, "fullName"), Prop(u, "email"), Str("")])
  }

  /** The dialog's question, naming the user or, failing a name, the id. */
  function DeletePrompt(u: Value): string {
    "Do you want to delete user: \"" + ToStr(Or(DisplayName(u), UserIdField(u))) + "\"?"
  }

  /** `confirmDeleteUser`: a user without a truthy id gets no dialog;
      otherwise the prompt names the user, and after confirmation the
      delete is sent and, when it succeeds, the local list loses exactly
      the users whose id prints like the deleted one. `failed` says whether
      the delete request fails. */
  function ConfirmDeleteUser(u: Value, users: seq<Value>, confirmed: bool, failed: bool): (r: Deletion)
    ensures r.NoUserId? <==> !Truthy(CoalesceAll([Prop(u, "id"), Prop(u, "user_id"), Prop(u, "_id"), Null]))
    ensures !r.NoUserId? ==> r.prompt == DeletePrompt(u)
    ensures (r.DeleteFailed? || r.Deleted?) <==> !r.NoUserId? && confirmed
    ensures r.Deleted? <==> !r.NoUserId? && confirmed && !failed
    ensures (r.DeleteFailed? || r.Deleted?) ==> r.id == UserIdField(u) && Truthy(r.id)
    ensures r.Deleted? ==> r.users == Filter(users, KeepsUser(UserIdField(u)))
  {
    var id := CoalesceAll([Prop(u, "id"), Prop(u, "user_id"), Prop(u, "_id"), Null]);
    if !Truthy(id) then NoUserId
    else
      SameUserId(u);
      var prompt := DeletePrompt(u);
      if !confirmed then Kept(prompt)
      else if failed then DeleteFailed(prompt, id)
      else Deleted(prompt, id, Filter(users, KeepsUser(id)))
  }

  /** After a delete the list loses exactly the users whose id prints
      like the deleted id (the deleted user among them) and keeps the
      others in their order. */
  lemma DeleteRemovesExactly(users: seq<Value>, id: Value)
    ensures forall x :: x in Filter(users, KeepsUser(id)) <==> x in users && Keeps(id, x)
    ensures forall a, b :: users == a + b ==>
              Filter(users, KeepsUser(id)) == Filter(a, KeepsUser(id)) + Filter(b, KeepsUser(id))
  {
    var p := KeepsUser(id);
    forall x
      ensures x in Filter(users, p) <==> x in users && Keeps(id, x)
    {
      assert p(x) == Keeps(id, x);
      FilterMembership(users, p, x);
    }
    forall a, b | users == a + b
      ensures Filter(users, p) == Filter(a, p) + Filter(b, p)
    {
      FilterAppend(a, b, p);
    }
  }

  /** The user being deleted is among those removed. */
  lemma DeletedUserRemoved(u: Value, users: seq<Value>)
    ensures u !in Filter(users, KeepsUser(UserIdField(u)))
  {
    FilterMembership(users, KeepsUser(UserIdField(u)), u);
  }
}

=== FILE: text.dfy ===
/** String helpers standing in for the JavaScript string operations the
    application uses: `String(n)` on integers, `Number(s)` on form input,
    `padStart(2, '0')`, `toLowerCase`, `trim`, `includes` and `join`. */
module Text {
  import opened Options

  predicate IsDigit(c: char) {
    '0' <= c <= '9'
  }

  predicate AllDigits(s: string) {
    forall i :: 0 <= i < |s| ==> IsDigit(s[i])
  }

  function DigitValue(c: char): (d: nat)
    requires IsDigit(c)
    ensures d < 10
  {
    (c as int) - ('0' as int)
  }

  function DigitChar(d: nat): (c: char)
    requires d < 10
    ensures IsDigit(c) && DigitValue(c) == d
  {
    (('0' as int) + d) as char
  }

  /** Value of a string of decimal digits, most significant first. */
  function DigitsValue(s: string): nat
    requires AllDigits(s)
  {
    if |s| == 0 then 0 else DigitsValue(s[..|s| - 1]) * 10 + DigitValue(s[|s| - 1])
  }

  /** `String(n)` for a non-negative integer: shortest decimal form. */
  function NatToString(n: nat): (s: string)
    ensures 1 <= |s| && AllDigits(s)
    ensures n > 0 ==> s[0] != '0'
    ensures n < 10 <==> |s| == 1
    decreases n
  {
    if n < 10 then [DigitChar(n)] else NatToString(n / 10) + [DigitChar(n % 10)]
  }

  /** `String(i)` for any integer: a leading '-' for negatives. */
  function IntToString(i: int): (s: string)
    ensures i >= 0 ==> AllDigits(s)
    ensures i < 0 ==> |s| >= 2 && s[0] == '-' && AllDigits(s[1..])
  {
    if i < 0 then "-" + NatToString(-i) else NatToString(i)
  }

  lemma {:induction false} DigitsValueOfNatToString(n: nat)
    ensures DigitsValue(NatToString(n)) == n
    decreases n
  {
    if n >= 10 {
      var p := NatToString(n / 10);
      var s := p + [DigitChar(n % 10)];
      assert s[..|s| - 1] == p;
      DigitsValueOfNatToString(n / 10);
    }
  }

  /** Four-digit numbers print as exactly four characters. */
  lemma NatToStringLength4(n: nat)
    requires 1000 <= n <= 9999
    ensures |NatToString(n)| == 4
  {
    var a := n / 10;
    var b := a / 10;
    var c := b / 10;
    assert 1 <= c < 10;
    assert |NatToString(c)| == 1;
    assert |NatToString(b)| == 2;
    assert |NatToString(a)| == 3;
  }

  /** Two-digit numbers print as exactly two characters. */
  lemma NatToStringLength2(n: nat)
    requires 10 <= n <= 99
    ensures |NatToString(n)| == 2
  {
    assert |NatToString(n / 10)| == 1;
  }

  /** Leading zeros do not change a digit string's value. */
  lemma {:induction false} DigitsValueLeadingZero(s: string)
    requires AllDigits(s)
    ensures AllDigits("0" + s) && DigitsValue("0" + s) == DigitsValue(s)
    decreases |s|
  {
    var t := "0" + s;
    if |s| > 0 {
      assert t[..|t| - 1] == "0" + s[..|s| - 1];
      DigitsValueLeadingZero(s[..|s| - 1]);
    }
  }

  /** `padStart(2, '0')`: left-fill with zeros up to two characters. */
  function Pad2(s: string): (r: string)
    ensures |s| >= 2 ==> r == s
    ensures |s| < 2 ==> |r| == 2
    ensures s <= r[|r| - |s|..] && r[|r| - |s|..] == s
    ensures forall i :: 0 <= i < |r| - |s| ==> r[i] == '0'
  {
    if |s| >= 2 then s else if |s| == 1 then "0" + s else "00"
  }

  /** A padded number reads back as the number. */
  lemma Pad2OfNat(n: nat)
    requires n < 100
    ensures |Pad2(NatToString(n))| == 2
    ensures AllDigits(Pad2(NatToString(n)))
    ensures DigitsValue(Pad2(NatToString(n))) == n
  {
    DigitsValueOfNatToString(n);
    if n < 10 {
      DigitsValueLeadingZero(NatToString(n));
    } else {
      NatToStringLength2(n);
    }
  }

  /** The whitespace and line terminators that `String.prototype.trim`
      removes (ECMAScript WhiteSpace and LineTerminator). */
  predicate IsWhitespace(c: char) {
    var k := c as int;
    k == 0x09 || k == 0x0A || k == 0x0B || k == 0x0C || k == 0x0D || k == 0x20
    || k == 0xA0 || k == 0x1680 || (0x2000 <= k <= 0x200A) || k == 0x2028 || k == 0x2029
    || k == 0x202F || k == 0x205F || k == 0x3000 || k == 0xFEFF
  }

  /** The characters a regular-expression `.` does not match. */
  predicate IsLineTerminator(c: char) {
    var k := c as int;
    k == 0x0A || k == 0x0D || k == 0x2028 || k == 0x2029
  }

  predicate AllWhitespace(s: string) {
    forall i :: 0 <= i < |s| ==> IsWhitespace(s[i])
  }

  /** Number of whitespace characters at the start of `s`. */
  function LeadingBlanks(s: string): (n: nat)
    ensures n <= |s| && AllWhitespace(s[..n])
    ensures n == |s| || !IsWhitespace(s[n])
    decreases |s|
  {
    if |s| > 0 && IsWhitespace(s[0]) then
      var m := LeadingBlanks(s[1..]);
      assert s[..1 + m] == [s[0]] + s[1..][..m];
      1 + m
    else
      0
  }

  /** Number of whitespace characters at the end of `s`. */
  function TrailingBlanks(s: string): (n: nat)
    ensures n <= |s| && AllWhitespace(s[|s| - n..])
    ensures n == |s| || !IsWhitespace(s[|s| - n - 1])
    decreases |s|
  {
    if |s| > 0 && IsWhitespace(s[|s| - 1]) then
      var m := TrailingBlanks(s[..|s| - 1]);
      TrailingBlanksStep(s, m);
      m + 1
    else
      0
  }

  /** One more blank at the end extends the trailing run of the prefix. */
  lemma TrailingBlanksStep(s: string, m: nat)
    requires |s| > 0 && IsWhitespace(s[|s| - 1])
    requires m <= |s| - 1 && AllWhitespace(s[..|s| - 1][|s| - 1 - m..])
    requires m == |s| - 1 || !IsWhitespace(s[..|s| - 1][|s| - 1 - m - 1])
    ensures AllWhitespace(s[|s| - (m + 1)..])
    ensures m + 1 == |s| || !IsWhitespace(s[|s| - (m + 1) - 1])
  {
    var t := s[..|s| - 1];
    var w := s[|s| - (m + 1)..];
    forall i | 0 <= i < |w|
      ensures IsWhitespace(w[i])
    {
      if i < m {
        assert w[i] == t[|t| - m..][i];
      }
    }
    if m + 1 < |s| {
      assert s[|s| - (m + 1) - 1] == t[|t| - m - 1];
    }
  }

  /** `s.trim()`: the slice of `s` left after dropping whitespace at both ends. */
  function Trim(s: string): string {
    var i := LeadingBlanks(s);
    s[i..|s| - TrailingBlanks(s[i..])]
  }

  /** `trim` removes only blanks, and only at the ends, and leaves no blank
      at either end. */
  lemma TrimSpec(s: string)
    ensures exists i, j :: 0 <= i <= j <= |s| && Trim(s) == s[i..j] && AllWhitespace(s[..i]) && AllWhitespace(s[j..])
    ensures Trim(s) == [] || (!IsWhitespace(Trim(s)[0]) && !IsWhitespace(Trim(s)[|Trim(s)| - 1]))
  {
    var i := LeadingBlanks(s);
    var n := TrailingBlanks(s[i..]);
    var j := |s| - n;
    var r := s[i..j];
    assert s[i..][|s[i..]| - n..] == s[j..];
    assert AllWhitespace(s[..i]) && AllWhitespace(s[j..]);
    assert r != [] ==> r[0] == s[i] && r[|r| - 1] == s[i..][|s[i..]| - n - 1];
  }

  /** A string with no blank at either end is its own trim. */
  lemma TrimUnchanged(s: string)
    requires s == [] || (!IsWhitespace(s[0]) && !IsWhitespace(s[|s| - 1]))
    ensures Trim(s) == s
  {
    if |s| > 0 {
      assert LeadingBlanks(s) == 0;
      assert s[0..] == s;
      assert TrailingBlanks(s) == 0;
    }
  }

  /** `Number(s)` followed by `Number.isInteger`: the integer a form field
      denotes, or None when it is not an integer. Only optional surrounding
      whitespace, an optional sign and decimal digits are recognised; the
      empty (or all-blank) string is 0, as in JavaScript. */
  function ParseInteger(s: string): Option<int> {
    var t := Trim(s);
    if |t| == 0 then Some(0)
    else if (t[0] == '-' || t[0] == '+') && |t| > 1 && AllDigits(t[1..]) then
      var v: int := DigitsValue(t[1..]);
      Some(if t[0] == '-' then -v else v)
    else if AllDigits(t) then Some(DigitsValue(t))
    else None
  }

  lemma ParseIntegerOfDigits(s: string)
    requires AllDigits(s) && |s| > 0
    ensures ParseInteger(s) == Some(DigitsValue(s))
  {
    assert IsDigit(s[0]) && IsDigit(s[|s| - 1]);
    TrimUnchanged(s);
    assert s[0] != '-' && s[0] != '+';
  }

  /** Reading back what `String(i)` prints gives `i`. */
  lemma {:induction false} ParseIntegerOfIntToString(i: int)
    ensures ParseInteger(IntToString(i)) == Some(i)
  {
    if i < 0 {
      ParseIntegerOfNegativeInt(i);
    } else {
      assert IntToString(i) == NatToString(i);
      ParseIntegerOfNatToString(i);
    }
  }

  lemma {:induction false} ParseIntegerOfNegativeInt(i: int)
    requires i < 0
    ensures ParseInteger(IntToString(i)) == Some(i)
  {
    var n: nat := -i;
    var d := NatToString(n);
    var s := IntToString(i);
    assert s == "-" + d;
    assert IsDigit(d[|d| - 1]);
    assert s[|s| - 1] == d[|d| - 1];
    TrimUnchanged(s);
    assert s[1..] == d;
    DigitsValueOfNatToString(n);
  }

  lemma ParseIntegerOfNatToString(n: nat)
    ensures ParseInteger(NatToString(n)) == Some(n)
  {
    DigitsValueOfNatToString(n);
    ParseIntegerOfDigits(NatToString(n));
  }

  function LowerChar(c: char): (d: char)
    ensures !('A' <= d <= 'Z')
    ensures c != d ==> 'A' <= c <= 'Z'
  {
    if 'A' <= c <= 'Z' then (c as int + 32) as char else c
  }

  /** `toLowerCase` on the ASCII letters. */
  function Lower(s: string): (r: string)
    ensures |r| == |s|
    ensures forall i :: 0 <= i < |r| ==> !('A' <= r[i] <= 'Z')
    ensures forall i :: 0 <= i < |s| && !('A' <= s[i] <= 'Z') ==> r[i] == s[i]
  {
    seq(|s|, i requires 0 <= i < |s| => LowerChar(s[i]))
  }

  /** Lower-casing commutes with taking a slice. */
  lemma LowerSlice(s: string, i: nat, j: nat)
    requires i <= j <= |s|
    ensures Lower(s)[i..j] == Lower(s[i..j])
  {
  }

  lemma LowerIdempotent(s: string)
    ensures Lower(Lower(s)) == Lower(s)
  {
  }

  /** `s.includes(sub)` for strings. */
  predicate HasPrefixAt(s: string, sub: string, i: nat) {
    i + |sub| <= |s| && s[i..i + |sub|] == sub
  }

  function Contains(s: string, sub: string): (b: bool)
    ensures b <==> exists i :: 0 <= i <= |s| && HasPrefixAt(s, sub, i)
    decreases |s|
  {
    if sub <= s then
      assert HasPrefixAt(s, sub, 0);
      true
    else if |s| == 0 then
      false
    else
      var rest := Contains(s[1..], sub);
      assert forall i :: 1 <= i <= |s| && HasPrefixAt(s, sub, i) ==> HasPrefixAt(s[1..], sub, i - 1);
      assert forall i :: 0 <= i <= |s| - 1 && HasPrefixAt(s[1..], sub, i) ==> HasPrefixAt(s, sub, i + 1);
      rest
  }

  /** `parts.join(sep)`. */
  function Join(parts: seq<string>, sep: string): (r: string)
    ensures r == [] <==> (forall i :: 0 <= i < |parts| ==> parts[i] == []) && (|parts| <= 1 || sep == [])
    ensures |parts| == 1 ==> r == parts[0]
  {
    if |parts| == 0 then ""
    else if |parts| == 1 then parts[0]
    else parts[0] + sep + Join(parts[1..], sep)
  }

  /** Joining one more part appends the separator and the part. */
  lemma {:induction false} JoinAppend(parts: seq<string>, p: string, sep: string)
    requires |parts| > 0
    ensures Join(parts + [p], sep) == Join(parts, sep) + sep + p
    decreases |parts|
  {
    if |parts| > 1 {
      assert (parts + [p])[1..] == parts[1..] + [p];
      JoinAppend(parts[1..], p, sep);
    }
  }

  /** Number of decimal digits at the start of `s`. */
  function LeadingDigits(s: string): (k: nat)
    ensures k <= |s| && AllDigits(s[..k])
    ensures k == |s| || !IsDigit(s[k])
    decreases |s|
  {
    if |s| > 0 && IsDigit(s[0]) then
      var m := LeadingDigits(s[1..]);
      assert s[..1 + m] == [s[0]] + s[1..][..m];
      1 + m
    else
      0
  }

  /** Reads the number that `s` starts with, and the text after it. */
  function ReadNat(s: string): Option<(nat, string)> {
    var k := LeadingDigits(s);
    if k == 0 then None else Some((DigitsValue(s[..k]), s[k..]))
  }

  /** The digit run of `d + rest` is exactly `d` when `rest` does not
      continue it. */
  lemma {:induction false} LeadingDigitsOfAppend(d: string, rest: string)
    requires AllDigits(d)
    requires rest == [] || !IsDigit(rest[0])
    ensures LeadingDigits(d + rest) == |d|
    decreases |d|
  {
    if |d| == 0 {
      assert d + rest == rest;
    } else {
      assert (d + rest)[1..] == d[1..] + rest;
      LeadingDigitsOfAppend(d[1..], rest);
    }
  }

  /** A printed number followed by a non-digit reads back as the number. */
  lemma ReadNatOfNatToString(n: nat, rest: string)
    requires rest == [] || !IsDigit(rest[0])
    ensures ReadNat(NatToString(n) + rest) == Some((n, rest))
  {
    var d := NatToString(n);
    var s := d + rest;
    LeadingDigitsOfAppend(d, rest);
    assert s[..|d|] == d;
    assert s[|d|..] == rest;
    DigitsValueOfNatToString(n);
  }

  /** `s.split(c)` for a one-character separator. */
  function SplitOn(s: string, c: char): (parts: seq<string>)
    ensures |parts| >= 1
    ensures forall i :: 0 <= i < |parts| ==> c !in parts[i]
    decreases |s|
  {
    if |s| == 0 then [""]
    else
      var rest := SplitOn(s[1..], c);
      if s[0] == c then [""] + rest
      else [[s[0]] + rest[0]] + rest[1..]
  }

  /** Splitting loses nothing: joining the pieces with the separator gives
      the text back. */
  lemma {:induction false} JoinSplitOn(s: string, c: char)
    ensures Join(SplitOn(s, c), [c]) == s
    decreases |s|
  {
    if |s| > 0 {
      var rest := SplitOn(s[1..], c);
      JoinSplitOn(s[1..], c);
      assert s == [s[0]] + s[1..];
      if s[0] != c && |rest| > 1 {
        var parts := SplitOn(s, c);
        assert parts[1..] == rest[1..];
        assert Join(rest, [c]) == rest[0] + [c] + Join(rest[1..], [c]);
      }
    }
  }

  /** The number of pieces is one more than the number of separators. */
  lemma {:induction false} SplitOnCount(s: string, c: char)
    ensures |SplitOn(s, c)| == multiset(s)[c] + 1
    decreases |s|
  {
    if |s| > 0 {
      SplitOnCount(s[1..], c);
      assert s == [s[0]] + s[1..];
      assert multiset(s) == multiset{s[0]} + multiset(s[1..]);
    }
  }
}

=== FILE: values.dfy ===
/** The JavaScript values that the frontend reads out of API responses, and
    the operators it applies to them: property access, `??`, `||`, `&&`,
    `String(v)` and `new Date(v)`. JavaScript numbers are modelled as
    integers (every number the application handles is an id or a count of
    milliseconds). */
module Values {
  import opened Options
  import opened Text

  datatype Value =
    | Undefined
    | Null
    | Bool(b: bool)
    | Num(n: int)
    | Str(s: string)
    | Arr(items: seq<Value>)
    | Obj(fields: map<string, Value>)

  /** A plain object, as the rows of every list the API returns are. */
  type Row = map<string, Value>

  /** `row.key`: Undefined when the key is absent. */
  function Get(r: Row, key: string): Value {
    if key in r then r[key] else Undefined
  }

  /** `v?.key` (and `v.key` where `v` is known to be an object). */
  function Prop(v: Value, key: string): Value {
    match v
    case Obj(f) => Get(f, key)
    case _ => Undefined
  }

  /** `v?.[i]`. */
  function At(v: Value, i: nat): Value {
    match v
    case Arr(items) => if i < |items| then items[i] else Undefined
    case Obj(f) => Get(f, NatToString(i))
    case _ => Undefined
  }

  /** `null` or `undefined`: what `??` and `!= null` test for. */
  predicate Nullish(v: Value) {
    v.Undefined? || v.Null?
  }

  /** What `if (v)`, `!v`, `||` and `&&` test for. */
  predicate Truthy(v: Value) {
    match v
    case Undefined => false
    case Null => false
    case Bool(b) => b
    case Num(n) => n != 0
    case Str(s) => s != ""
    case Arr(_) => true
    case Obj(_) => true
  }

  lemma NullishIsFalsy(v: Value)
    ensures Nullish(v) ==> !Truthy(v)
  {
  }

  /** `a ?? b`. */
  function Coalesce(a: Value, b: Value): Value {
    if Nullish(a) then b else a
  }

  /** `a || b`. */
  function Or(a: Value, b: Value): Value {
    if Truthy(a) then a else b
  }

  /** `a && b`. */
  function And(a: Value, b: Value): Value {
    if Truthy(a) then b else a
  }

  /** `vs[0] ?? vs[1] ?? ... ?? vs[n-1]`: the first operand that is neither
      null nor undefined, or the last operand when all of them are. */
  function CoalesceAll(vs: seq<Value>): (r: Value)
    requires |vs| > 0
    ensures exists k :: CoalesceStopsAt(vs, k) && r == vs[k]
  {
    if |vs| == 1 || !Nullish(vs[0]) then
      assert CoalesceStopsAt(vs, 0);
      vs[0]
    else
      var r := CoalesceAll(vs[1..]);
      var k :| CoalesceStopsAt(vs[1..], k) && r == vs[1..][k];
      assert CoalesceStopsAt(vs, k + 1);
      r
  }

  /** A `??` chain stops at operand `k`: every earlier operand is nullish,
      and `k` is defined or the last operand. */
  predicate CoalesceStopsAt(vs: seq<Value>, k: int) {
    && 0 <= k < |vs|
    && (forall j :: 0 <= j < k ==> Nullish(vs[j]))
    && (k < |vs| - 1 ==> !Nullish(vs[k]))
  }

  /** A `??` chain yields a defined value exactly when one of its operands is defined. */
  lemma CoalesceAllDefined(vs: seq<Value>)
    requires |vs| > 0
    ensures !Nullish(CoalesceAll(vs)) <==> exists i :: 0 <= i < |vs| && !Nullish(vs[i])
  {
  }

  /** `vs[0] || vs[1] || ... || vs[n-1]`: the first truthy operand, or the
      last operand when none is truthy. */
  function OrAll(vs: seq<Value>): (r: Value)
    requires |vs| > 0
    ensures exists k :: OrStopsAt(vs, k) && r == vs[k]
  {
    if |vs| == 1 || Truthy(vs[0]) then
      assert OrStopsAt(vs, 0);
      vs[0]
    else
      var r := OrAll(vs[1..]);
      var k :| OrStopsAt(vs[1..], k) && r == vs[1..][k];
      assert OrStopsAt(vs, k + 1);
      r
  }

  /** A `||` chain is truthy exactly when one of its operands is, and then
      it is the first truthy operand. */
  lemma {:induction false} OrAllTruthy(vs: seq<Value>)
    requires |vs| > 0
    ensures Truthy(OrAll(vs)) <==> exists i :: 0 <= i < |vs| && Truthy(vs[i])
    ensures Truthy(vs[0]) ==> OrAll(vs) == vs[0]
    decreases |vs|
  {
    if |vs| > 1 && !Truthy(vs[0]) {
      OrAllTruthy(vs[1..]);
      if exists i :: 0 <= i < |vs| && Truthy(vs[i]) {
        var i :| 0 <= i < |vs| && Truthy(vs[i]);
        assert vs[1..][i - 1] == vs[i];
      }
    }
  }

  /** A `||` chain stops at operand `k`: every earlier operand is falsy, and
      `k` is truthy or the last operand. */
  predicate OrStopsAt(vs: seq<Value>, k: int) {
    && 0 <= k < |vs|
    && (forall j :: 0 <= j < k ==> !Truthy(vs[j]))
    && (k < |vs| - 1 ==> Truthy(vs[k]))
  }

  /** `String(v)`. */
  function ToStr(v: Value): string {
    match v
    case Undefined => "undefined"
    case Null => "null"
    case Bool(b) => if b then "true" else "false"
    case Num(n) => IntToString(n)
    case Str(s) => s
    case Arr(items) =>
      Join(seq(|items|, i requires 0 <= i < |items| => if Nullish(items[i]) then "" else ToStr(items[i])), ",")
    case Obj(_) => "[object Object]"
  }

  /** Distinct numeric ids print as distinct strings, so a lookup table keyed
      by `String(id)` never confuses two numeric ids. */
  lemma ToStrNumInjective(a: int, b: int)
    ensures ToStr(Num(a)) == ToStr(Num(b)) ==> a == b
  {
    ParseIntegerOfIntToString(a);
    ParseIntegerOfIntToString(b);
  }

  /** The largest magnitude of a valid JavaScript time value (ms). */
  const MaxTime: int := 8_640_000_000_000_000

  function TimeClip(t: int): Option<int> {
    if -MaxTime <= t <= MaxTime then Some(t) else None
  }

  /** `new Date(v).getTime()`, None for an Invalid Date. `parse` is the host's
      date-string parser, giving milliseconds since the epoch. */
  function NewDate(v: Value, parse: string -> Option<int>): (t: Option<int>)
    ensures t.Some? ==> -MaxTime <= t.value <= MaxTime
    ensures v.Num? ==> (t.Some? <==> -MaxTime <= v.n <= MaxTime)
  {
    match v
    case Undefined => None
    case Null => Some(0)
    case Bool(b) => Some(if b then 1 else 0)
    case Num(n) => TimeClip(n)
    case Str(s) => if parse(s).Some? then TimeClip(parse(s).value) else None
    case _ => if parse(ToStr(v)).Some? then TimeClip(parse(ToStr(v)).value) else None
  }
}
